=== FILE: README.md ===
# Rubicon game-settings option engine, in Dafny

Rubicon is a game launcher. Its game-settings screen is driven by a
settings schema: a map of settings files. Each file has a *view* (how its
text is parsed):

- sectional: INI sections;
- line: raw lines matched by a name-specific pattern;
- tag: an XML-like tree.

Each file also has a list of *parameters* that say where one option lives
in it. The option engine works in four stages:

1. It reads every parameter out of the parsed files. Failures are
   recorded per parameter index, and unusable parameters and files are
   pruned.
2. It holds the values in a normalised option map, file → option name →
   `{default, value, parent}`.
3. It distributes the edits a control emits back into that map.
4. It writes changed values back into the parsed files and commits them
   (`default := value`).

Switching the Mod Organizer profile rewrites one INI value, re-reads only
the profile-scoped files and merges their options in. The configuration
screen edits the schema itself: groups, files and options as arrays of
records.

The model is a set of pure functions over immutable datatypes, one module
per concern:

| module | file | concern |
|---|---|---|
| `Wrappers` | wrappers.dfy | `Option` |
| `Strings` | strings.dfy | JavaScript `\s`, `trim`, `indexOf`, `replace` with its `$` patterns, `split`/`join` on strings |
| `Seqs` | seqs.dfy | `Array.prototype.filter` and the order of what it keeps |
| `TagTree` | tagtree.dfy | the parsed tag tree and the deep-key read/write |
| `Schema` | schema.dfy | views, parameter types, parameters, files, option names |
| `IniFile` | inifile.dfy | the parsed INI document and the whitespace-preserving sectional rewrite |
| `Options` | options.dfy | the option map: changed subset, reset/commit, single-option update |
| `Extraction` | extraction.dfy | per-view extraction and the batch fold with partial failure |
| `Pruning` | pruning.dfy | pruning of failed parameters and files; the initialisation outcome |
| `ModOrganizer` | modorganizer.dfy | Mod Organizer parameters, profile decode/encode, profile switch |
| `Save` | save.dfy | option name → location, per-view writes, post-save commit |
| `Content` | content.dfy | the settings screen's displayed value and its input handler |
| `ConfigScreen` | configscreen.dfy | schema-editing transformations of the configuration screen |

The helpers the engine calls but whose code is not part of this model are
function-valued parameters:

- the line-view regular expressions, bundled as `Extraction.LineSyntax`;
- the Mod Organizer path patterns (`isProfilePath`, `isMo`, `toGameDir`);
- the custom profile pattern (`customGroup`);
- the file reader (`read`);
- the default-option factory (`makeOption`);
- the post-delete option rewrite (`afterDelete`);
- range formatting (`formatRange`).

Where the modelled code throws (a TypeError on `undefined`), the model gives `None`; the few throws it excludes by a precondition instead are listed under "Left out". Option-map
entries are `map`s, so JavaScript's spread merge `{...a, ...b}` is Dafny's
`a + b`.

## Model

| member | source | states |
|---|---|---|
| Schema.OptionName | src/utils/data.ts:123-148 | the three naming cases: `valuePath/name/valueName` when both tag fields are present, otherwise `iniGroup/name` when the group is non-empty, otherwise `name` |
| Schema.SectionalNameSplits | src/utils/data.ts:136-148 | a sectional option name splits on `/` back into exactly its group and its name when neither holds `/` (the inverse the save path relies on) |
| Schema.TagNameSplits | src/utils/data.ts:136-148 | a tag option name splits on `/` back into the value path's segments followed by the name and the value name |
| Schema.ParametersForOptionsGenerate | src/utils/data.ts:333-345 | with navigation groups and a truthy current group, the result holds exactly the parameters of that group, in their order in the file (the k-th is the k-th parameter of the group); otherwise it is the whole list |
| Schema.SelectOptions | src/utils/data.ts:273-287 | one select entry per key, in order; an array gives caption = value = key, an object gives caption = label and value = key |
| Schema.SelectOptionsRecoverSource | src/utils/data.ts:273-287 | the options give the source back: their values are the keys in order and, for an object, each caption is its key's label; an array of keys gives the same options as the object labelling each key with itself |
| Schema.UserThemes | src/utils/data.ts:503-513 | the keys are the empty key plus every folder; each folder maps to itself; the built-in theme stays under the empty key unless a folder is called "" |
| Seqs.Positions | src/utils/data.ts:333-345 | the indexes of the accepted elements, strictly increasing, each accepted, and every accepted index listed |
| Seqs.Filter | src/utils/data.ts:333-345 | `filter` keeps an element if and only if it is in the array and accepted, and is never longer |
| Seqs.FilterInOrder | src/utils/data.ts:333-345 | `filter` is the subsequence of accepted elements: its k-th element is the k-th accepted element of the input |
| Seqs.FilterFirst | src/renderer/containers/GameSettingsConfigurationScreen/index.tsx:305-333 | the first element `filter` keeps is the first accepted element of the input |
| Seqs.FilterLast | src/renderer/containers/GameSettingsConfigurationScreen/index.tsx:474-487 | the last element `filter` keeps is the last accepted element of the input |
| Seqs.FilterNone | src/renderer/containers/GameSettingsConfigurationScreen/index.tsx:305-333 | a filter that accepts no element gives the empty array |
| Seqs.FilterAppend | src/renderer/containers/GameSettingsConfigurationScreen/index.tsx:540-546 | filtering a concatenation is the concatenation of the filtered parts |
| Seqs.FilterIdempotent | src/renderer/containers/GameSettingsConfigurationScreen/index.tsx:540-546 | filtering twice with the same test is filtering once |
| Seqs.FilterKeepsAll | src/renderer/containers/GameSettingsConfigurationScreen/index.tsx:540-546 | a filter that accepts every element gives the array back |
| Strings.SubstituteLiteral | src/redux/sagas/gameSettings.ts:761-764 | a replacement text without `$` is inserted as it is, whatever the match and its surroundings |
| Strings.ReplaceFirstLiteral | src/utils/data.ts:528-535 | `replace` with a string pattern and a `$`-free replacement: without an occurrence the string is unchanged, otherwise only the first occurrence is swapped for the replacement |
| Strings.ReplaceByMatchIsIdentity | src/utils/data.ts:528-535 | `replace` by `$&` puts the matched text back, so the string is unchanged |
| TagTree.SetDeep | src/utils/data.ts:156-164 | the write succeeds exactly when every proper prefix of the path addresses an object; on success the root keeps its keys plus the first path key |
| TagTree.SetThenGet | src/utils/data.ts:150-164 | after a successful deep-key write, the deep-key read of the same path returns the written value |
| TagTree.SetKeepsOtherPaths | src/utils/data.ts:150-164 | a deep-key write leaves the read of every path that diverges from the written one unchanged |
| TagTree.SetHidesExtensions | src/utils/data.ts:150-164 | after a write, no path that extends the written one can be read |
| IniFile.ChangeSectionalParameter | src/utils/data.ts:455-484 | the code as written: fails exactly when the section, the key or an `=` in the old line is missing; otherwise only the target line of the target section changes, its value becomes the new value, and its text is the library's `key=value` with every `=` respaced |
| IniFile.RewriteKeepsSpacing | src/utils/data.ts:455-484 | for a `key ws1 = ws2 value` line and a new value without `=`, the rewritten text is `key ws1 = ws2 newValue`, so the old spacing is kept |
| IniFile.EqualsInValueIsRespaced | src/utils/data.ts:478-479 | the counterexample: line `a = b` set to `x=y` gives the text `a = x = y`, not `a = x=y` |
| IniFile.ChangeSectionalParameterFixed | src/utils/data.ts:455-484 | the corrected rewrite: the same effects and failure condition, but the new text is key, old spacing, new value, whatever the value contains |
| IniFile.FixedRewriteKeepsSpacing | src/utils/data.ts:455-484 | for a `key ws1 = ws2 value` line the corrected text is `key ws1 = ws2 newValue` for every new value, `=` included |
| IniFile.ChangeThenGet | src/utils/data.ts:455-484 | after the rewrite as written, the section and key read the new value, and every other section and key reads what it read before |
| IniFile.ValueAt | src/utils/data.ts:461-470 | the value of a key is defined exactly when the section exists and holds the key |
| IniFile.ReadAfterLineChange | src/utils/data.ts:455-484 | two documents that differ in one line of one section, with the same keys and names, read the same everywhere except at that line's section and key |
| Options.CheckboxValue | src/renderer/components/GameSettingsContent/index.tsx:79-107 | `String(Number(checked))` is "0" or "1", and "1" exactly when checked |
| Options.GenerateNew | src/utils/data.ts:355-365 | a single entry under the option's name whose value is the new value, with default and parent copied from the current option |
| Options.Changed | src/utils/data.ts:371-406 | an entry is kept if and only if its value differs from its default, and is copied unchanged; a file appears only when it keeps some entry |
| Options.ChangedIdempotent | src/utils/data.ts:371-406 | taking the changed subset twice gives the changed subset |
| Options.ChangedEmptyIff | src/utils/data.ts:371-406 | the changed subset is empty if and only if every entry has value = default |
| Options.WithDefaults | src/utils/data.ts:412-435 | same files and names, parents kept; with reset every value becomes its default, without reset every default becomes its value |
| Options.WithDefaultsLeavesNothingChanged | src/utils/data.ts:412-435 | after either form of `getGameSettingsOptionsWithDefaultValues` the changed subset is empty |
| Options.ResetUndoesEdit | src/utils/data.ts:355-435 | merging one single-option edit into an unchanged map and then resetting to defaults gives back the original map |
| Extraction.SectionalData | src/utils/data.ts:189-207 | a missing section gives one warning and no name; a missing key gives one warning; otherwise the name is `section/key` as stored in the file, the value is the line's, and there is no warning |
| Extraction.FirstValue | src/utils/data.ts:208-225 | the first line whose matcher yields a non-empty value, with every earlier line yielding the empty string |
| Extraction.LineData | src/utils/data.ts:208-225 | succeeds if and only if the name is non-empty and some line yields a non-empty value for the trimmed name; the name is then the untrimmed name and the value the first line's; failure is exactly one line warning |
| Extraction.TagWarning | src/utils/data.ts:248-258 | the warning kind by walk depth against the length of the key array: attribute missing iff the counter equals the length, parameter missing iff one less, tag missing otherwise |
| Extraction.TagData | src/utils/data.ts:226-258 | succeeds if and only if the walk stops on `valueName` (on `undefined` past the path when there is none) with a defined non-empty value; the name is then the joined key array; a failure carries the depth's warning |
| Extraction.TagPath | src/utils/data.ts:227-232 | the walked keys are the `valuePath` segments, then `name`, then `valueName` when there is one |
| Extraction.TagPathLength | src/utils/data.ts:228-232 | the key array's length counts the `valueName` slot, so it equals the number of walked keys exactly when `valueName` is present |
| Extraction.WalkThroughObjects | src/utils/data.ts:236-244 | a walk whose keys all lead through objects arrives past the end of the path at the object they lead to |
| Extraction.MissingValueNameWarns | src/utils/data.ts:226-258 | a tag parameter without `valueName` whose path leads to a tag with no property "undefined" gives the attribute warning, under the joined name ending in `/` |
| Extraction.WalkReadsDeepKey | src/utils/data.ts:150-154 | when the deep-key read of the tag path finds a leaf, the recursive walk stops at the end of the path with that value |
| Extraction.WalkFoundIsDeepKey | src/utils/data.ts:226-246 | whatever the walk finds is the deep-key read of the path prefix it walked |
| Extraction.TagDataFindsDeepKey | src/utils/data.ts:226-258 | a non-empty leaf at `valuePath/name/valueName` is extracted under the option name with that value and no warning |
| Extraction.ExtractedNameIsOptionName | src/utils/data.ts:136-266 | for every view, a successful extraction names the option exactly as `getOptionName` does for a parameter of that view |
| Extraction.ItemsFold | src/redux/sagas/gameSettings.ts:319-368 | a composite's items: at most one failure per item, the last errors empty exactly when nothing failed, and every produced option fresh (default = value, parent = file) |
| Extraction.ItemsFoldSucceedsIff | src/redux/sagas/gameSettings.ts:319-368 | a composite has no failure if and only if every one of its items extracts without a warning |
| Extraction.ParamStep | src/redux/sagas/gameSettings.ts:319-395 | a parameter with any failure adds no options; its index is appended once per failing item (once for a default parameter); freshness is kept |
| Extraction.ParamsFold | src/redux/sagas/gameSettings.ts:315-398 | over one file's parameters: every option fresh, and the recorded indexes are valid and non-decreasing |
| Extraction.IncorrectCounts | src/redux/sagas/gameSettings.ts:319-395 | each parameter index occurs in the recorded list exactly as often as that parameter has failures |
| Extraction.RepeatCount | src/redux/sagas/gameSettings.ts:333-338 | pushing the index once per failing item puts the index k times and nothing else into the list |
| Extraction.GenerateOptions | src/redux/sagas/gameSettings.ts:400-416 | a file appears in the options exactly when it yields some option, and in the incorrect map exactly when some index was recorded |
| Extraction.FreshExtractionUnchanged | src/redux/sagas/gameSettings.ts:340-394 | every extracted option has default = value and its file as parent, so the changed subset of a fresh extraction is empty |
| Extraction.IncorrectIffFailure | src/redux/sagas/gameSettings.ts:400-416 | a file is in the incorrect map if and only if one of its parameters has a failure |
| Extraction.ReadFiles | src/redux/sagas/gameSettings.ts:257-288 | the batch read succeeds only if every file reads, and then holds exactly the read data for each file |
| Pruning.KeptIndexesExact | src/utils/data.ts:311-315 | the kept positions are exactly the unlisted positions below the length, in increasing order |
| Pruning.KeepUnlisted | src/utils/data.ts:311-315 | the kept parameters are, in order, the parameters at the kept positions |
| Pruning.FilterIncorrectFiles | src/utils/data.ts:295-323 | the code as written: files without failures pass unchanged; a file whose index list is as long as its parameter list is dropped; any other file keeps its unlisted parameters |
| Pruning.FilterDropsReadableFile | src/utils/data.ts:295-323 | the counterexample: a composite with two failing items plus a readable default parameter gives the list `[0, 0]`, and the file is dropped though its second parameter is readable |
| Pruning.DuplicateIndexArises | src/redux/sagas/gameSettings.ts:319-416 | the extraction fold does produce `[0, 0]` with the option `S/k` for such a file |
| Pruning.FilterIncorrectFilesFixed | src/utils/data.ts:295-323 | the corrected filter: a file is kept if and only if it has no failures or some parameter index is unlisted, and a kept file with failures keeps a non-empty list of exactly its unlisted parameters |
| Pruning.KeptEmptyIff | src/utils/data.ts:303-315 | no position is kept if and only if every position is listed |
| Pruning.FiltersAgreeWithoutDuplicates | src/utils/data.ts:295-323 | when the index lists have no repetitions and are in range, the filter as written and the corrected one agree |
| Pruning.DefaultOnlyIndexesDistinct | src/redux/sagas/gameSettings.ts:370-395 | a file of default parameters only never records an index twice, so the finding needs a composite |
| Pruning.InitOutcomeOf | src/redux/sagas/gameSettings.ts:552-560 | error exactly when there are no options; warning exactly when there are options and files were dropped, indexes recorded or the check found errors |
| Pruning.InitQuietIff | src/redux/sagas/gameSettings.ts:528-560 | with the files the schema check kept pruned by the recorded failures, initialisation is quiet if and only if there are options, no recorded failures, no check errors and the check kept as many files as the schema lists |
| ModOrganizer.NewModOrganizerParams | src/utils/data.ts:520-542 | every field is the configured one when present, else the default; with a truthy root path, an explicit derived path is kept |
| ModOrganizer.DerivedPathsFollowRoot | src/utils/data.ts:520-542 | with a new root and no explicit derived path, a default derived path under the default root keeps its tail after the substituted new root, which is the new root verbatim when it holds no `$` |
| ModOrganizer.ReplaceLeadingRoot | src/utils/data.ts:528-535 | replacing a leading root swaps it for the substituted new root and keeps the rest |
| ModOrganizer.ParamsOverrideIdentities | src/utils/data.ts:520-542 | an empty configuration gives the defaults; a complete one with non-empty paths gives itself |
| ModOrganizer.ByteArrayPayload | src/redux/sagas/gameSettings.ts:218-222 | the payload of the first `@ByteArray(...)` is a non-empty single-line string; none exactly when no position starts one |
| ModOrganizer.EncodeProfile | src/redux/sagas/gameSettings.ts:635-641 | version 1 writes the profile verbatim; any other version wraps it as `@ByteArray(p)` |
| ModOrganizer.ByteArrayRoundTrip | src/redux/sagas/gameSettings.ts:218-222 | the version-2 decode of the version-2 encoding of a non-empty single-line profile is that profile |
| ModOrganizer.DecodeProfile | src/redux/sagas/gameSettings.ts:198-236 | a missing or empty value fails and resets the profile; a custom pattern gives its group (failing with reset on no match); version 2 gives the payload (failing without reset when there is none); other versions give the raw value |
| ModOrganizer.ProfileFiles | src/redux/sagas/gameSettings.ts:650-662 | exactly the files whose path matches the profile pattern, unchanged |
| ModOrganizer.ChangeProfile | src/redux/sagas/gameSettings.ts:610-699 | the loaded flag always ends true; a missing INI entry changes nothing; a failed or unreadable profile-file read keeps the old profile and options; a switch writes the encoded profile with the rewrite as written; non-profile files' options are never touched; new files come only from the profile files |
| ModOrganizer.SwitchThenDecode | src/redux/sagas/gameSettings.ts:198-236 | for versions 1 and 2, decoding after a switch reads back the new profile; for any other version it reads back the wrapped text |
| ModOrganizer.SwitchReplacesScopedOptions | src/redux/sagas/gameSettings.ts:650-676 | a successful switch sets the new profile and merges the re-extracted profile options over the old map: theirs replace, all others stay, and they are unchanged |
| Save.FilesToSave | src/redux/sagas/gameSettings.ts:719-729 | exactly the files named in the changed map, unchanged |
| Save.SectionalTarget | src/redux/sagas/gameSettings.ts:748-754 | a sectional name splits on `/` into its first two parts, and fails when there is no `/` |
| Save.SectionalTargetOfName | src/redux/sagas/gameSettings.ts:748-754 | the target of `section/key` is `(section, key)` when neither holds `/` |
| Save.WriteSectional | src/redux/sagas/gameSettings.ts:744-754 | the write fails exactly when the name has no key part or the rewrite as written throws; otherwise its section and key read the value, every other section and key reads as before, and the global lines are kept |
| Save.SectionalWriteThenRead | src/redux/sagas/gameSettings.ts:744-754 | writing a sectional option by its name and reading the parameter again gives that name and the written value |
| Save.FirstMatch | src/redux/sagas/gameSettings.ts:758-767 | the first line the name's pattern matches, with no earlier match |
| Save.WriteLine | src/redux/sagas/gameSettings.ts:755-770 | only the first matching line is rewritten, by `replace` of its matched part with `set <name> to <value>`; every other line, and a file with no match, is unchanged |
| Save.WriteLineLiteral | src/redux/sagas/gameSettings.ts:758-767 | with no `$` in the name or value, the matched part's first occurrence becomes `set <name> to <value>` verbatim, and a line where it does not occur is unchanged |
| Save.TagWritePathShape | src/redux/sagas/gameSettings.ts:771-786 | the write path is the name's `/` segments, with the attribute prefix on the last one unless it is `#text` |
| Save.TagWritePathOfName | src/redux/sagas/gameSettings.ts:771-786 | for a tag option the write path is its value path, its name and its prefixed value name |
| Save.WriteTag | src/redux/sagas/gameSettings.ts:771-786 | the write succeeds exactly when the path's prefixes are objects; then the deep-key read of the path gives the value and every diverging path reads as before |
| Save.WriteOption | src/redux/sagas/gameSettings.ts:743-786 | per view: a sectional write fails exactly when the name has no key part or the rewrite throws, and reads back with every other key kept; a line write never fails and changes at most the first matching line; a tag write fails exactly when the path does not lead through objects, and reads back with every diverging path kept |
| Save.WriteOptionsLast | src/redux/sagas/gameSettings.ts:741-788 | a run of writes succeeds exactly when the writes before the last do and the last one does on their result; a failure before the last fails the run, and otherwise the run's result is the last write's |
| Save.TagStepReads | src/redux/sagas/gameSettings.ts:771-786 | after a run of tag writes, the last name reads back its value |
| Save.TagStepKeeps | src/redux/sagas/gameSettings.ts:771-786 | the last tag write of a run leaves every path diverging from its write path as the earlier writes left it |
| Save.TagReadsBackAt | src/redux/sagas/gameSettings.ts:741-788 | after a run of tag writes, a name reads back its value when every later name's write path diverges from its own |
| Save.SectionalStepReads | src/redux/sagas/gameSettings.ts:744-754 | after a run of sectional writes, the last name's section and key read its value |
| Save.SectionalStepKeeps | src/redux/sagas/gameSettings.ts:744-754 | the last sectional write of a run leaves every other section and key as the earlier writes left it |
| Save.SectionReadsBackAt | src/redux/sagas/gameSettings.ts:741-788 | after a run of sectional writes, a name's section and key read its value when every later name stands for another section or key |
| Save.Commit | src/redux/sagas/gameSettings.ts:806-824 | changed entries get default := value; every other entry and file is unchanged |
| Save.CommitClearsChanges | src/redux/sagas/gameSettings.ts:806-824 | committing the changed subset keeps every file, name and value and leaves nothing changed |
| Save.SaveFiles | src/redux/sagas/gameSettings.ts:705-824 | the save succeeds exactly when every changed file reads, fits its view and takes every option write; only the files named in the changed map are read and written; each written file is the run of that file's changed options, in `Object.keys` order, over the data read; the new option map is the commit of the changes |
| Save.ListedTagsReadBack | src/redux/sagas/gameSettings.ts:741-788 | when the listed names are the changed names without repeats and their write paths pairwise diverge, every changed tag option reads back its value |
| Save.ListedSectionsReadBack | src/redux/sagas/gameSettings.ts:741-788 | when the listed names are the changed names without repeats and stand for distinct sections or keys, every changed sectional option reads back its value |
| Save.SaveReadsBackTags | src/redux/sagas/gameSettings.ts:705-788 | after a successful save, every changed option of a tag file reads back its value in the written data, when the options' write paths pairwise diverge |
| Save.SaveReadsBackSections | src/redux/sagas/gameSettings.ts:705-788 | after a successful save, every changed option of a sectional file reads back its value in the written data, when the options stand for distinct sections or keys |
| Content.DisplayValue | src/renderer/components/GameSettingsContent/index.tsx:132-146 | a combined parameter shows its items' values joined by the separator, present exactly when all items are; any other shows its own option's value |
| Content.MultiNamesRoundTrip | src/renderer/components/GameSettingsContent/index.tsx:219-271 | names joined with `,` split back into the same names when none contains `,` |
| Content.JsSplit | src/renderer/components/GameSettingsContent/index.tsx:94-96 | `String.split`: no separator gives the whole string, the empty separator its characters |
| Content.EventValue | src/renderer/components/GameSettingsContent/index.tsx:79-118 | a checkbox gives "0" or "1", a select its value, and the unhandled controls the empty string |
| Content.OnOptionInputChange | src/renderer/components/GameSettingsContent/index.tsx:73-122 | emits exactly when the value is non-empty; the update holds exactly the targeted names of the file, keeps their defaults and parents, gives every name the same value for a group, and gives name i the i-th separator piece for a combined parameter |
| Content.DistributeKeys | src/renderer/components/GameSettingsContent/index.tsx:86-98 | the update holds exactly the listed names |
| Content.DistributeLastWins | src/renderer/components/GameSettingsContent/index.tsx:86-98 | a repeated name keeps the value of its last position |
| Content.DistributeUniform | src/renderer/components/GameSettingsContent/index.tsx:86-98 | a non-combined group gives every name the same value |
| Content.CombinedReselectUnchanged | src/renderer/components/GameSettingsContent/index.tsx:86-146 | re-selecting the displayed value of a combined control leaves the option map as it was (join, then split, is the identity) |
| Content.ReselectKeepsValues | src/renderer/components/GameSettingsContent/index.tsx:86-98 | a combined update whose pieces are the current values leaves the file's options unchanged |
| ConfigScreen.CreateNewGroup | src/renderer/containers/GameSettingsConfigurationScreen/index.tsx:262-274 | one group with an empty label is appended; nothing else changes |
| ConfigScreen.EditGroupItem | src/renderer/containers/GameSettingsConfigurationScreen/index.tsx:276-294 | only the group with that name is relabelled; names and order are kept |
| ConfigScreen.ValidateGroupLabel | src/renderer/containers/GameSettingsConfigurationScreen/index.tsx:296-303 | flags the label if and only if some group has it and the edited group's current label differs |
| ConfigScreen.EditedLabelValidates | src/renderer/containers/GameSettingsConfigurationScreen/index.tsx:276-303 | after relabelling a group, validating the same label for it no longer flags it |
| ConfigScreen.CreateThenEditGroup | src/renderer/containers/GameSettingsConfigurationScreen/index.tsx:262-294 | creating a group with a fresh name and labelling it appends that group with that label |
| ConfigScreen.MoveGroup | src/renderer/containers/GameSettingsConfigurationScreen/index.tsx:313-323 | options of one group move to another, and all other options are unchanged |
| ConfigScreen.DeleteGroupItem | src/renderer/containers/GameSettingsConfigurationScreen/index.tsx:305-333 | removes exactly the groups with the name; their options move to the first remaining group, which is the first group of the input with another name; the other options are unchanged; fails only when such options remain and no group does |
| ConfigScreen.KeptGroups | src/renderer/containers/GameSettingsConfigurationScreen/index.tsx:305-333 | no group is left exactly when every group has the deleted name, and the first one left is the first group with another name |
| ConfigScreen.DeleteGroupKeepsOrder | src/renderer/containers/GameSettingsConfigurationScreen/index.tsx:305-333 | the remaining groups are the groups with another name, in their order |
| ConfigScreen.DeleteGroupKeepsReferences | src/renderer/containers/GameSettingsConfigurationScreen/index.tsx:305-333 | deleting a group keeps every option's group resolvable and leaves no trace of the deleted name |
| ConfigScreen.DeleteFileById | src/renderer/containers/GameSettingsConfigurationScreen/index.tsx:474-487 | the code as written: keeps exactly the files with another id, in their order, and reports as the deleted one the last file with another id (none exactly when every file has the id) |
| ConfigScreen.KeptFiles | src/renderer/containers/GameSettingsConfigurationScreen/index.tsx:474-487 | no file is kept exactly when every file has the id |
| ConfigScreen.LastKeptFile | src/renderer/containers/GameSettingsConfigurationScreen/index.tsx:474-487 | the last kept file is the last file with another id |
| ConfigScreen.DeleteFileByIdDanglingOption | src/renderer/containers/GameSettingsConfigurationScreen/index.tsx:397-487 | the counterexample: deleting file `a`, which an option uses, reports `b`, so only the file list is replaced and the option's file no longer exists |
| ConfigScreen.DeleteFileByIdFixed | src/renderer/containers/GameSettingsConfigurationScreen/index.tsx:474-487 | the corrected handler: the same kept files in the same order, and the deleted file is one that had the id, present exactly when some file had it |
| ConfigScreen.FixedDeleteConsultsOptions | src/renderer/containers/GameSettingsConfigurationScreen/index.tsx:397-487 | with the corrected deleted file, an option that uses it is never left dangling by the branch that only replaces the file list |
| ConfigScreen.DeleteFile | src/renderer/containers/GameSettingsConfigurationScreen/index.tsx:397-472 | one file and some option: unchanged; no option uses the deleted file: only the file list is replaced; otherwise the dialog answer decides between cancel and the option rewrite |
| ConfigScreen.AddOption | src/renderer/containers/GameSettingsConfigurationScreen/index.tsx:503-526 | one option for the first file and the first group is appended; fails without a group |
| ConfigScreen.DeleteOptionById | src/renderer/containers/GameSettingsConfigurationScreen/index.tsx:540-546 | removes exactly the options with that id and keeps the others in their order; nothing else changes |
| ConfigScreen.AddThenDeleteOption | src/renderer/containers/GameSettingsConfigurationScreen/index.tsx:503-546 | deleting the just-added option by its fresh id gives back the configuration |
| ConfigScreen.DeleteOptionByIdIdempotent | src/renderer/containers/GameSettingsConfigurationScreen/index.tsx:540-546 | deleting by the same id twice is deleting once |
| ConfigScreen.IgnoreMoPaths | src/renderer/containers/GameSettingsConfigurationScreen/index.tsx:160-181 | every Mod Organizer path is rewritten to the game-dir variable, other files are unchanged, and `isUsed` turns off |
| ConfigScreen.IgnoreClearsMoPaths | src/renderer/containers/GameSettingsConfigurationScreen/index.tsx:137-181 | after "ignore", no path is a Mod Organizer path, file names and references are kept, and the dialog would not be asked again |
| ConfigScreen.DeleteMoFiles | src/renderer/containers/GameSettingsConfigurationScreen/index.tsx:184-218 | the Mod Organizer files are removed and the others kept in order; exactly the options whose file remains are kept, in order; `isUsed` turns off |
| ConfigScreen.DeleteMoFilesResolves | src/renderer/containers/GameSettingsConfigurationScreen/index.tsx:137-218 | after "delete", every option's file exists and no Mod Organizer path remains |
| ConfigScreen.AfterMoDialog | src/renderer/containers/GameSettingsConfigurationScreen/index.tsx:145-218 | answer 1 ignores, answer 2 deletes, any other answer leaves the configuration as it was |
| ConfigScreen.PathSelectorValue | src/renderer/containers/GameSettingsConfigurationScreen/index.tsx:232-260 | a selected path is used as is; an empty one falls back to the current field value, under the parent block when there is one |
| ConfigScreen.EmptySelectionKeepsField | src/renderer/containers/GameSettingsConfigurationScreen/index.tsx:238-246 | an empty selection for a Mod Organizer field keeps that field's current value |
| ConfigScreen.EmptySelectionIsReselection | src/renderer/containers/GameSettingsConfigurationScreen/index.tsx:232-260 | cancelling the selector passes on the same value as choosing the field's current non-empty value again, and that value is the one stored under the parent block, or at top level without one |

## Left out

- Saga effects (`call`, `put`, `select`, `all`), Redux actions and reducers are left out. The batches are sequential functions. A read failure of any file fails the whole batch, as `all(...)` does (`Extraction.ReadFiles`).
- File reading, writing and parsing (`readINIFile`, `readFileForGameSettingsOptions`, `writeGameSettingsFile`) are a `read` parameter and the parsed datatypes.
- The INI library is modelled concretely and minimally:
  - a lookup takes the first exact name;
  - the written text is `key=value`;
  - a file holds global lines and sections.
- The regular-expression helpers (`getParameterRegExp`, `getLineIniParameterValue`, `getStringPartFromIniLineParameterForReplace`, the Mod Organizer path patterns) and `getPathToFile` are function-valued parameters with no axioms. `getPathToFile` is only used to name files in messages.
- Range controls and float formatting (`toFixed`, `getValueFromRange`, `onOptionRangeButtonClick`) are left out because they are floating-point arithmetic. They are the `formatRange` parameter.
- User and log messages, and their texts, are left out. Warnings are an abstract `Warning` kind.
- `getUniqueValidationErrors`, `validateFileRelatedFields`, `getNewConfig`, `getDefaultGameSettingsOption` and `getChangedOptionsAfterFileDelete` are not part of this model. The last two are the `makeOption` and `afterDelete` parameters.
- Content.OnOptionInputChange: where the file or a targeted option is missing, the source throws or builds an entry without a default. The model gives `None` there.
- Options.GenerateNew: requires the option to exist. The source would throw on a missing file, and on a missing option builds an entry from `undefined` fields.
- ConfigScreen.AfterMoDialog: the switcher's other branches are left out. These are turning the switch on, and any target other than `isUsed`; they are plain field updates.
- Configuration-screen records carry only the fields the modelled transformations read or write. Group labels are called captions because `label` is a Dafny keyword.
- `getApplicationArgs`, `createCustomPaths`, `getCustomButtons`, `getBackupFolderName`, `getTypeOfElement`, `getDisplaysInfo` and `getSystemInfo` are left out. They depend on the file system, the clock, Electron or runtime reflection.
- Extraction.TagData: requires a `valuePath`. Without one the source throws a TypeError when it spreads `undefined` (src/utils/data.ts:227); that throw is not modelled. A missing `valueName` is modelled.
- Extraction.GenerateOptions: requires every resolved location of a tag file to have a `valuePath` (through `Readable`), for the same reason.
- ModOrganizer.ChangeProfile: re-extracts only when the profile files are `Readable`, so a tag parameter without `valuePath` there takes the failure branch instead of throwing.
- Extraction.ExtractedNameIsOptionName: stated for tag parameters with both tag fields. Without `valueName` the extracted name ends in `/` (`Extraction.MissingValueNameWarns`), while `getOptionName` gives `iniGroup/name` or `name`.
- ModOrganizer.ChangeProfile: a missing profile key, a failed read of a profile file and an unreadable profile file are one failure outcome that keeps the old profile and options. The source logs them and still sets the loaded flag.
- ModOrganizer.ChangeProfile: reading the Mod Organizer INI (`readINIFile`, src/redux/sagas/gameSettings.ts:630-633) and writing it back (`writeINIFile`, lines 643-648) are taken to succeed. The INI is a given value, and the switch has no outcome for a disk error there.
- Save.SaveFiles: writing the files to disk (`writeGameSettingsFile` under `all`, src/redux/sagas/gameSettings.ts:792-804) is taken to succeed. In the source a failed write skips the commit, possibly after other files were already written; that partial write is not modelled.
- Options.WithDefaults: the source copies only the top level of its argument (`{ ...gameSettingsOptions }`) and assigns `value` or `default` on the argument's own option records (src/utils/data.ts:416-431). So it also updates the caller's map in place, in the Redux state and in the save payload. The model is a pure function, and this aliasing effect is not modelled.
- The settings schema uses one `optionType` field where the engine reads `optionType` and the settings screen reads `parameterType`.

## Findings

| source | as written | input that shows it | evidently intended | confidence | as-written member | corrected member |
|---|---|---|---|---|---|---|
| src/utils/data.ts:295-323 | a file is dropped when its list of failed parameter indexes is as long as its parameter list (line 304); a composite pushes its index once per failing item, so the list can repeat an index | a group parameter with two failing items at index 0 and a readable default parameter at index 1: the list is `[0, 0]`, and the file is dropped though parameter 1 was read | drop a file only when every parameter index failed | not executed | Pruning.FilterIncorrectFiles, Pruning.FilterDropsReadableFile | Pruning.FilterIncorrectFilesFixed, Pruning.FiltersAgreeWithoutDuplicates |
| src/renderer/containers/GameSettingsConfigurationScreen/index.tsx:474-487 | the file handed on as the deleted one is the last file of the filtered list, which is a kept file | files `a` (id 1) and `b` (id 2), one option using `a`; delete id 1: `b` is reported, no option uses `b`, so only the file list is replaced and the option points at a missing file | report the file that had the id, so the in-use dialog is shown; latent in the current interface, whose only caller of this handler (`deleteFile` of the file item, line 697) has its delete button commented out, while the live delete goes through `deleteGameSettingsFile` (line 688) | not executed | ConfigScreen.DeleteFileById, ConfigScreen.DeleteFileByIdDanglingOption | ConfigScreen.DeleteFileByIdFixed, ConfigScreen.FixedDeleteConsultsOptions |
| src/utils/data.ts:455-484 | the rewritten line is the library's `key=value` text split on every `=` and rejoined with the old spacing (lines 478-479), so an `=` inside the new value is respaced too | line `a = b` set to `x=y` gives `a = x = y` | keep the old spacing around the key's own `=` only | not executed | IniFile.ChangeSectionalParameter, IniFile.EqualsInValueIsRespaced | IniFile.ChangeSectionalParameterFixed, IniFile.FixedRewriteKeepsSpacing |

The profile switch and the profile read do not agree for versions other
than 1 and 2. The switch wraps the profile as `@ByteArray(...)`, and the
read returns the raw value. So decoding after a switch gives the wrapped
text (`ModOrganizer.SwitchThenDecode`). Only versions 1 and 2 are
documented, so this is stated as behaviour rather than as a finding. The
profile switch and the save use the sectional rewrite as written, as the
program does; its corrected form is stated beside it and is used only by
the lemmas about the finding.

=== FILE: configscreen.dfy ===
/** The schema-editing transformations of the configuration screen
    (src/renderer/containers/GameSettingsConfigurationScreen/index.tsx):
    groups, files and options are edited as arrays of records keyed by
    `id` or `name`, and the Mod Organizer switch rewrites or removes the
    files whose paths use Mod Organizer variables. */
module ConfigScreen {
  import opened Wrappers
  import opened Schema
  import opened Seqs

  /** A settings file as the configuration lists it. */
  datatype ConfigFile = ConfigFile(id: string, name: string, caption: string, path: string, view: string, encoding: string)

  /** A game option as the configuration lists it (its items and control
      fields are carried along untouched and not modelled). */
  datatype ConfigOption = ConfigOption(
    id: string,
    optionType: OptionType,
    file: string,
    caption: string,
    description: string,
    settingGroup: Option<string>)

  /** The configuration's Mod Organizer block: the switch and its other
      string fields by name. */
  datatype MoConfig = MoConfig(isUsed: bool, fields: map<string, string>)

  /** The edited configuration. */
  datatype Config = Config(
    groups: seq<SettingsGroup>,
    files: seq<ConfigFile>,
    options: seq<ConfigOption>,
    modOrganizer: MoConfig)

  // ---------------------------------------------------------------- groups

  /** `createNewGroup`: appends a group with the generated name and an
      empty label. */
  function CreateNewGroup(c: Config, newName: string): (r: Config)
    ensures |r.groups| == |c.groups| + 1 && r.groups[..|c.groups|] == c.groups
    ensures r.groups[|c.groups|] == SettingsGroup(newName, "")
    ensures r.files == c.files && r.options == c.options && r.modOrganizer == c.modOrganizer
  {
    c.(groups := c.groups + [SettingsGroup(newName, "")])
  }

  /** `editGroupItem`: the groups named `name` take the new label; names
      and order stay. */
  function EditGroupItem(groups: seq<SettingsGroup>, value: string, name: string): (r: seq<SettingsGroup>)
    ensures |r| == |groups|
    ensures forall k :: 0 <= k < |r| ==> r[k].name == groups[k].name
    ensures forall k :: 0 <= k < |r| ==> r[k].caption == if groups[k].name == name then value else groups[k].caption
  {
    seq(|groups|, k requires 0 <= k < |groups| =>
      if groups[k].name == name then groups[k].(caption := value) else groups[k])
  }

  /** The first group with the given name (`find`). */
  function FindGroup(groups: seq<SettingsGroup>, name: string): (r: Option<nat>)
    ensures r.Some? ==> r.value < |groups| && groups[r.value].name == name
    ensures r.Some? ==> forall k :: 0 <= k < r.value ==> groups[k].name != name
    ensures r.None? ==> forall k :: 0 <= k < |groups| ==> groups[k].name != name
    decreases |groups|
  {
    if |groups| == 0 then None
    else if groups[0].name == name then Some(0)
    else
      match FindGroup(groups[1..], name)
      case None => None
      case Some(k) => Some(k + 1)
  }

  /** `validateGroupLabel`: a label is flagged as existing when some group
      already has it and it is not the edited group's own current label
      (with no group of that name the comparison with `undefined` holds). */
  function ValidateGroupLabel(groups: seq<SettingsGroup>, value: string, name: string): (r: bool)
    ensures r <==>
      && (exists k :: 0 <= k < |groups| && groups[k].caption == value)
      && (FindGroup(groups, name).None? || groups[FindGroup(groups, name).value].caption != value)
  {
    (exists k :: 0 <= k < |groups| && groups[k].caption == value)
    && match FindGroup(groups, name)
       case None => true
       case Some(i) => groups[i].caption != value
  }

  /** Renaming a group is accepted once the edit is applied: the label a
      group was given is never flagged against itself. */
  lemma EditedLabelValidates(groups: seq<SettingsGroup>, value: string, name: string)
    requires exists k :: 0 <= k < |groups| && groups[k].name == name
    ensures !ValidateGroupLabel(EditGroupItem(groups, value, name), value, name)
  {
    var r := EditGroupItem(groups, value, name);
    var k :| 0 <= k < |groups| && groups[k].name == name;
    assert r[k].name == name;
    var i := FindGroup(r, name).value;
    assert r[i].caption == value;
  }

  /** A freshly created group relabelled by name is the same as creating it
      with that label. */
  lemma CreateThenEditGroup(c: Config, newName: string, value: string)
    requires forall k :: 0 <= k < |c.groups| ==> c.groups[k].name != newName
    ensures EditGroupItem(CreateNewGroup(c, newName).groups, value, newName) == c.groups + [SettingsGroup(newName, value)]
  {
  }

  /** The options moved out of group `from` to group `to`. */
  function MoveGroup(options: seq<ConfigOption>, from: string, to: string): (r: seq<ConfigOption>)
    ensures |r| == |options|
    ensures forall k :: 0 <= k < |r| ==>
      r[k] == if options[k].settingGroup == Some(from) then options[k].(settingGroup := Some(to)) else options[k]
  {
    seq(|options|, k requires 0 <= k < |options| =>
      if options[k].settingGroup == Some(from) then options[k].(settingGroup := Some(to)) else options[k])
  }

  /** The test `deleteGroupItem` filters the groups with. */
  function OtherGroup(deleted: string): SettingsGroup -> bool {
    (g: SettingsGroup) => g.name != deleted
  }

  /** `groups[j]` is the first group not named `deleted`. */
  predicate FirstOther(groups: seq<SettingsGroup>, deleted: string, j: int) {
    0 <= j < |groups| && groups[j].name != deleted && forall i :: 0 <= i < j ==> groups[i].name == deleted
  }

  /** `deleteGroupItem` keeps no group exactly when every group has the
      deleted name, and the first group it keeps is the first other one. */
  lemma KeptGroups(groups: seq<SettingsGroup>, deleted: string)
    ensures |Filter(groups, OtherGroup(deleted))| == 0 <==> forall k :: 0 <= k < |groups| ==> groups[k].name == deleted
    ensures forall j :: FirstOther(groups, deleted, j) ==>
      |Filter(groups, OtherGroup(deleted))| > 0 && Filter(groups, OtherGroup(deleted))[0] == groups[j]
  {
    var kept := Filter(groups, OtherGroup(deleted));
    if |kept| > 0 {
      assert kept[0] in groups;
    }
    if exists k :: 0 <= k < |groups| && groups[k].name != deleted {
      var k :| 0 <= k < |groups| && groups[k].name != deleted;
      assert groups[k] in kept;
    }
    forall j | FirstOther(groups, deleted, j)
      ensures |kept| > 0 && kept[0] == groups[j]
    {
      FilterFirst(groups, OtherGroup(deleted), j);
    }
  }

  /** Some option belongs to the group. */
  predicate InGroupUse(options: seq<ConfigOption>, group: string) {
    exists k :: 0 <= k < |options| && options[k].settingGroup == Some(group)
  }

  /** `deleteGroupItem`: removes the groups with the given name and moves
      their options to the first remaining group. `None` where the source
      reads the name of a first group that does not exist and throws. */
  function DeleteGroupItem(c: Config, deleted: string): (r: Option<Config>)
    ensures r.None? <==> InGroupUse(c.options, deleted) && forall k :: 0 <= k < |c.groups| ==> c.groups[k].name == deleted
    ensures r.Some? ==> forall g :: g in r.value.groups <==> g in c.groups && g.name != deleted
    ensures r.Some? ==> r.value.files == c.files && r.value.modOrganizer == c.modOrganizer
    ensures r.Some? ==> |r.value.options| == |c.options|
    ensures r.Some? ==> forall k :: 0 <= k < |c.options| && c.options[k].settingGroup != Some(deleted) ==>
      r.value.options[k] == c.options[k]
    ensures r.Some? ==> forall k :: 0 <= k < |c.options| && c.options[k].settingGroup == Some(deleted) ==>
      |r.value.groups| > 0 && r.value.options[k] == c.options[k].(settingGroup := Some(r.value.groups[0].name))
    ensures r.Some? ==> forall j :: FirstOther(c.groups, deleted, j) ==> |r.value.groups| > 0 && r.value.groups[0] == c.groups[j]
  {
    var newGroups := Filter(c.groups, OtherGroup(deleted));
    KeptGroups(c.groups, deleted);
    if InGroupUse(c.options, deleted) && |newGroups| == 0 then None
    else
      var target := if |newGroups| > 0 then newGroups[0].name else "";
      Some(c.(groups := newGroups, options := MoveGroup(c.options, deleted, target)))
  }

  /** The remaining groups keep their order: they are the groups not
      named `deleted`, in the order of the configuration. */
  lemma DeleteGroupKeepsOrder(c: Config, deleted: string)
    requires DeleteGroupItem(c, deleted).Some?
    ensures InOrder(DeleteGroupItem(c, deleted).value.groups, c.groups, OtherGroup(deleted))
  {
    FilterInOrder(c.groups, OtherGroup(deleted));
  }

  /** Every option's group names a group of the configuration. */
  predicate GroupsResolve(c: Config) {
    forall k :: 0 <= k < |c.options| && c.options[k].settingGroup.Some? ==>
      exists j :: 0 <= j < |c.groups| && c.groups[j].name == c.options[k].settingGroup.value
  }

  /** Deleting a group keeps every option's group reference resolvable and
      leaves no trace of the deleted name. */
  lemma DeleteGroupKeepsReferences(c: Config, deleted: string)
    requires GroupsResolve(c) && DeleteGroupItem(c, deleted).Some?
    ensures var r := DeleteGroupItem(c, deleted).value;
      && GroupsResolve(r)
      && (forall j :: 0 <= j < |r.groups| ==> r.groups[j].name != deleted)
      && !InGroupUse(r.options, deleted)
  {
    var r := DeleteGroupItem(c, deleted).value;
    forall j | 0 <= j < |r.groups|
      ensures r.groups[j].name != deleted
    {
      assert r.groups[j] in r.groups;
    }
    forall k | 0 <= k < |r.options| && r.options[k].settingGroup.Some?
      ensures exists j :: 0 <= j < |r.groups| && r.groups[j].name == r.options[k].settingGroup.value
    {
      if c.options[k].settingGroup == Some(deleted) {
        assert r.groups[0].name == r.options[k].settingGroup.value;
      } else {
        var g := c.options[k].settingGroup.value;
        var j :| 0 <= j < |c.groups| && c.groups[j].name == g;
        assert c.groups[j] in r.groups;
        var i :| 0 <= i < |r.groups| && r.groups[i] == c.groups[j];
        assert r.groups[i].name == g;
      }
    }
    forall k | 0 <= k < |r.options|
      ensures r.options[k].settingGroup != Some(deleted)
    {
      if c.options[k].settingGroup == Some(deleted) {
        assert r.groups[0] in r.groups;
      }
    }
  }

  // ----------------------------------------------------------------- files

  /** The test `deleteGameSettingsFileById` filters the files with. */
  function OtherFile(id: string): ConfigFile -> bool {
    (f: ConfigFile) => f.id != id
  }

  /** `files[j]` is the last file whose id is not `id`. */
  predicate LastOther(files: seq<ConfigFile>, id: string, j: int) {
    0 <= j < |files| && files[j].id != id && forall i :: j < i < |files| ==> files[i].id == id
  }

  /** `deleteGameSettingsFileById` keeps no file exactly when every file
      has the id, and the last file it keeps is the last one without it. */
  lemma KeptFiles(files: seq<ConfigFile>, id: string)
    ensures |Filter(files, OtherFile(id))| == 0 <==> forall k :: 0 <= k < |files| ==> files[k].id == id
    ensures forall j :: LastOther(files, id, j) ==>
      |Filter(files, OtherFile(id))| > 0 && Filter(files, OtherFile(id))[|Filter(files, OtherFile(id))| - 1] == files[j]
  {
    var kept := Filter(files, OtherFile(id));
    if |kept| > 0 {
      assert kept[0] in files;
    }
    if exists j :: 0 <= j < |files| && files[j].id != id {
      var j :| 0 <= j < |files| && files[j].id != id;
      assert files[j] in kept;
    }
    LastKeptFile(files, id);
  }

  /** The last file `deleteGameSettingsFileById` keeps is the last file
      with another id. */
  lemma LastKeptFile(files: seq<ConfigFile>, id: string)
    ensures forall j :: LastOther(files, id, j) ==>
      |Filter(files, OtherFile(id))| > 0 && Filter(files, OtherFile(id))[|Filter(files, OtherFile(id))| - 1] == files[j]
  {
    forall j | LastOther(files, id, j)
      ensures |Filter(files, OtherFile(id))| > 0 && Filter(files, OtherFile(id))[|Filter(files, OtherFile(id))| - 1] == files[j]
    {
      FilterLast(files, OtherFile(id), j);
    }
  }

  /** `deleteGameSettingsFileById` as written: keeps the files whose id
      differs, and reports as the deleted file the last file it KEPT. The
      file item that would call it has its delete button commented out, so
      the defect is latent in the current interface. */
  function DeleteFileById(files: seq<ConfigFile>, id: string): (r: (seq<ConfigFile>, Option<ConfigFile>))
    ensures forall f :: f in r.0 <==> f in files && f.id != id
    ensures InOrder(r.0, files, OtherFile(id))
    ensures r.1.None? <==> forall k :: 0 <= k < |files| ==> files[k].id == id
    ensures forall j :: LastOther(files, id, j) ==> r.1 == Some(files[j])
  {
    var kept := Filter(files, OtherFile(id));
    FilterInOrder(files, OtherFile(id));
    KeptFiles(files, id);
    (kept, if |kept| > 0 then Some(kept[|kept| - 1]) else None)
  }

  /** The last file with the given id. */
  function LastWithId(files: seq<ConfigFile>, id: string): (r: Option<ConfigFile>)
    ensures r.Some? <==> exists k :: 0 <= k < |files| && files[k].id == id
    ensures r.Some? ==> r.value in files && r.value.id == id
    decreases |files|
  {
    if |files| == 0 then None
    else if files[|files| - 1].id == id then Some(files[|files| - 1])
    else LastWithId(files[..|files| - 1], id)
  }

  /** `deleteGameSettingsFileById` as evidently intended: the same kept
      files, and as the deleted file the file that carried the id. */
  function DeleteFileByIdFixed(files: seq<ConfigFile>, id: string): (r: (seq<ConfigFile>, Option<ConfigFile>))
    ensures forall f :: f in r.0 <==> f in files && f.id != id
    ensures InOrder(r.0, files, OtherFile(id))
    ensures r.1.Some? <==> exists k :: 0 <= k < |files| && files[k].id == id
    ensures r.1.Some? ==> r.1.value in files && r.1.value.id == id && r.1.value !in r.0
  {
    FilterInOrder(files, OtherFile(id));
    (Filter(files, OtherFile(id)), LastWithId(files, id))
  }

  /** Some option uses the file (`deletedItem?.name`; nothing matches an
      absent file). */
  predicate FileInUse(options: seq<ConfigOption>, deleted: Option<ConfigFile>) {
    deleted.Some? && exists k :: 0 <= k < |options| && options[k].file == deleted.value.name
  }

  /** `deleteGameSettingsFile`: with one file and some option nothing
      changes; when an option uses the deleted file the user's answer
      (0 cancel, 1 reassign, 2 delete) decides, and `afterDelete` stands
      for the unseen option rewrite; otherwise only the file list is
      replaced. */
  function DeleteFile(c: Config, newFiles: seq<ConfigFile>, deleted: Option<ConfigFile>, response: nat,
                      afterDelete: (seq<ConfigOption>, seq<ConfigFile>, bool) -> seq<ConfigOption>): (r: Config)
    ensures |c.files| == 1 && |c.options| > 0 ==> r == c
    ensures !(|c.files| == 1 && |c.options| > 0) && !FileInUse(c.options, deleted) ==> r == c.(files := newFiles)
    ensures !(|c.files| == 1 && |c.options| > 0) && FileInUse(c.options, deleted) ==>
      r == if response > 0 then c.(files := newFiles, options := afterDelete(c.options, newFiles, response == 2)) else c
  {
    if |c.files| == 1 && |c.options| > 0 then c
    else if FileInUse(c.options, deleted) then
      if response > 0 then c.(files := newFiles, options := afterDelete(c.options, newFiles, response == 2)) else c
    else c.(files := newFiles)
  }

  /** Every option's file names a file of the configuration. */
  predicate FilesResolve(c: Config) {
    forall k :: 0 <= k < |c.options| ==> NamesFile(c.files, c.options[k].file)
  }

  /** Some file has the name. */
  predicate NamesFile(files: seq<ConfigFile>, name: string) {
    exists j :: 0 <= j < |files| && files[j].name == name
  }

  /** With the corrected deleted file and unique file names, the branch
      that replaces only the file list is never taken while an option
      still uses the removed file: the options are either left as they
      were together with the files, or handed to the option rewrite. */
  lemma FixedDeleteConsultsOptions(c: Config, id: string, response: nat,
                                   afterDelete: (seq<ConfigOption>, seq<ConfigFile>, bool) -> seq<ConfigOption>, k: nat)
    requires k < |c.options|
    requires forall i :: 0 <= i < |c.files| && c.files[i].name == c.options[k].file ==> c.files[i].id == id
    requires exists i :: 0 <= i < |c.files| && c.files[i].name == c.options[k].file
    requires forall i, j :: 0 <= i < |c.files| && 0 <= j < |c.files| && c.files[i].id == c.files[j].id ==> c.files[i].name == c.files[j].name
    ensures var (kept, deleted) := DeleteFileByIdFixed(c.files, id);
      var r := DeleteFile(c, kept, deleted, response, afterDelete);
      r == c || r == c.(files := kept, options := afterDelete(c.options, kept, response == 2))
  {
    var (kept, deleted) := DeleteFileByIdFixed(c.files, id);
    var i :| 0 <= i < |c.files| && c.files[i].name == c.options[k].file;
    assert deleted.Some?;
    var j :| 0 <= j < |c.files| && c.files[j] == deleted.value;
    assert c.files[j].name == c.files[i].name;
    assert FileInUse(c.options, deleted);
  }

  /** The written version loses the reference: deleting the file an
      option uses, while another file is kept, reports the kept file as
      deleted, so the file list is replaced and the option is left
      pointing at a file that no longer exists. */
  lemma DeleteFileByIdDanglingOption()
    ensures var a := ConfigFile("1", "a", "A", "a.ini", "sectional", "utf-8");
      var b := ConfigFile("2", "b", "B", "b.ini", "sectional", "utf-8");
      var o := ConfigOption("o", Default, "a", "O", "", None);
      var c := Config([SettingsGroup("g", "G")], [a, b], [o], MoConfig(false, map[]));
      var afterDelete := (os: seq<ConfigOption>, fs: seq<ConfigFile>, del: bool) => os;
      var (kept, deleted) := DeleteFileById(c.files, "1");
      var r := DeleteFile(c, kept, deleted, 2, afterDelete);
      && FilesResolve(c)
      && deleted == Some(b)
      && r == c.(files := [b])
      && !FilesResolve(r)
  {
    var a := ConfigFile("1", "a", "A", "a.ini", "sectional", "utf-8");
    var b := ConfigFile("2", "b", "B", "b.ini", "sectional", "utf-8");
    var o := ConfigOption("o", Default, "a", "O", "", None);
    var c := Config([SettingsGroup("g", "G")], [a, b], [o], MoConfig(false, map[]));
    var keep := OtherFile("1");
    assert Filter([a], keep) == [] by {
      assert [a][..0] == [];
    }
    assert Filter([a, b], keep) == [b] by {
      assert [a, b][..1] == [a];
    }
    assert DeleteFileById(c.files, "1") == ([b], Some(b));
    assert NamesFile(c.files, "a") by {
      assert c.files[0].name == "a";
    }
    assert !FileInUse(c.options, Some(b)) by {
      assert c.options[0].file != b.name;
    }
    assert !NamesFile([b], "a");
  }

  // --------------------------------------------------------------- options

  /** `addGameSettingsOption`: appends the default option built (by the
      unseen `makeOption`) for the first file and the first group. `None`
      where the source reads the name of a first group that does not
      exist. */
  function AddOption(c: Config, makeOption: (Option<ConfigFile>, string) -> ConfigOption): (r: Option<Config>)
    ensures r.Some? <==> |c.groups| > 0
    ensures r.Some? ==> r.value.groups == c.groups && r.value.files == c.files && r.value.modOrganizer == c.modOrganizer
    ensures r.Some? ==> |r.value.options| == |c.options| + 1 && r.value.options[..|c.options|] == c.options
    ensures r.Some? ==>
      r.value.options[|c.options|] == makeOption(if |c.files| > 0 then Some(c.files[0]) else None, c.groups[0].name)
  {
    if |c.groups| == 0 then None
    else
      var first := if |c.files| > 0 then Some(c.files[0]) else None;
      Some(c.(options := c.options + [makeOption(first, c.groups[0].name)]))
  }

  /** `deleteGameSettingsOptionById`: removes exactly the options with
      that id, keeping the order of the rest. */
  function DeleteOptionById(c: Config, id: string): (r: Config)
    ensures forall o :: o in r.options <==> o in c.options && o.id != id
    ensures InOrder(r.options, c.options, OtherOption(id))
    ensures r.groups == c.groups && r.files == c.files && r.modOrganizer == c.modOrganizer
  {
    FilterInOrder(c.options, OtherOption(id));
    c.(options := Filter(c.options, OtherOption(id)))
  }

  /** The test `deleteGameSettingsOptionById` filters the options with. */
  function OtherOption(id: string): ConfigOption -> bool {
    (o: ConfigOption) => o.id != id
  }

  /** Deleting the option just added, when its id is new, gives back the
      configuration as it was. */
  lemma AddThenDeleteOption(c: Config, makeOption: (Option<ConfigFile>, string) -> ConfigOption)
    requires AddOption(c, makeOption).Some?
    requires forall k :: 0 <= k < |c.options| ==> c.options[k].id != AddOption(c, makeOption).value.options[|c.options|].id
    ensures DeleteOptionById(AddOption(c, makeOption).value, AddOption(c, makeOption).value.options[|c.options|].id) == c
  {
    var added := AddOption(c, makeOption).value;
    var o := added.options[|c.options|];
    var keep := OtherOption(o.id);
    assert added.options == c.options + [o];
    FilterAppend(c.options, [o], keep);
    assert Filter([o], keep) == [] by {
      assert [o][..0] == [];
    }
    FilterKeepsAll(c.options, keep);
  }

  /** Deleting by id twice is deleting once. */
  lemma DeleteOptionByIdIdempotent(c: Config, id: string)
    ensures DeleteOptionById(DeleteOptionById(c, id), id) == DeleteOptionById(c, id)
  {
    FilterIdempotent(c.options, OtherOption(id));
  }

  // ------------------------------------------------------ Mod Organizer off

  /** Turning the Mod Organizer switch off asks the user first when some
      file path uses a Mod Organizer variable (`isMo` stands for the MO
      path pattern). */
  predicate NeedsMoDialog(c: Config, targetId: string, checked: bool, isMo: string -> bool) {
    targetId == "isUsed" && !checked && |c.files| > 0 && exists k :: 0 <= k < |c.files| && isMo(c.files[k].path)
  }

  /** "Ignore": every Mod Organizer path is rewritten to the game-dir
      variable (`toGameDir` stands for the pattern replacement) and the
      switch goes off. */
  function IgnoreMoPaths(c: Config, isMo: string -> bool, toGameDir: string -> string): (r: Config)
    ensures |r.files| == |c.files|
    ensures forall k :: 0 <= k < |c.files| ==>
      r.files[k] == if isMo(c.files[k].path) then c.files[k].(path := toGameDir(c.files[k].path)) else c.files[k]
    ensures r.groups == c.groups && r.options == c.options
    ensures r.modOrganizer == c.modOrganizer.(isUsed := false)
  {
    var files := seq(|c.files|, k requires 0 <= k < |c.files| =>
      if isMo(c.files[k].path) then c.files[k].(path := toGameDir(c.files[k].path)) else c.files[k]);
    c.(files := files, modOrganizer := c.modOrganizer.(isUsed := false))
  }

  /** The names of a list of files. */
  function FileNames(files: seq<ConfigFile>): (r: seq<string>)
    ensures |r| == |files| && forall k :: 0 <= k < |r| ==> r[k] == files[k].name
  {
    seq(|files|, k requires 0 <= k < |files| => files[k].name)
  }

  /** The file test of the "delete" answer. */
  function NotMo(isMo: string -> bool): ConfigFile -> bool {
    (f: ConfigFile) => !isMo(f.path)
  }

  /** The option test of the "delete" answer: the option's file is among
      `names`. */
  function OfFiles(names: seq<string>): ConfigOption -> bool {
    (o: ConfigOption) => o.file in names
  }

  /** "Delete": the Mod Organizer files go, then every option whose file is
      not among the remaining file names, and the switch goes off. */
  function DeleteMoFiles(c: Config, isMo: string -> bool): (r: Config)
    ensures forall f :: f in r.files <==> f in c.files && !isMo(f.path)
    ensures InOrder(r.files, c.files, NotMo(isMo))
    ensures forall o :: o in r.options <==> o in c.options && o.file in FileNames(r.files)
    ensures InOrder(r.options, c.options, OfFiles(FileNames(r.files)))
    ensures r.groups == c.groups
    ensures r.modOrganizer == c.modOrganizer.(isUsed := false)
  {
    var files := Filter(c.files, NotMo(isMo));
    var names := FileNames(files);
    FilterInOrder(c.files, NotMo(isMo));
    FilterInOrder(c.options, OfFiles(names));
    c.(files := files,
       options := Filter(c.options, OfFiles(names)),
       modOrganizer := c.modOrganizer.(isUsed := false))
  }

  /** The dialog's answer: 1 ignores, 2 deletes, anything else keeps the
      configuration. */
  function AfterMoDialog(c: Config, response: nat, isMo: string -> bool, toGameDir: string -> string): (r: Config)
    ensures response == 1 ==> r == IgnoreMoPaths(c, isMo, toGameDir)
    ensures response == 2 ==> r == DeleteMoFiles(c, isMo)
    ensures response != 1 && response != 2 ==> r == c
  {
    if response == 1 then IgnoreMoPaths(c, isMo, toGameDir)
    else if response == 2 then DeleteMoFiles(c, isMo)
    else c
  }

  /** After "ignore" no file path uses a Mod Organizer variable, provided
      the replacement removes the pattern, and the file names, hence the
      options' references, are unchanged. */
  lemma IgnoreClearsMoPaths(c: Config, isMo: string -> bool, toGameDir: string -> string)
    requires forall p :: !isMo(toGameDir(p))
    ensures var r := IgnoreMoPaths(c, isMo, toGameDir);
      && (forall k :: 0 <= k < |r.files| ==> !isMo(r.files[k].path))
      && FileNames(r.files) == FileNames(c.files)
      && (FilesResolve(c) ==> FilesResolve(r))
      && !NeedsMoDialog(r, "isUsed", false, isMo)
  {
    var r := IgnoreMoPaths(c, isMo, toGameDir);
    forall k | 0 <= k < |r.files|
      ensures !isMo(r.files[k].path)
    {
      if isMo(c.files[k].path) {
        assert r.files[k].path == toGameDir(c.files[k].path);
      }
    }
    assert FileNames(r.files) == FileNames(c.files);
    if FilesResolve(c) {
      forall k | 0 <= k < |r.options|
        ensures NamesFile(r.files, r.options[k].file)
      {
        var j :| 0 <= j < |c.files| && c.files[j].name == c.options[k].file;
        assert r.files[j].name == c.files[j].name;
      }
    }
  }

  /** After "delete" no file path uses a Mod Organizer variable and every
      remaining option names a remaining file. */
  lemma DeleteMoFilesResolves(c: Config, isMo: string -> bool)
    ensures var r := DeleteMoFiles(c, isMo);
      && (forall k :: 0 <= k < |r.files| ==> !isMo(r.files[k].path))
      && FilesResolve(r)
      && !NeedsMoDialog(r, "isUsed", false, isMo)
  {
    var r := DeleteMoFiles(c, isMo);
    forall k | 0 <= k < |r.files|
      ensures !isMo(r.files[k].path)
    {
      assert r.files[k] in r.files;
    }
    forall k | 0 <= k < |r.options|
      ensures NamesFile(r.files, r.options[k].file)
    {
      assert r.options[k] in r.options;
      var names := FileNames(r.files);
      var j :| 0 <= j < |names| && names[j] == r.options[k].file;
      assert r.files[j].name == names[j];
    }
  }

  // ---------------------------------------------------------- path fields

  /** The value a path selector passes on: a non-empty choice as it is,
      an empty one falls back to the field's current value, read from the
      parent block when there is one. The outer `None` is the source's
      throw on a missing parent block, the inner `None` an `undefined`
      field. */
  function PathSelectorValue(value: string, id: string, parent: Option<string>,
                             top: map<string, string>, blocks: map<string, map<string, string>>): (r: Option<Option<string>>)
    ensures value != "" ==> r == Some(Some(value))
    ensures value == "" && Truthy(parent) ==>
      (r.Some? <==> parent.value in blocks)
    ensures value == "" && Truthy(parent) && parent.value in blocks ==>
      r.value == if id in blocks[parent.value] then Some(blocks[parent.value][id]) else None
    ensures value == "" && !Truthy(parent) ==>
      r == Some(if id in top then Some(top[id]) else None)
  {
    if value != "" then Some(Some(value))
    else if Truthy(parent) then
      if parent.value in blocks then
        Some(if id in blocks[parent.value] then Some(blocks[parent.value][id]) else None)
      else None
    else Some(if id in top then Some(top[id]) else None)
  }

  /** Cancelling the selector passes on the same value as choosing the
      field's current value again, whenever that value is non-empty; a
      non-empty choice passes itself on whatever the field holds. */
  lemma EmptySelectionIsReselection(id: string, parent: Option<string>,
                                    top: map<string, string>, blocks: map<string, map<string, string>>, current: string)
    requires current != ""
    requires PathSelectorValue("", id, parent, top, blocks) == Some(Some(current))
    ensures PathSelectorValue(current, id, parent, top, blocks) == PathSelectorValue("", id, parent, top, blocks)
    ensures Truthy(parent) ==> parent.value in blocks && id in blocks[parent.value] && blocks[parent.value][id] == current
    ensures !Truthy(parent) ==> id in top && top[id] == current
  {
  }

  /** Cancelling the selector (an empty value) writes back the value the
      field already has. */
  lemma EmptySelectionKeepsField(c: Config, id: string)
    requires id in c.modOrganizer.fields
    ensures PathSelectorValue("", id, Some("modOrganizer"), map[], map["modOrganizer" := c.modOrganizer.fields])
      == Some(Some(c.modOrganizer.fields[id]))
  {
  }
}

=== FILE: content.dfy ===
/** The settings screen's two pieces of option logic
    (src/renderer/components/GameSettingsContent/index.tsx): the value a
    control shows (`getValue`) and the option update an input event
    produces (`onOptionInputChange`). */
module Content {
  import opened Wrappers
  import opened Strings
  import opened Schema
  import opened Options

  /** `arr.join(sep)`: an absent separator joins with `,`. */
  function JsJoin(parts: seq<string>, sep: Option<string>): string {
    Join(parts, sep.GetOr(","))
  }

  /** `s.split(sep)`: an absent separator gives `[s]`, the empty separator
      the characters of `s`. */
  function JsSplit(s: string, sep: Option<string>): (r: seq<string>)
    ensures sep.None? ==> r == [s]
    ensures sep.Some? && sep.value == "" ==> |r| == |s| && forall k :: 0 <= k < |s| ==> r[k] == [s[k]]
  {
    match sep
    case None => [s]
    case Some(x) =>
      if x == "" then seq(|s|, k requires 0 <= k < |s| => [s[k]])
      else Split(s, x)
  }

  /** `pieces[i]` turned into a string: past the end it is `undefined`,
      which `String` renders as "undefined". */
  function PieceAt(pieces: seq<string>, i: nat): string {
    if i < |pieces| then pieces[i] else "undefined"
  }

  /** The option names of a composite's items, in order. */
  function ItemNames(items: seq<Location>): (r: seq<string>)
    ensures |r| == |items| && forall k :: 0 <= k < |r| ==> r[k] == OptionName(items[k])
  {
    seq(|items|, k requires 0 <= k < |items| => OptionName(items[k]))
  }

  /** `getValue`: a combined parameter shows its items' values joined by
      its separator; any other parameter shows its own option's value.
      `None` where the source reads `.value` of a missing option and
      throws. */
  function DisplayValue(options: OptionMap, file: string, p: Parameter): (r: Option<string>)
    ensures !IsItemParameter(p.loc) && p.optionType == Combined ==>
      (r.Some? <==> file in options && forall k :: 0 <= k < |p.items| ==> OptionName(p.items[k]) in options[file])
    ensures !IsItemParameter(p.loc) && p.optionType == Combined && r.Some? ==>
      var values := seq(|p.items|, k requires 0 <= k < |p.items| => options[file][OptionName(p.items[k])].value);
      r.value == JsJoin(values, p.separator)
    ensures !(!IsItemParameter(p.loc) && p.optionType == Combined) ==>
      r == if file in options && OptionName(p.loc) in options[file] then Some(options[file][OptionName(p.loc)].value) else None
  {
    if !IsItemParameter(p.loc) && p.optionType == Combined then
      if file in options && forall k :: 0 <= k < |p.items| ==> OptionName(p.items[k]) in options[file] then
        Some(JsJoin(seq(|p.items|, k requires 0 <= k < |p.items| => options[file][OptionName(p.items[k])].value), p.separator))
      else None
    else if file in options && OptionName(p.loc) in options[file] then Some(options[file][OptionName(p.loc)].value)
    else None
  }

  /** The kind of control an event comes from. */
  datatype InputKind = SelectInput | CheckboxInput | RangeInput | OtherInput

  /** The parts of a change event the handler reads: the control's value,
      checked state and name, and its `data-` attributes. */
  datatype InputEvent = InputEvent(
    kind: InputKind,
    value: string,
    checked: bool,
    name: string,
    parent: string,
    multi: Option<string>,
    isCombined: bool,
    separator: Option<string>)

  /** The names an event targets: the comma-separated list of a
      multi-parameter control, or the control's own name. */
  function TargetNames(e: InputEvent): (r: seq<string>)
    ensures Truthy(e.multi) ==> r == Split(e.multi.value, ",")
    ensures !Truthy(e.multi) ==> r == [e.name]
  {
    if Truthy(e.multi) then Split(e.multi.value, ",") else [e.name]
  }

  /** The new value the handler computes, as a string. A range control's
      value goes through `formatRange(default, value)`, which stands for
      the float formatting; a multi-parameter range yields nothing. */
  function EventValue(options: OptionMap, e: InputEvent, formatRange: (string, string) -> string): (r: string)
    requires TargetsPresent(options, e)
    ensures e.kind == CheckboxInput ==> r == CheckboxValue(e.checked)
    ensures e.kind == SelectInput ==> r == e.value
    ensures e.kind == OtherInput || (e.kind == RangeInput && Truthy(e.multi)) ==> r == ""
  {
    match e.kind
    case SelectInput => e.value
    case CheckboxInput => CheckboxValue(e.checked)
    case RangeInput =>
      if Truthy(e.multi) then ""
      else
        assert e.name in TargetNames(e);
        formatRange(options[e.parent][e.name].default, e.value)
    case OtherInput => ""
  }

  /** The value name `i` of a multi-parameter control receives: a piece
      of the value split on the separator for a combined control, the
      whole value otherwise. */
  function ValueFor(value: string, isCombined: bool, pieces: seq<string>, i: nat): string {
    if isCombined then PieceAt(pieces, i) else value
  }

  /** Name `names[i]` does not occur again after position `i`, so its
      entry in a left-to-right merge comes from position `i`. */
  predicate LastOccurrence(names: seq<string>, i: nat)
    requires i < |names|
  {
    forall j :: i < j < |names| ==> names[j] != names[i]
  }

  /** The reduce over the target names: each contributes its generated
      option, later names overriding earlier ones. */
  function Distribute(options: OptionMap, parent: string, names: seq<string>, value: string,
                      isCombined: bool, pieces: seq<string>): (r: OptionsItem)
    requires parent in options && forall k :: 0 <= k < |names| ==> names[k] in options[parent]
    ensures forall m :: m in r ==> m in options[parent]
    ensures forall m :: m in r ==> r[m].default == options[parent][m].default && r[m].parent == options[parent][m].parent
    decreases |names|
  {
    if |names| == 0 then map[]
    else
      var n := |names| - 1;
      Distribute(options, parent, names[..n], value, isCombined, pieces)
        + GenerateNew(options, parent, names[n], ValueFor(value, isCombined, pieces, n))
  }

  /** The reduce gives an entry to exactly the listed names. */
  lemma {:induction false} DistributeKeys(options: OptionMap, parent: string, names: seq<string>, value: string,
                                          isCombined: bool, pieces: seq<string>)
    requires parent in options && forall k :: 0 <= k < |names| ==> names[k] in options[parent]
    ensures forall m :: m in Distribute(options, parent, names, value, isCombined, pieces) <==> m in names
    decreases |names|
  {
    if |names| > 0 {
      var n := |names| - 1;
      DistributeKeys(options, parent, names[..n], value, isCombined, pieces);
      assert names == names[..n] + [names[n]];
    }
  }

  /** In the reduce each name gets the value of its last position in the
      list. */
  lemma {:induction false} DistributeLastWins(options: OptionMap, parent: string, names: seq<string>, value: string,
                                              isCombined: bool, pieces: seq<string>, i: nat)
    requires parent in options && forall k :: 0 <= k < |names| ==> names[k] in options[parent]
    requires i < |names| && LastOccurrence(names, i)
    ensures var r := Distribute(options, parent, names, value, isCombined, pieces);
      names[i] in r && r[names[i]].value == ValueFor(value, isCombined, pieces, i)
    decreases |names|
  {
    var n := |names| - 1;
    if i < n {
      var init := names[..n];
      assert names[i] != names[n];
      assert LastOccurrence(init, i) by {
        assert forall j :: i < j < n ==> init[j] == names[j];
      }
      DistributeLastWins(options, parent, init, value, isCombined, pieces, i);
    }
  }

  /** Without a combined split, the reduce gives every name the same
      value. */
  lemma {:induction false} DistributeUniform(options: OptionMap, parent: string, names: seq<string>, value: string,
                                             isCombined: bool, pieces: seq<string>)
    requires parent in options && forall k :: 0 <= k < |names| ==> names[k] in options[parent]
    requires !isCombined
    ensures forall m :: m in Distribute(options, parent, names, value, isCombined, pieces) ==>
      Distribute(options, parent, names, value, isCombined, pieces)[m].value == value
    decreases |names|
  {
    if |names| > 0 {
      var n := |names| - 1;
      DistributeUniform(options, parent, names[..n], value, isCombined, pieces);
      assert ValueFor(value, isCombined, pieces, n) == value;
    }
  }

  /** The event's file is in the option map and so is every name it
      targets. */
  predicate TargetsPresent(options: OptionMap, e: InputEvent) {
    e.parent in options && forall n :: n in TargetNames(e) ==> n in options[e.parent]
  }

  /** `onOptionInputChange`: the file and the option update the handler
      passes on. `None` when the computed value is empty and nothing is
      emitted, and also when the file or a targeted option is missing,
      where the source throws or builds an entry without a default. */
  function OnOptionInputChange(options: OptionMap, e: InputEvent, formatRange: (string, string) -> string): (r: Option<(string, OptionsItem)>)
    ensures r.Some? <==> TargetsPresent(options, e) && EventValue(options, e, formatRange) != ""
    ensures r.Some? ==> r.value.0 == e.parent
    ensures r.Some? ==> forall n :: n in r.value.1 <==> n in TargetNames(e)
    ensures r.Some? ==> forall n :: n in r.value.1 ==>
      r.value.1[n].default == options[e.parent][n].default && r.value.1[n].parent == options[e.parent][n].parent
    ensures r.Some? && (!Truthy(e.multi) || !e.isCombined) ==>
      forall n :: n in r.value.1 ==> r.value.1[n].value == EventValue(options, e, formatRange)
    ensures r.Some? && Truthy(e.multi) && e.isCombined ==>
      var names := TargetNames(e);
      forall i :: 0 <= i < |names| && LastOccurrence(names, i) ==>
        r.value.1[names[i]].value == PieceAt(JsSplit(EventValue(options, e, formatRange), e.separator), i)
  {
    if !TargetsPresent(options, e) then None
    else
      var value := EventValue(options, e, formatRange);
      if value == "" then None
      else if Truthy(e.multi) then
        var names := TargetNames(e);
        var pieces := JsSplit(value, e.separator);
        var update := Distribute(options, e.parent, names, value, e.isCombined, pieces);
        DistributeKeys(options, e.parent, names, value, e.isCombined, pieces);
        assert forall i :: 0 <= i < |names| && LastOccurrence(names, i) ==>
            update[names[i]].value == ValueFor(value, e.isCombined, pieces, i) by {
          forall i | 0 <= i < |names| && LastOccurrence(names, i)
            ensures update[names[i]].value == ValueFor(value, e.isCombined, pieces, i)
          {
            DistributeLastWins(options, e.parent, names, value, e.isCombined, pieces, i);
          }
        }
        assert !e.isCombined ==> forall m :: m in update ==> update[m].value == value by {
          if !e.isCombined {
            DistributeUniform(options, e.parent, names, value, e.isCombined, pieces);
          }
        }
        Some((e.parent, update))
      else
        assert e.name in TargetNames(e);
        Some((e.parent, GenerateNew(options, e.parent, e.name, value)))
  }

  /** Every name of a list has a last occurrence. */
  lemma LastOccurrenceExists(names: seq<string>, i: nat)
    requires i < |names|
    ensures exists j :: i <= j < |names| && names[j] == names[i] && LastOccurrence(names, j)
    decreases |names| - i
  {
    if !LastOccurrence(names, i) {
      var j :| i < j < |names| && names[j] == names[i];
      LastOccurrenceExists(names, j);
    }
  }

  /** The names a multi-parameter control lists (joined with `,`) are
      recovered by the handler's split when none contains `,`. */
  lemma MultiNamesRoundTrip(names: seq<string>)
    requires |names| >= 1 && forall k :: 0 <= k < |names| ==> ',' !in names[k]
    ensures Split(JsJoin(names, None), ",") == names
  {
    SplitJoin(names, ",");
  }

  /** Re-selecting the value a combined control shows changes nothing:
      the split hands every item back its current value, provided the
      one-character separator occurs in no item value and no item name
      contains `,`. */
  lemma CombinedReselectUnchanged(options: OptionMap, file: string, p: Parameter, formatRange: (string, string) -> string)
    requires !IsItemParameter(p.loc) && p.optionType == Combined && |p.items| >= 1
    requires p.separator.Some? && |p.separator.value| == 1
    requires DisplayValue(options, file, p).Some?
    requires forall k :: 0 <= k < |p.items| ==> ',' !in OptionName(p.items[k]) && OptionName(p.items[k]) != ""
    requires forall k :: 0 <= k < |p.items| ==> p.separator.value[0] !in options[file][OptionName(p.items[k])].value
    ensures var names := ItemNames(p.items);
      var e := InputEvent(SelectInput, DisplayValue(options, file, p).value, false, OptionName(p.loc), file,
                          Some(JsJoin(names, None)), true, p.separator);
      var r := OnOptionInputChange(options, e, formatRange);
      r.Some? ==> options[file] + r.value.1 == options[file]
  {
    var names := ItemNames(p.items);
    var values := seq(|p.items|, k requires 0 <= k < |p.items| => options[file][OptionName(p.items[k])].value);
    var shown := DisplayValue(options, file, p).value;
    assert shown == Join(values, p.separator.value);
    var multi := JsJoin(names, None);
    assert multi != "" by {
      if |names| > 1 {
        assert Join(names, ",") == names[0] + "," + Join(names[1..], ",");
      }
    }
    MultiNamesRoundTrip(names);
    var e := InputEvent(SelectInput, shown, false, OptionName(p.loc), file, Some(multi), true, p.separator);
    assert TargetNames(e) == names;
    assert TargetsPresent(options, e);
    assert JsSplit(shown, p.separator) == values by {
      SplitJoin(values, p.separator.value);
    }
    assert EventValue(options, e, formatRange) == shown;
    ReselectKeepsValues(options, e, formatRange, names, values);
  }

  /** A combined update whose pieces are the current values of the names
      it targets leaves the file's options as they are. */
  lemma ReselectKeepsValues(options: OptionMap, e: InputEvent, formatRange: (string, string) -> string,
                            names: seq<string>, values: seq<string>)
    requires e.parent in options && |names| == |values|
    requires forall k :: 0 <= k < |names| ==> names[k] in options[e.parent] && options[e.parent][names[k]].value == values[k]
    requires Truthy(e.multi) && e.isCombined && TargetNames(e) == names
    requires JsSplit(EventValue(options, e, formatRange), e.separator) == values
    ensures var r := OnOptionInputChange(options, e, formatRange);
      r.Some? ==> options[e.parent] + r.value.1 == options[e.parent]
  {
    var r := OnOptionInputChange(options, e, formatRange);
    if r.Some? {
      var u := r.value.1;
      forall n | n in u
        ensures n in options[e.parent] && u[n] == options[e.parent][n]
      {
        var i :| 0 <= i < |names| && names[i] == n;
        LastOccurrenceExists(names, i);
        var j :| i <= j < |names| && names[j] == names[i] && LastOccurrence(names, j);
        assert PieceAt(values, j) == values[j];
      }
    }
  }
}

=== FILE: extraction.dfy ===
/** Reading option values out of parsed settings files: `getOptionData`
    (src/utils/data.ts:176-266) for one parameter, and the per-file fold
    of `generateGameSettingsOptionsSaga`
    (src/redux/sagas/gameSettings.ts:296-434) for a whole schema. */
module Extraction {
  import opened Wrappers
  import opened Strings
  import opened TagTree
  import opened IniFile
  import opened Schema
  import opened Options

  /** The kinds of warning extraction reports; the message texts are not
      modelled. */
  datatype Warning =
    | SectionMissing      // sectional: no section `iniGroup`
    | KeyMissing          // sectional: the section has no line `name`
    | LineMissing         // line view: no line yields a value
    | TagMissing(tag: string)  // tag view: the walk stopped inside `valuePath`
    | ParameterMissing    // tag view: the walk stopped at `name`
    | AttributeMissing    // tag view: no usable `valueName` attribute

  /** A file as the reader returns it: INI data for the sectional and line
      views, a tag tree for the tag view. */
  datatype ParsedFile = IniData(ini: Ini) | TagData(root: Node)

  /** The parsed data has the shape its view produces. */
  predicate Fits(view: View, data: ParsedFile) {
    (view == Tag) == data.TagData?
  }

  /** The regular-expression helpers of the line view, which are not part
      of this model: `valueOf(name, text)` is
      `getLineIniParameterValue(text, getParameterRegExp(name))`,
      `matches(name, text)` is `getParameterRegExp(name).test(text)`, and
      `partToReplace(text, name)` is
      `getStringPartFromIniLineParameterForReplace(text, name)`. */
  datatype LineSyntax = LineSyntax(
    valueOf: (string, string) -> string,
    matches: (string, string) -> bool,
    partToReplace: (string, string) -> string)

  /** The result of `getOptionData`: the option name (`None` where the
      source leaves it `undefined`), the value and the warnings. The value
      is only used when there is no warning. */
  datatype OptionData = OptionData(name: Option<string>, value: string, errors: seq<Warning>)

  predicate Fails(d: OptionData) {
    |d.errors| > 0
  }

  /** Sectional view: the line `name` of section `iniGroup`, named
      `section/key` as both are stored in the file. */
  function SectionalData(ini: Ini, loc: Location): (r: OptionData)
    ensures |r.errors| <= 1 && (!Fails(r) ==> r.name.Some?)
    ensures (loc.iniGroup.None? || GetSection(ini, loc.iniGroup.value).None?) ==> r == OptionData(None, "", [SectionMissing])
    ensures loc.iniGroup.Some? && GetSection(ini, loc.iniGroup.value).Some? ==>
      var sec := GetSection(ini, loc.iniGroup.value).value;
      && (GetLine(sec, loc.name).None? ==> r == OptionData(None, "", [KeyMissing]))
      && (GetLine(sec, loc.name).Some? ==>
            var line := GetLine(sec, loc.name).value;
            r == OptionData(Some(sec.name + "/" + line.key), line.value, []))
  {
    match (if loc.iniGroup.Some? then GetSection(ini, loc.iniGroup.value) else None)
    case None => OptionData(None, "", [SectionMissing])
    case Some(sec) =>
      match GetLine(sec, loc.name)
      case None => OptionData(None, "", [KeyMissing])
      case Some(line) => OptionData(Some(sec.name + "/" + line.key), line.value, [])
  }

  /** The first of `lines` in which `valueOf` finds a non-empty value for
      `key`: the short-circuiting `lines.some(...)` of the line view. */
  function FirstValue(lines: seq<string>, key: string, valueOf: (string, string) -> string): (r: Option<nat>)
    ensures r.Some? ==> r.value < |lines| && valueOf(key, lines[r.value]) != ""
    ensures r.Some? ==> forall k :: 0 <= k < r.value ==> valueOf(key, lines[k]) == ""
    ensures r.None? ==> forall k :: 0 <= k < |lines| ==> valueOf(key, lines[k]) == ""
  {
    if |lines| == 0 then None
    else if valueOf(key, lines[0]) != "" then Some(0)
    else
      match FirstValue(lines[1..], key, valueOf)
      case None => None
      case Some(k) => Some(k + 1)
  }

  /** Line view: the first line with a non-empty value for the trimmed
      name wins and the option is called by the untrimmed name. An empty
      name is falsy, so it is reported missing even when a line matches. */
  function LineData(ini: Ini, loc: Location, syntax: LineSyntax): (r: OptionData)
    ensures |r.errors| <= 1 && (!Fails(r) ==> r.name.Some?)
    ensures !Fails(r) <==> FirstValue(ini.globals, Trim(loc.name), syntax.valueOf).Some? && loc.name != ""
    ensures !Fails(r) ==>
      && r.name == Some(loc.name)
      && r.value == syntax.valueOf(Trim(loc.name), ini.globals[FirstValue(ini.globals, Trim(loc.name), syntax.valueOf).value])
    ensures Fails(r) ==> r.errors == [LineMissing]
  {
    var key := Trim(loc.name);
    match FirstValue(ini.globals, key, syntax.valueOf)
    case None => OptionData(None, "", [LineMissing])
    case Some(k) =>
      var v := syntax.valueOf(key, ini.globals[k]);
      if loc.name != "" then OptionData(Some(loc.name), v, [])
      else OptionData(Some(loc.name), v, [LineMissing])
  }

  /** The tag view spreads `valuePath.split('/')`; without a `valuePath`
      that spread throws. */
  predicate HasValuePath(loc: Location) {
    loc.valuePath.Some?
  }

  /** The keys the tag view walks: the segments of `valuePath`, then
      `name`, then `valueName` when there is one. The source's array has
      `undefined` in the last slot when `valueName` is missing; that slot
      is left off here and looked up as past the end. */
  function TagPath(loc: Location): (r: seq<string>)
    requires HasValuePath(loc)
    ensures var segs := Split(loc.valuePath.value, "/");
      && |r| == |segs| + (if loc.valueName.Some? then 2 else 1)
      && r[..|segs|] == segs && r[|segs|] == loc.name
      && (loc.valueName.Some? ==> r[|r| - 1] == loc.valueName.value)
  {
    var segs := Split(loc.valuePath.value, "/");
    segs + [loc.name] + if loc.valueName.Some? then [loc.valueName.value] else []
  }

  /** The length of the source's key array, counting the `valueName` slot
      whether or not it is `undefined`. */
  function TagPathLength(loc: Location): (r: nat)
    requires HasValuePath(loc)
    ensures r >= 2 && (loc.valueName.Some? <==> r == |TagPath(loc)|)
  {
    |Split(loc.valuePath.value, "/")| + 2
  }

  /** The name the tag view gives an option: the key array joined with
      `/`, where an `undefined` `valueName` joins as the empty string. */
  function TagName(loc: Location): (r: string)
    requires HasValuePath(loc)
  {
    Join(Split(loc.valuePath.value, "/") + [loc.name, loc.valueName.GetOr("")], "/")
  }

  /** JavaScript property access `obj[key]`: an index past the end of the
      path is `undefined`, which is looked up as the property "undefined". */
  function PropertyKey(path: seq<string>, i: nat): string {
    if i < |path| then path[i] else "undefined"
  }

  /** `key === valueName` at counter `i`: a key inside the path is a
      string, past the end it is `undefined`, which equals a missing
      `valueName` and no present one. */
  predicate KeyMatches(path: seq<string>, i: nat, valueName: Option<string>) {
    if valueName.Some? then i < |path| && path[i] == valueName.value else i >= |path|
  }

  /** Where the walk of the tag view stops: the final counter, whether it
      stopped on the key `valueName`, and the value found there (`None` for
      `undefined`). */
  datatype WalkEnd = WalkEnd(index: nat, found: bool, value: Option<string>)

  /** The recursive `getProp` of the tag view: descend while the next key
      holds an object; on a key equal to `valueName` whose value is not an
      object, take that value. */
  function Walk(n: Node, path: seq<string>, i: nat, valueName: Option<string>): (r: WalkEnd)
    ensures r.index >= i + 1
    ensures r.found ==> KeyMatches(path, r.index - 1, valueName)
    ensures valueName.Some? && r.found ==> r.index <= |path|
    decreases n
  {
    var c := Child(n, PropertyKey(path, i));
    if c.Some? && c.value.Obj? then Walk(c.value, path, i + 1, valueName)
    else if KeyMatches(path, i, valueName) then
      WalkEnd(i + 1, true, if c.Some? then Some(c.value.text) else None)
    else WalkEnd(i + 1, false, None)
  }

  /** The warning for a failed tag walk, chosen by how far it got against
      the length of the source's key array. */
  function TagWarning(path: seq<string>, len: nat, index: nat): (w: Warning)
    requires index >= 1
    ensures index == len <==> w == AttributeMissing
    ensures index == len - 1 <==> w == ParameterMissing
    ensures index != len && index != len - 1 ==> w.TagMissing?
  {
    if index == len then AttributeMissing
    else if index == len - 1 then ParameterMissing
    else TagMissing(if index - 1 < |path| then path[index - 1] else "undefined")
  }

  /** Tag view: the walk must end on `valueName` with a non-empty value;
      the option is named by the key array joined with `/`. */
  function TagData(root: Node, loc: Location): (r: OptionData)
    requires HasValuePath(loc)
    ensures |r.errors| <= 1 && (!Fails(r) ==> r.name.Some?)
    ensures var w := Walk(root, TagPath(loc), 0, loc.valueName);
      && (!Fails(r) <==> w.found && w.value.Some? && w.value.value != "")
      && (!Fails(r) ==> r == OptionData(Some(TagName(loc)), w.value.value, []))
      && (Fails(r) ==> r.errors == [TagWarning(TagPath(loc), TagPathLength(loc), w.index)])
  {
    var path := TagPath(loc);
    var w := Walk(root, path, 0, loc.valueName);
    if w.found && w.value.Some? && w.value.value != "" then
      OptionData(Some(TagName(loc)), w.value.value, [])
    else
      OptionData(if w.found then Some(TagName(loc)) else None, "", [TagWarning(path, TagPathLength(loc), w.index)])
  }

  /** A walk whose keys from `i` on all lead through objects arrives at
      the end of the path in the object they lead to. */
  lemma {:induction false} WalkThroughObjects(n: Node, path: seq<string>, i: nat, valueName: Option<string>, m: Node)
    requires i < |path| && GetDeep(n, path[i..]) == Some(m) && m.Obj?
    ensures Walk(n, path, i, valueName) == Walk(m, path, |path|, valueName)
    decreases |path| - i
  {
    var c := Child(n, path[i]);
    if i + 1 < |path| {
      assert path[i..][1..] == path[i + 1..];
      WalkThroughObjects(c.value, path, i + 1, valueName, m);
    }
  }

  /** A tag parameter without `valueName` whose path leads to a tag with
      no property "undefined" is reported with the attribute warning, under
      the joined name ending in `/`. */
  lemma MissingValueNameWarns(root: Node, loc: Location, m: Node)
    requires HasValuePath(loc) && loc.valueName.None?
    requires GetDeep(root, TagPath(loc)) == Some(m) && m.Obj? && "undefined" !in m.children
    ensures TagData(root, loc) == OptionData(Some(TagName(loc)), "", [AttributeMissing])
    ensures TagName(loc) == Join(Split(loc.valuePath.value, "/") + [loc.name], "/") + "/"
  {
    var path := TagPath(loc);
    assert path[0..] == path;
    WalkThroughObjects(root, path, 0, None, m);
    var segs := Split(loc.valuePath.value, "/");
    JoinAppend(segs + [loc.name], "", "/");
    assert segs + [loc.name, ""] == segs + [loc.name] + [""];
  }

  /** `getOptionData`: one parameter resolved against one parsed file. */
  function GetOptionData(data: ParsedFile, loc: Location, view: View, syntax: LineSyntax): (r: OptionData)
    requires Fits(view, data)
    requires view == Tag ==> HasValuePath(loc)
    ensures |r.errors| <= 1 && (!Fails(r) ==> r.name.Some?)
  {
    match view
    case Sectional => SectionalData(data.ini, loc)
    case LineView => LineData(data.ini, loc, syntax)
    case Tag => TagData(data.root, loc)
  }

  /** A walk through a path whose proper prefixes are all objects reads
      the leaf at the end of the path, exactly as the deep-key reader does. */
  lemma {:induction false} WalkReadsDeepKey(n: Node, path: seq<string>, i: nat, v: string)
    requires i < |path| && Reaches(n, path[i..])
    requires GetDeep(n, path[i..]) == Some(Leaf(v))
    ensures Walk(n, path, i, Some(path[|path| - 1])) == WalkEnd(|path|, true, Some(v))
    decreases |path| - i
  {
    var c := Child(n, PropertyKey(path, i));
    if i + 1 < |path| {
      assert path[i..][1..] == path[i + 1..];
      assert c == Some(n.children[path[i]]);
      WalkReadsDeepKey(n.children[path[i]], path, i + 1, v);
    }
  }

  /** Conversely, a walk that ends on `valueName` with a value has read
      that value by the deep-key reader along the keys it followed. */
  lemma {:induction false} WalkFoundIsDeepKey(n: Node, path: seq<string>, i: nat, valueName: Option<string>)
    requires i < |path| && valueName.Some?
    requires Walk(n, path, i, valueName).found && Walk(n, path, i, valueName).value.Some?
    ensures var w := Walk(n, path, i, valueName);
      GetDeep(n, path[i..w.index]) == Some(Leaf(w.value.value))
    decreases n
  {
    var w := Walk(n, path, i, valueName);
    var c := Child(n, PropertyKey(path, i));
    if c.Some? && c.value.Obj? {
      assert i + 1 < |path|;
      WalkFoundIsDeepKey(c.value, path, i + 1, valueName);
      assert path[i..w.index][1..] == path[i + 1..w.index];
      assert path[i..w.index][0] == path[i];
    } else {
      assert w.index == i + 1;
      assert path[i..w.index] == [path[i]];
    }
  }

  /** A well-formed tag parameter is found exactly when its whole path is
      present in the tree with a non-empty value, under `getOptionName`'s
      name. */
  lemma TagDataFindsDeepKey(root: Node, loc: Location, v: string)
    requires IsItemParameter(loc)
    requires Reaches(root, TagPath(loc)) && GetDeep(root, TagPath(loc)) == Some(Leaf(v)) && v != ""
    ensures TagData(root, loc) == OptionData(Some(OptionName(loc)), v, [])
  {
    var path := TagPath(loc);
    assert path[0..] == path;
    WalkReadsDeepKey(root, path, 0, v);
    TagJoinIsOptionName(loc);
  }

  /** With both tag fields present, the tag view's name is the joined
      path and equals the option name. */
  lemma TagJoinIsOptionName(loc: Location)
    requires IsItemParameter(loc)
    ensures TagName(loc) == Join(TagPath(loc), "/") == OptionName(loc)
  {
    var segs := Split(loc.valuePath.value, "/");
    JoinSplit(loc.valuePath.value, "/");
    JoinAppend(segs, loc.name, "/");
    JoinAppend(segs + [loc.name], loc.valueName.value, "/");
    assert segs + [loc.name] + [loc.valueName.value] == TagPath(loc);
    assert segs + [loc.name, loc.valueName.GetOr("")] == TagPath(loc);
  }

  /** A successful extraction stores the option under `getOptionName`,
      for parameters shaped for their view. */
  lemma ExtractedNameIsOptionName(data: ParsedFile, loc: Location, view: View, syntax: LineSyntax)
    requires Fits(view, data)
    requires view == Tag ==> IsItemParameter(loc)
    requires view == Sectional ==> !IsItemParameter(loc) && Truthy(loc.iniGroup)
    requires view == LineView ==> !IsItemParameter(loc) && !Truthy(loc.iniGroup)
    requires !Fails(GetOptionData(data, loc, view, syntax))
    ensures GetOptionData(data, loc, view, syntax).name == Some(OptionName(loc))
  {
    match view
    case Sectional =>
      var si := FindSection(data.ini.sections, loc.iniGroup.value).value;
      var sec := data.ini.sections[si];
      var li := FindLine(sec.lines, loc.name).value;
    case LineView =>
    case Tag => TagJoinIsOptionName(loc);
  }

  /** A parameter is shaped for its file's view: tag files need a
      `valuePath` on every location that is resolved. */
  predicate ParamFits(view: View, p: Parameter) {
    if IsComposite(p.optionType) then forall k :: 0 <= k < |p.items| ==> (view == Tag ==> HasValuePath(p.items[k]))
    else view == Tag ==> HasValuePath(p.loc)
  }

  /** Every option of `item` is fresh from file `file`: its default equals
      its value and its parent is the file. */
  predicate Fresh(item: OptionsItem, file: string) {
    forall n :: n in item ==> item[n].default == item[n].value && item[n].parent == file
  }

  /** The options of a composite's items, how many items failed, and the
      warnings of the last failing item (`specParamsErrors` is overwritten
      on each failure). */
  datatype ItemsResult = ItemsResult(options: OptionsItem, failures: nat, lastErrors: seq<Warning>)

  /** The fold over a composite parameter's items. */
  function ItemsFold(items: seq<Location>, data: ParsedFile, view: View, file: string, syntax: LineSyntax): (r: ItemsResult)
    requires Fits(view, data)
    requires forall k :: 0 <= k < |items| ==> (view == Tag ==> HasValuePath(items[k]))
    ensures r.failures <= |items|
    ensures r.failures == 0 <==> r.lastErrors == []
    ensures Fresh(r.options, file)
    decreases |items|
  {
    if |items| == 0 then ItemsResult(map[], 0, [])
    else
      var n := |items| - 1;
      var acc := ItemsFold(items[..n], data, view, file, syntax);
      var d := GetOptionData(data, items[n], view, syntax);
      if Fails(d) then ItemsResult(acc.options, acc.failures + 1, d.errors)
      else ItemsResult(acc.options[d.name.value := OptionValue(d.value, d.value, file)], acc.failures, acc.lastErrors)
  }

  /** A composite's fold records no failure exactly when every item is
      read. */
  lemma {:induction false} ItemsFoldSucceedsIff(items: seq<Location>, data: ParsedFile, view: View, file: string, syntax: LineSyntax)
    requires Fits(view, data)
    requires forall k :: 0 <= k < |items| ==> (view == Tag ==> HasValuePath(items[k]))
    ensures ItemsFold(items, data, view, file, syntax).failures == 0 <==> ItemsRead(items, data, view, syntax)
    decreases |items|
  {
    if |items| > 0 {
      var n := |items| - 1;
      var init := items[..n];
      ItemsFoldSucceedsIff(init, data, view, file, syntax);
      ItemsFoldStep(items, data, view, file, syntax);
      ItemsReadStep(items, data, view, syntax);
    }
  }

  /** Every item of a composite is read without failure. */
  predicate ItemsRead(items: seq<Location>, data: ParsedFile, view: View, syntax: LineSyntax)
    requires Fits(view, data)
    requires forall k :: 0 <= k < |items| ==> (view == Tag ==> HasValuePath(items[k]))
  {
    forall k :: 0 <= k < |items| ==> !Fails(GetOptionData(data, items[k], view, syntax))
  }

  /** The last item adds one failure exactly when it is not read. */
  lemma ItemsFoldStep(items: seq<Location>, data: ParsedFile, view: View, file: string, syntax: LineSyntax)
    requires Fits(view, data) && |items| > 0
    requires forall k :: 0 <= k < |items| ==> (view == Tag ==> HasValuePath(items[k]))
    ensures var n := |items| - 1;
      ItemsFold(items, data, view, file, syntax).failures
      == ItemsFold(items[..n], data, view, file, syntax).failures
         + if Fails(GetOptionData(data, items[n], view, syntax)) then 1 else 0
  {
  }

  /** All items are read exactly when all but the last are and the last is. */
  lemma ItemsReadStep(items: seq<Location>, data: ParsedFile, view: View, syntax: LineSyntax)
    requires Fits(view, data) && |items| > 0
    requires forall k :: 0 <= k < |items| ==> (view == Tag ==> HasValuePath(items[k]))
    ensures var n := |items| - 1;
      ItemsRead(items, data, view, syntax)
      <==> ItemsRead(items[..n], data, view, syntax) && !Fails(GetOptionData(data, items[n], view, syntax))
  {
    if ItemsRead(items, data, view, syntax) {
      ItemsReadInit(items, data, view, syntax);
    }
    var n := |items| - 1;
    if ItemsRead(items[..n], data, view, syntax) && !Fails(GetOptionData(data, items[n], view, syntax)) {
      ItemsReadExtend(items, data, view, syntax);
    }
  }

  /** Reading every item reads every item but the last. */
  lemma ItemsReadInit(items: seq<Location>, data: ParsedFile, view: View, syntax: LineSyntax)
    requires Fits(view, data) && |items| > 0
    requires forall k :: 0 <= k < |items| ==> (view == Tag ==> HasValuePath(items[k]))
    requires ItemsRead(items, data, view, syntax)
    ensures ItemsRead(items[..|items| - 1], data, view, syntax)
  {
    var init := items[..|items| - 1];
    forall k | 0 <= k < |init|
      ensures !Fails(GetOptionData(data, init[k], view, syntax))
    {
      assert init[k] == items[k];
    }
  }

  /** Reading every item but the last, and the last, reads every item. */
  lemma ItemsReadExtend(items: seq<Location>, data: ParsedFile, view: View, syntax: LineSyntax)
    requires Fits(view, data) && |items| > 0
    requires forall k :: 0 <= k < |items| ==> (view == Tag ==> HasValuePath(items[k]))
    requires ItemsRead(items[..|items| - 1], data, view, syntax)
    requires !Fails(GetOptionData(data, items[|items| - 1], view, syntax))
    ensures ItemsRead(items, data, view, syntax)
  {
    var n := |items| - 1;
    var init := items[..n];
    forall k | 0 <= k < |items|
      ensures !Fails(GetOptionData(data, items[k], view, syntax))
    {
      if k < n {
        assert init[k] == items[k];
      }
    }
  }

  /** How many times a parameter's index is recorded as incorrect: once per
      failing item for a composite, once for a failing default parameter. */
  function ParamFailures(p: Parameter, data: ParsedFile, view: View, file: string, syntax: LineSyntax): nat
    requires Fits(view, data) && ParamFits(view, p)
  {
    if IsComposite(p.optionType) then ItemsFold(p.items, data, view, file, syntax).failures
    else if Fails(GetOptionData(data, p.loc, view, syntax)) then 1
    else 0
  }

  /** The running state of the fold over a file's parameters. */
  datatype FileResult = FileResult(options: OptionsItem, incorrect: seq<nat>, errors: seq<Warning>)

  /** One step of the fold: parameter `p` at position `index`. A composite
      with a failing item adds no option at all; a failing default
      parameter adds none either. */
  function ParamStep(acc: FileResult, p: Parameter, index: nat, data: ParsedFile, view: View, file: string, syntax: LineSyntax): (r: FileResult)
    requires Fits(view, data) && ParamFits(view, p)
    ensures ParamFailures(p, data, view, file, syntax) > 0 ==> r.options == acc.options
    ensures r.incorrect == acc.incorrect + Repeat(ParamFailures(p, data, view, file, syntax), index)
    ensures Fresh(acc.options, file) ==> Fresh(r.options, file)
  {
    if IsComposite(p.optionType) then
      var items := ItemsFold(p.items, data, view, file, syntax);
      if |items.lastErrors| > 0 then
        FileResult(acc.options, acc.incorrect + Repeat(items.failures, index), acc.errors + items.lastErrors)
      else FileResult(acc.options + items.options, acc.incorrect, acc.errors)
    else
      var d := GetOptionData(data, p.loc, view, syntax);
      if Fails(d) then FileResult(acc.options, acc.incorrect + [index], acc.errors + d.errors)
      else FileResult(acc.options[d.name.value := OptionValue(d.value, d.value, file)], acc.incorrect, acc.errors)
  }

  /** The fold over a file's `optionsList`. The failing indexes are
      recorded in parameter order and every option is fresh. */
  function ParamsFold(ps: seq<Parameter>, data: ParsedFile, view: View, file: string, syntax: LineSyntax): (r: FileResult)
    requires Fits(view, data) && forall k :: 0 <= k < |ps| ==> ParamFits(view, ps[k])
    ensures Fresh(r.options, file)
    ensures forall k :: 0 <= k < |r.incorrect| ==> r.incorrect[k] < |ps|
    ensures forall j, k :: 0 <= j < k < |r.incorrect| ==> r.incorrect[j] <= r.incorrect[k]
    decreases |ps|
  {
    if |ps| == 0 then FileResult(map[], [], [])
    else
      var n := |ps| - 1;
      var acc := ParamsFold(ps[..n], data, view, file, syntax);
      var r := ParamStep(acc, ps[n], n, data, view, file, syntax);
      var fails := ParamFailures(ps[n], data, view, file, syntax);
      assert r.incorrect == acc.incorrect + Repeat(fails, n);
      AppendRepeat(acc.incorrect, n, fails);
      r
  }

  /** Every parameter's index is recorded exactly as often as it failed:
      once per failing item of a composite, once for a failing default
      parameter, never for a parameter that succeeded. */
  lemma {:induction false} IncorrectCounts(ps: seq<Parameter>, data: ParsedFile, view: View, file: string, syntax: LineSyntax)
    requires Fits(view, data) && forall k :: 0 <= k < |ps| ==> ParamFits(view, ps[k])
    ensures forall i :: 0 <= i < |ps| ==>
      multiset(ParamsFold(ps, data, view, file, syntax).incorrect)[i] == ParamFailures(ps[i], data, view, file, syntax)
    decreases |ps|
  {
    if |ps| > 0 {
      var n := |ps| - 1;
      IncorrectCounts(ps[..n], data, view, file, syntax);
      var acc := ParamsFold(ps[..n], data, view, file, syntax);
      var fails := ParamFailures(ps[n], data, view, file, syntax);
      var inc: seq<nat> := ParamsFold(ps, data, view, file, syntax).incorrect;
      var counts: multiset<nat> := multiset(inc);
      assert inc == acc.incorrect + Repeat(fails, n);
      AppendRepeat(acc.incorrect, n, fails);
      forall i: nat | i < |ps|
        ensures counts[i] == ParamFailures(ps[i], data, view, file, syntax)
      {
        if i < n {
          assert counts[i] == multiset(acc.incorrect)[i];
          assert multiset(acc.incorrect)[i] == ParamFailures(ps[..n][i], data, view, file, syntax);
          assert ps[..n][i] == ps[i];
          assert counts[i] == ParamFailures(ps[i], data, view, file, syntax);
        } else {
          assert i == n;
          assert counts[n] == fails;
          assert counts[i] == ParamFailures(ps[i], data, view, file, syntax);
        }
      }
    }
  }

  /** `k` copies of `x`. */
  function Repeat(k: nat, x: nat): (r: seq<nat>)
    ensures |r| == k
  {
    seq(k, _ => x)
  }

  /** `k` copies of `x` hold `x` `k` times and nothing else. */
  lemma {:induction false} RepeatCount(k: nat, x: nat)
    ensures forall y :: multiset(Repeat(k, x))[y] == if y == x then k else 0
    ensures forall j :: 0 <= j < k ==> Repeat(k, x)[j] == x
  {
    if k > 0 {
      RepeatCount(k - 1, x);
      assert Repeat(k, x) == Repeat(k - 1, x) + [x];
    }
  }

  /** Appending `k` copies of `n` to a sorted list of indexes below `n`
      keeps it sorted, bounds it by `n + 1` and counts `n` exactly `k` times. */
  lemma AppendRepeat(inc: seq<nat>, n: nat, k: nat)
    requires forall j :: 0 <= j < |inc| ==> inc[j] < n
    requires forall i, j :: 0 <= i < j < |inc| ==> inc[i] <= inc[j]
    ensures var r := inc + Repeat(k, n);
      && (forall j :: 0 <= j < |r| ==> r[j] < n + 1)
      && (forall i, j :: 0 <= i < j < |r| ==> r[i] <= r[j])
      && (forall i :: 0 <= i < n ==> multiset(r)[i] == multiset(inc)[i])
      && multiset(r)[n] == k
  {
    RepeatCount(k, n);
    assert n !in multiset(inc);
  }

  /** The parameters of every file fit the file's view and its data. */
  predicate Readable(files: map<string, SettingsFile>, data: map<string, ParsedFile>) {
    forall f :: f in files ==>
      && f in data && Fits(files[f].view, data[f])
      && forall k :: 0 <= k < |files[f].optionsList| ==> ParamFits(files[f].view, files[f].optionsList[k])
  }

  /** The fold over one file. */
  function FileFold(files: map<string, SettingsFile>, data: map<string, ParsedFile>, f: string, syntax: LineSyntax): FileResult
    requires Readable(files, data) && f in files
  {
    ParamsFold(files[f].optionsList, data[f], files[f].view, f, syntax)
  }

  /** The option map and the incorrect-index map of a whole schema. */
  datatype Generated = Generated(options: OptionMap, incorrect: map<string, seq<nat>>)

  /** `generateGameSettingsOptionsSaga` on already-read data: a file is
      listed in the options only when it yields an option, and in the
      incorrect map only when some parameter failed. */
  function GenerateOptions(files: map<string, SettingsFile>, data: map<string, ParsedFile>, syntax: LineSyntax): (r: Generated)
    requires Readable(files, data)
    ensures forall f :: f in r.options <==> f in files && FileFold(files, data, f, syntax).options != map[]
    ensures forall f :: f in r.incorrect <==> f in files && FileFold(files, data, f, syntax).incorrect != []
    ensures forall f :: f in r.options ==> r.options[f] == FileFold(files, data, f, syntax).options
    ensures forall f :: f in r.incorrect ==> r.incorrect[f] == FileFold(files, data, f, syntax).incorrect
  {
    Generated(
      map f | f in files && FileFold(files, data, f, syntax).options != map[] :: FileFold(files, data, f, syntax).options,
      map f | f in files && FileFold(files, data, f, syntax).incorrect != [] :: FileFold(files, data, f, syntax).incorrect)
  }

  /** Every freshly extracted option has `default == value` and its file as
      parent, so a fresh extraction has nothing changed. */
  lemma FreshExtractionUnchanged(files: map<string, SettingsFile>, data: map<string, ParsedFile>, syntax: LineSyntax)
    requires Readable(files, data)
    ensures var m := GenerateOptions(files, data, syntax).options;
      forall f, n :: f in m && n in m[f] ==> m[f][n].default == m[f][n].value && m[f][n].parent == f
    ensures Changed(GenerateOptions(files, data, syntax).options) == map[]
  {
    ChangedEmptyIff(GenerateOptions(files, data, syntax).options);
  }

  /** A file is listed as incorrect exactly when one of its parameters
      failed, and then every index of a failing parameter is listed. */
  lemma IncorrectIffFailure(files: map<string, SettingsFile>, data: map<string, ParsedFile>, syntax: LineSyntax, f: string)
    requires Readable(files, data) && f in files
    ensures var ps := files[f].optionsList;
      f in GenerateOptions(files, data, syntax).incorrect
      <==> exists i :: 0 <= i < |ps| && ParamFailures(ps[i], data[f], files[f].view, f, syntax) > 0
  {
    var ps := files[f].optionsList;
    var dat := data[f];
    var v := files[f].view;
    var inc: seq<nat> := ParamsFold(ps, dat, v, f, syntax).incorrect;
    assert f in GenerateOptions(files, data, syntax).incorrect <==> inc != [] by {
      assert inc == FileFold(files, data, f, syntax).incorrect;
    }
    IncorrectCounts(ps, dat, v, f, syntax);
    if inc != [] {
      var i: nat := inc[0];
      assert i < |ps|;
      assert multiset(inc)[i] > 0;
      assert ParamFailures(ps[i], dat, v, f, syntax) > 0;
    } else {
      forall i: nat | i < |ps|
        ensures ParamFailures(ps[i], dat, v, f, syntax) == 0
      {
        assert multiset(inc)[i] == 0;
      }
    }
  }

  /** `readFileForGameSettingsOptions` for every file of the schema, with
      the reader as a parameter: one failed read fails the whole batch. */
  function ReadFiles(files: map<string, SettingsFile>, read: string -> Option<ParsedFile>): (r: Option<map<string, ParsedFile>>)
    ensures r.Some? <==> forall f :: f in files ==> read(f).Some?
    ensures r.Some? ==> r.value.Keys == files.Keys && forall f :: f in files ==> r.value[f] == read(f).value
  {
    if forall f :: f in files ==> read(f).Some? then Some(map f | f in files :: read(f).value)
    else None
  }
}

=== FILE: inifile.dfy ===
/** The parsed form of an INI-like settings file and the whitespace-keeping
    rewrite of one parameter line, `changeSectionalIniParameter`
    (src/utils/data.ts).

    The INI library itself is not part of this model. Its observable
    behaviour is fixed here by a minimal concrete reading: a section or a
    line is found by the first exact name match, `getValue` reads the found
    line's value, and `setValue` stores the value and renders the line's
    text as `key=value`. */
module IniFile {
  import opened Wrappers
  import opened Strings

  /** One `key = value` line: parsed key and value, and the raw text. */
  datatype Line = Line(key: string, value: string, text: string)

  /** A `[name]` section with its parameter lines, in file order. */
  datatype Section = Section(name: string, lines: seq<Line>)

  /** A parsed file: the raw text of the lines outside any section (the
      line-oriented view reads these) and the sections in file order. */
  datatype Ini = Ini(globals: seq<string>, sections: seq<Section>)

  /** Position of the first section called `name`. */
  function FindSection(sections: seq<Section>, name: string): (r: Option<nat>)
    ensures r.Some? ==> r.value < |sections| && sections[r.value].name == name
    ensures r.Some? ==> forall k :: 0 <= k < r.value ==> sections[k].name != name
    ensures r.None? ==> forall k :: 0 <= k < |sections| ==> sections[k].name != name
  {
    if |sections| == 0 then None
    else if sections[0].name == name then Some(0)
    else
      match FindSection(sections[1..], name)
      case None => None
      case Some(k) => Some(k + 1)
  }

  /** Position of the first line with key `key`. */
  function FindLine(lines: seq<Line>, key: string): (r: Option<nat>)
    ensures r.Some? ==> r.value < |lines| && lines[r.value].key == key
    ensures r.Some? ==> forall k :: 0 <= k < r.value ==> lines[k].key != key
    ensures r.None? ==> forall k :: 0 <= k < |lines| ==> lines[k].key != key
  {
    if |lines| == 0 then None
    else if lines[0].key == key then Some(0)
    else
      match FindLine(lines[1..], key)
      case None => None
      case Some(k) => Some(k + 1)
  }

  /** `iniData.getSection(name)`. */
  function GetSection(ini: Ini, name: string): Option<Section>
  {
    match FindSection(ini.sections, name)
    case None => None
    case Some(i) => Some(ini.sections[i])
  }

  /** `section.getLine(key)`. */
  function GetLine(section: Section, key: string): Option<Line>
  {
    match FindLine(section.lines, key)
    case None => None
    case Some(i) => Some(section.lines[i])
  }

  /** `getSection(name).getValue(key)`: the value of the first line with
      that key in the first section with that name. */
  function ValueAt(ini: Ini, sectionName: string, key: string): (r: Option<string>)
    ensures r.Some? <==> GetSection(ini, sectionName).Some? && GetLine(GetSection(ini, sectionName).value, key).Some?
  {
    match GetSection(ini, sectionName)
    case None => None
    case Some(s) =>
      match GetLine(s, key)
      case None => None
      case Some(l) => Some(l.value)
  }

  /** `b` is `a` with at most line `li` of section `si` rewritten, under
      the same key. */
  predicate SameExceptLine(a: Ini, b: Ini, si: nat, li: nat) {
    && si < |a.sections| && li < |a.sections[si].lines|
    && b.globals == a.globals && |b.sections| == |a.sections|
    && (forall k :: 0 <= k < |a.sections| && k != si ==> b.sections[k] == a.sections[k])
    && b.sections[si].name == a.sections[si].name
    && |b.sections[si].lines| == |a.sections[si].lines|
    && (forall k :: 0 <= k < |a.sections[si].lines| && k != li ==> b.sections[si].lines[k] == a.sections[si].lines[k])
    && b.sections[si].lines[li].key == a.sections[si].lines[li].key
  }

  /** Sections with the same names are searched alike. */
  lemma SameNamesSameSection(s1: seq<Section>, s2: seq<Section>, name: string)
    requires |s1| == |s2| && forall k :: 0 <= k < |s1| ==> s1[k].name == s2[k].name
    ensures FindSection(s1, name) == FindSection(s2, name)
  {
    var f1, f2 := FindSection(s1, name), FindSection(s2, name);
    if f1.Some? && f2.Some? {
      assert !(f1.value < f2.value) && !(f2.value < f1.value);
    }
  }

  /** Lines with the same keys are searched alike. */
  lemma SameKeysSameLine(l1: seq<Line>, l2: seq<Line>, key: string)
    requires |l1| == |l2| && forall k :: 0 <= k < |l1| ==> l1[k].key == l2[k].key
    ensures FindLine(l1, key) == FindLine(l2, key)
  {
    var f1, f2 := FindLine(l1, key), FindLine(l2, key);
    if f1.Some? && f2.Some? {
      assert !(f1.value < f2.value) && !(f2.value < f1.value);
    }
  }

  /** Rewriting the line a lookup finds: that lookup now reads the
      rewritten line's value, and every other section and key reads as
      before. */
  lemma {:induction false} ReadAfterLineChange(a: Ini, b: Ini, sectionName: string, key: string, otherSection: string, otherKey: string)
    requires FindSection(a.sections, sectionName).Some?
    requires FindLine(a.sections[FindSection(a.sections, sectionName).value].lines, key).Some?
    requires SameExceptLine(a, b, FindSection(a.sections, sectionName).value,
      FindLine(a.sections[FindSection(a.sections, sectionName).value].lines, key).value)
    ensures ValueAt(b, sectionName, key)
      == Some(b.sections[FindSection(a.sections, sectionName).value]
               .lines[FindLine(a.sections[FindSection(a.sections, sectionName).value].lines, key).value].value)
    ensures otherSection != sectionName || otherKey != key ==> ValueAt(b, otherSection, otherKey) == ValueAt(a, otherSection, otherKey)
  {
    var si := FindSection(a.sections, sectionName).value;
    var li := FindLine(a.sections[si].lines, key).value;
    assert forall k :: 0 <= k < |a.sections| ==> b.sections[k].name == a.sections[k].name;
    assert forall k :: 0 <= k < |a.sections[si].lines| ==> b.sections[si].lines[k].key == a.sections[si].lines[k].key;
    SameNamesSameSection(a.sections, b.sections, sectionName);
    SameKeysSameLine(a.sections[si].lines, b.sections[si].lines, key);
    SameNamesSameSection(a.sections, b.sections, otherSection);
    if otherSection != sectionName || otherKey != key {
      match FindSection(a.sections, otherSection)
      case None =>
      case Some(sj) =>
        if sj == si {
          SameKeysSameLine(a.sections[si].lines, b.sections[si].lines, otherKey);
        }
    }
  }

  /** The text the library gives a line after `setValue`. */
  function RenderLine(key: string, value: string): string
  {
    key + "=" + value
  }

  /** `text.match(/(\s*)=/gm)![0]`: the white space right before the first
      `=` together with that `=`; `None` where the source throws because
      the line has no `=`. */
  function SpacesBefore(text: string): (r: Option<string>)
    ensures r.None? <==> IndexOf(text, "=").None?
    ensures r.Some? ==> |r.value| >= 1 && r.value[|r.value| - 1] == '='
    ensures r.Some? ==> forall k :: 0 <= k < |r.value| - 1 ==> IsSpace(r.value[k])
  {
    match IndexOf(text, "=")
    case None => None
    case Some(j) =>
      var n := TrailingSpaces(text[..j]);
      Some(text[j - n..j] + "=")
  }

  /** Position of the first `=` (at or after `from`) directly followed by
      white space. */
  function EqualsBeforeSpace(text: string, from: nat): (r: Option<nat>)
    ensures r.Some? ==> from <= r.value && r.value + 1 < |text|
    ensures r.Some? ==> text[r.value] == '=' && IsSpace(text[r.value + 1])
    ensures r.Some? ==> forall k :: from <= k < r.value && k + 1 < |text| ==> !(text[k] == '=' && IsSpace(text[k + 1]))
    ensures r.None? ==> forall k :: from <= k && k + 1 < |text| ==> !(text[k] == '=' && IsSpace(text[k + 1]))
    decreases |text| - from
  {
    if from + 1 >= |text| then None
    else if text[from] == '=' && IsSpace(text[from + 1]) then Some(from)
    else EqualsBeforeSpace(text, from + 1)
  }

  /** `text.match(/(?<==)\s*(?<!\S)/)` joined: the maximal run of white
      space after the first `=` that is followed by white space at all;
      empty when there is none. */
  function SpacesAfter(text: string): (r: string)
    ensures forall k :: 0 <= k < |r| ==> IsSpace(r[k])
  {
    match EqualsBeforeSpace(text, 0)
    case None => ""
    case Some(j) =>
      var n := LeadingSpaces(text[j + 1..]);
      text[j + 1..j + 1 + n]
  }

  /** The new text of a rewritten line as the source builds it: the
      library's `key=value` rendering, split on every `=` and joined with
      the old line's spacing around its first `=`. */
  function RespacedText(key: string, newValue: string, before: string, after: string): string
  {
    Join(Split(RenderLine(key, newValue), "="), before + after)
  }

  /** The sections of `ini` with line `li` of section `si` replaced. */
  function ReplaceLine(ini: Ini, si: nat, li: nat, line: Line): (r: Ini)
    requires si < |ini.sections| && li < |ini.sections[si].lines|
    ensures r.globals == ini.globals && |r.sections| == |ini.sections|
    ensures forall k :: 0 <= k < |ini.sections| && k != si ==> r.sections[k] == ini.sections[k]
    ensures r.sections[si].name == ini.sections[si].name
    ensures |r.sections[si].lines| == |ini.sections[si].lines| && r.sections[si].lines[li] == line
    ensures forall k :: 0 <= k < |ini.sections[si].lines| && k != li ==> r.sections[si].lines[k] == ini.sections[si].lines[k]
  {
    var s := ini.sections[si];
    ini.(sections := ini.sections[si := s.(lines := s.lines[li := line])])
  }

  /** The rewrite of `key` in section `sectionName` can proceed: the section
      and the line exist and the line's text has an `=`. */
  predicate Locates(ini: Ini, sectionName: string, key: string) {
    match FindSection(ini.sections, sectionName)
    case None => false
    case Some(si) =>
      match FindLine(ini.sections[si].lines, key)
      case None => false
      case Some(li) => SpacesBefore(ini.sections[si].lines[li].text).Some?
  }

  /** `changeSectionalIniParameter`, as written: sets `key` of section
      `sectionName` to `newValue` and rewrites the line's text with the old
      spacing around `=`. `None` stands for the TypeError the source throws
      when the section, the line or an `=` in the old line is missing. */
  function ChangeSectionalParameter(ini: Ini, sectionName: string, key: string, newValue: string): (r: Option<Ini>)
    ensures r.Some? <==> Locates(ini, sectionName, key)
    ensures r.Some? ==> var si := FindSection(ini.sections, sectionName).value;
      var li := FindLine(ini.sections[si].lines, key).value;
      var old_ := ini.sections[si].lines[li];
      && SameExceptLine(ini, r.value, si, li)
      && r.value.sections[si].lines[li].value == newValue
      && r.value.sections[si].lines[li].text
         == RespacedText(old_.key, newValue, SpacesBefore(old_.text).value, SpacesAfter(old_.text))
  {
    match FindSection(ini.sections, sectionName)
    case None => None
    case Some(si) =>
      match FindLine(ini.sections[si].lines, key)
      case None => None
      case Some(li) =>
        var old_ := ini.sections[si].lines[li];
        match SpacesBefore(old_.text)
        case None => None
        case Some(before) =>
          var text := RespacedText(old_.key, newValue, before, SpacesAfter(old_.text));
          Some(ReplaceLine(ini, si, li, Line(old_.key, newValue, text)))
  }

  /** The rewrite as evidently intended: only the separating `=` takes the
      old line's spacing, the new value is written verbatim. */
  function ChangeSectionalParameterFixed(ini: Ini, sectionName: string, key: string, newValue: string): (r: Option<Ini>)
    ensures r.Some? <==> Locates(ini, sectionName, key)
    ensures r.Some? ==> var si := FindSection(ini.sections, sectionName).value;
      var li := FindLine(ini.sections[si].lines, key).value;
      var old_ := ini.sections[si].lines[li];
      && SameExceptLine(ini, r.value, si, li)
      && r.value.sections[si].lines[li].value == newValue
      && r.value.sections[si].lines[li].text
         == old_.key + SpacesBefore(old_.text).value + SpacesAfter(old_.text) + newValue
  {
    match FindSection(ini.sections, sectionName)
    case None => None
    case Some(si) =>
      match FindLine(ini.sections[si].lines, key)
      case None => None
      case Some(li) =>
        var old_ := ini.sections[si].lines[li];
        match SpacesBefore(old_.text)
        case None => None
        case Some(before) =>
          var text := old_.key + before + SpacesAfter(old_.text) + newValue;
          Some(ReplaceLine(ini, si, li, Line(old_.key, newValue, text)))
  }

  /** The two rewrites agree whenever neither the key nor the new value
      contains `=`. */
  lemma RespacedWithoutEquals(key: string, newValue: string, before: string, after: string)
    requires '=' !in key && '=' !in newValue
    ensures RespacedText(key, newValue, before, after) == key + before + after + newValue
  {
    assert RenderLine(key, newValue) == Join([key, newValue], "=");
    SplitJoin([key, newValue], "=");
  }

  /** White space holds no `=`. */
  lemma NoEqualsInSpace(ws: string)
    requires forall k :: 0 <= k < |ws| ==> IsSpace(ws[k])
    ensures '=' !in ws
  {
    forall k | 0 <= k < |ws|
      ensures ws[k] != '='
    {
      assert IsSpace(ws[k]);
    }
  }

  /** In `a=b` with no `=` in `a` or `b`, the only `=` is the separator. */
  lemma SoleEquals(a: string, b: string)
    requires '=' !in a && '=' !in b
    ensures var text := a + "=" + b;
      && IndexOf(text, "=") == Some(|a|)
      && forall k :: 0 <= k < |text| && k != |a| ==> text[k] != '='
  {
    var text := a + "=" + b;
    forall k | 0 <= k < |text| && k != |a|
      ensures text[k] != '='
    {
      if k < |a| {
        assert text[k] == a[k];
      } else {
        assert text[k] == b[k - |a| - 1];
      }
    }
    assert OccursAt(text, "=", |a|) by { assert text[|a|..|a| + 1] == "="; }
    forall k | 0 <= k < |a|
      ensures !OccursAt(text, "=", k)
    {
      assert text[k..k + 1] == [text[k]];
    }
  }

  /** The spacing before the first `=` of a well-formed line. */
  lemma SpacesBeforeOfLine(key: string, ws1: string, rest: string)
    requires '=' !in key && '=' !in rest
    requires forall k :: 0 <= k < |ws1| ==> IsSpace(ws1[k])
    requires |key| > 0 ==> !IsSpace(key[|key| - 1])
    ensures SpacesBefore(key + ws1 + "=" + rest) == Some(ws1 + "=")
  {
    NoEqualsInSpace(ws1);
    var a := key + ws1;
    assert key + ws1 + "=" + rest == a + "=" + rest;
    SoleEquals(a, rest);
    TrailingWhite(key, ws1);
    assert (a + "=" + rest)[..|a|] == a;
    assert a[|a| - |ws1|..] == ws1;
  }

  /** The spacing after the first `=` of a well-formed line. */
  lemma SpacesAfterOfLine(key: string, ws1: string, ws2: string, value: string)
    requires '=' !in key && '=' !in value
    requires forall k :: 0 <= k < |ws1| ==> IsSpace(ws1[k])
    requires forall k :: 0 <= k < |ws2| ==> IsSpace(ws2[k])
    requires |value| > 0 ==> !IsSpace(value[0])
    ensures SpacesAfter(key + ws1 + "=" + ws2 + value) == ws2
  {
    NoEqualsInSpace(ws1);
    NoEqualsInSpace(ws2);
    var a := key + ws1;
    var b := ws2 + value;
    var text := a + "=" + b;
    assert key + ws1 + "=" + ws2 + value == text;
    SoleEquals(a, b);
    var j := |a|;
    assert text[j + 1..] == b;
    if |ws2| > 0 {
      assert text[j + 1] == ws2[0];
      assert EqualsBeforeSpace(text, 0) == Some(j);
      LeadingWhite(ws2, value);
      assert b[..|ws2|] == ws2;
    } else {
      assert j + 1 < |text| ==> text[j + 1] == value[0];
      NoSpacedEquals(text, j);
    }
  }

  /** A text whose only `=` is not followed by white space has no `=`
      followed by white space. */
  lemma NoSpacedEquals(text: string, j: nat)
    requires j < |text| && forall k :: 0 <= k < |text| && k != j ==> text[k] != '='
    requires j + 1 < |text| ==> !IsSpace(text[j + 1])
    ensures EqualsBeforeSpace(text, 0).None?
  {
  }

  /** A well-formed line `key<ws1>=<ws2>value` keeps its spacing pattern when
      rewritten with a new value: the line of the scenario
      `Resolution = 1920x1080` becomes `Resolution = 1280x720`. */
  lemma RewriteKeepsSpacing(key: string, ws1: string, ws2: string, oldValue: string, newValue: string)
    requires '=' !in key && '=' !in oldValue && '=' !in newValue
    requires forall k :: 0 <= k < |ws1| ==> IsSpace(ws1[k])
    requires forall k :: 0 <= k < |ws2| ==> IsSpace(ws2[k])
    requires |key| > 0 ==> !IsSpace(key[|key| - 1])
    requires |oldValue| > 0 ==> !IsSpace(oldValue[0])
    ensures var text := key + ws1 + "=" + ws2 + oldValue;
      && SpacesBefore(text) == Some(ws1 + "=")
      && RespacedText(key, newValue, SpacesBefore(text).value, SpacesAfter(text))
         == key + ws1 + "=" + ws2 + newValue
  {
    var text := key + ws1 + "=" + ws2 + oldValue;
    assert SpacesBefore(text) == Some(ws1 + "=") by {
      assert text == key + ws1 + "=" + (ws2 + oldValue);
      NoEqualsInSpace(ws2);
      SpacesBeforeOfLine(key, ws1, ws2 + oldValue);
    }
    assert SpacesAfter(text) == ws2 by {
      SpacesAfterOfLine(key, ws1, ws2, oldValue);
    }
    assert RespacedText(key, newValue, ws1 + "=", ws2) == key + ws1 + "=" + ws2 + newValue by {
      RespacedWithoutEquals(key, newValue, ws1 + "=", ws2);
      Regroup(key, ws1, "=", ws2, newValue);
    }
  }

  /** Regrouping a concatenation of five strings. */
  lemma Regroup(a: string, b: string, c: string, d: string, e: string)
    ensures a + (b + c) + d + e == a + b + c + d + e
  {
  }

  /** Counting trailing white space stops at the end of a word. */
  lemma TrailingWhite(word: string, ws: string)
    requires forall k :: 0 <= k < |ws| ==> IsSpace(ws[k])
    requires |word| > 0 ==> !IsSpace(word[|word| - 1])
    ensures TrailingSpaces(word + ws) == |ws|
    decreases |ws|
  {
    if |ws| > 0 {
      var s := word + ws;
      assert s[|s| - 1] == ws[|ws| - 1];
      assert s[..|s| - 1] == word + ws[..|ws| - 1];
      TrailingWhite(word, ws[..|ws| - 1]);
    }
  }

  /** Counting leading white space stops at the start of a word. */
  lemma LeadingWhite(ws: string, word: string)
    requires forall k :: 0 <= k < |ws| ==> IsSpace(ws[k])
    requires |word| > 0 ==> !IsSpace(word[0])
    ensures LeadingSpaces(ws + word) == |ws|
    decreases |ws|
  {
    if |ws| > 0 {
      var s := ws + word;
      assert s[0] == ws[0];
      assert s[1..] == ws[1..] + word;
      LeadingWhite(ws[1..], word);
    }
  }

  /** The as-written rewrite changes a new value that contains `=`: writing
      `x=y` over the line `a = b` produces the text `a = x = y`. */
  lemma EqualsInValueIsRespaced()
    ensures RespacedText("a", "x=y", " =", " ") == "a = x = y"
    ensures RespacedText("a", "x=y", " =", " ") != "a" + " =" + " " + "x=y"
  {
    SplitOfRendered();
    assert " =" + " " == " = ";
    JoinThree("a", "x", "y", " = ");
    RespacedLiteral();
  }

  /** The rendering `a=x=y` splits into three pieces. */
  lemma SplitOfRendered()
    ensures Split(RenderLine("a", "x=y"), "=") == ["a", "x", "y"]
  {
    var parts := ["a", "x", "y"];
    assert RenderLine("a", "x=y") == Join(parts, "=") by {
      JoinThree("a", "x", "y", "=");
      assert "x" + "=" + "y" == "x=y";
    }
    SplitJoin(parts, "=");
  }

  /** Joining three parts puts the separator between each neighbouring
      pair. */
  lemma JoinThree(a: string, b: string, c: string, sep: string)
    ensures Join([a, b, c], sep) == a + sep + (b + sep + c)
  {
    assert [a, b, c][1..] == [b, c];
    assert [b, c][1..] == [c];
  }

  /** The text of the scenario, spelled out. */
  lemma RespacedLiteral()
    ensures "a" + " = " + ("x" + " = " + "y") == "a = x = y"
    ensures "a = x = y" != "a" + " =" + " " + "x=y"
  {
    assert "a = x = y"[5] != ("a" + " =" + " " + "x=y")[5];
  }

  /** The intended rewrite keeps the spacing of a well-formed line
      `key<ws1>=<ws2>value` for every new value, `=` included. */
  lemma FixedRewriteKeepsSpacing(key: string, ws1: string, ws2: string, oldValue: string, newValue: string)
    requires '=' !in key && '=' !in oldValue
    requires forall k :: 0 <= k < |ws1| ==> IsSpace(ws1[k])
    requires forall k :: 0 <= k < |ws2| ==> IsSpace(ws2[k])
    requires |key| > 0 ==> !IsSpace(key[|key| - 1])
    requires |oldValue| > 0 ==> !IsSpace(oldValue[0])
    ensures var text := key + ws1 + "=" + ws2 + oldValue;
      && SpacesBefore(text) == Some(ws1 + "=")
      && key + SpacesBefore(text).value + SpacesAfter(text) + newValue == key + ws1 + "=" + ws2 + newValue
  {
    var text := key + ws1 + "=" + ws2 + oldValue;
    assert SpacesBefore(text) == Some(ws1 + "=") by {
      assert text == key + ws1 + "=" + (ws2 + oldValue);
      NoEqualsInSpace(ws2);
      SpacesBeforeOfLine(key, ws1, ws2 + oldValue);
    }
    assert SpacesAfter(text) == ws2 by {
      SpacesAfterOfLine(key, ws1, ws2, oldValue);
    }
    Regroup(key, ws1, "=", ws2, newValue);
  }

  /** After the rewrite, looking the parameter up again finds the new value,
      and every other section and key reads as before. */
  lemma ChangeThenGet(ini: Ini, sectionName: string, key: string, newValue: string, otherSection: string, otherKey: string)
    requires Locates(ini, sectionName, key)
    ensures var r := ChangeSectionalParameter(ini, sectionName, key, newValue).value;
      && ValueAt(r, sectionName, key) == Some(newValue)
      && (otherSection != sectionName || otherKey != key ==> ValueAt(r, otherSection, otherKey) == ValueAt(ini, otherSection, otherKey))
  {
    var r := ChangeSectionalParameter(ini, sectionName, key, newValue).value;
    ReadAfterLineChange(ini, r, sectionName, key, otherSection, otherKey);
  }
}

=== FILE: modorganizer.dfy ===
/** Mod Organizer support: the configuration block with its derived
    paths (`getNewModOrganizerParams`, src/utils/data.ts:520-545), the
    current profile as stored in ModOrganizer.ini
    (src/redux/sagas/gameSettings.ts:177-237) and the profile switch
    (src/redux/sagas/gameSettings.ts:610-698). */
module ModOrganizer {
  import opened Wrappers
  import opened Strings
  import opened IniFile
  import opened Schema
  import opened Options
  import opened Extraction

  /** The Mod Organizer block of the launcher configuration. */
  datatype MoParams = MoParams(
    isUsed: bool,
    version: int,
    path: string,
    pathToINI: string,
    pathToProfiles: string,
    pathToMods: string,
    profileSection: string,
    profileParam: string,
    profileParamValueRegExp: string)

  /** The same block as read from config.json: every key may be absent. */
  datatype MoParamsInput = MoParamsInput(
    isUsed: Option<bool>,
    version: Option<int>,
    path: Option<string>,
    pathToINI: Option<string>,
    pathToProfiles: Option<string>,
    pathToMods: Option<string>,
    profileSection: Option<string>,
    profileParam: Option<string>,
    profileParamValueRegExp: Option<string>)

  /** `s` begins with `p`. */
  predicate StartsWith(s: string, p: string) {
    |p| <= |s| && s[..|p|] == p
  }

  /** A derived path: the configured one when it is truthy, otherwise the
      default one with the default root replaced by the configured root. */
  function Relocated(explicit: Option<string>, defaultPath: string, defaultRoot: string, root: string): string {
    if Truthy(explicit) then explicit.value else ReplaceFirst(defaultPath, defaultRoot, root)
  }

  /** `getNewModOrganizerParams`: the defaults overridden key by key by
      the configuration; when the configuration names a root `path`, the
      three derived paths it leaves empty follow that root. */
  function NewModOrganizerParams(defaults: MoParams, data: MoParamsInput): (r: MoParams)
    ensures r.isUsed == data.isUsed.GetOr(defaults.isUsed) && r.version == data.version.GetOr(defaults.version)
    ensures r.profileSection == data.profileSection.GetOr(defaults.profileSection)
    ensures r.profileParam == data.profileParam.GetOr(defaults.profileParam)
    ensures r.profileParamValueRegExp == data.profileParamValueRegExp.GetOr(defaults.profileParamValueRegExp)
    ensures r.path == data.path.GetOr(defaults.path)
    ensures !Truthy(data.path) ==>
      && r.pathToINI == data.pathToINI.GetOr(defaults.pathToINI)
      && r.pathToProfiles == data.pathToProfiles.GetOr(defaults.pathToProfiles)
      && r.pathToMods == data.pathToMods.GetOr(defaults.pathToMods)
    ensures Truthy(data.path) && Truthy(data.pathToINI) ==> r.pathToINI == data.pathToINI.value
    ensures Truthy(data.path) && Truthy(data.pathToProfiles) ==> r.pathToProfiles == data.pathToProfiles.value
    ensures Truthy(data.path) && Truthy(data.pathToMods) ==> r.pathToMods == data.pathToMods.value
  {
    var spread := MoParams(
      data.isUsed.GetOr(defaults.isUsed),
      data.version.GetOr(defaults.version),
      data.path.GetOr(defaults.path),
      data.pathToINI.GetOr(defaults.pathToINI),
      data.pathToProfiles.GetOr(defaults.pathToProfiles),
      data.pathToMods.GetOr(defaults.pathToMods),
      data.profileSection.GetOr(defaults.profileSection),
      data.profileParam.GetOr(defaults.profileParam),
      data.profileParamValueRegExp.GetOr(defaults.profileParamValueRegExp));
    if Truthy(data.path) then
      spread.(
        pathToINI := Relocated(data.pathToINI, defaults.pathToINI, defaults.path, data.path.value),
        pathToProfiles := Relocated(data.pathToProfiles, defaults.pathToProfiles, defaults.path, data.path.value),
        pathToMods := Relocated(data.pathToMods, defaults.pathToMods, defaults.path, data.path.value))
    else spread
  }

  /** Replacing a leading non-empty root swaps that root for the
      substituted new root and keeps the rest; a new root without `$` goes
      in verbatim. */
  lemma ReplaceLeadingRoot(s: string, root: string, newRoot: string)
    requires |root| > 0 && StartsWith(s, root)
    ensures ReplaceFirst(s, root, newRoot) == Substitute(newRoot, root, "", s[|root|..]) + s[|root|..]
    ensures '$' !in newRoot ==> ReplaceFirst(s, root, newRoot) == newRoot + s[|root|..]
  {
    assert OccursAt(s, root, 0);
    assert IndexOf(s, root) == Some(0);
    var tail := s[|root|..];
    assert s[..0] == "";
    assert ReplaceFirst(s, root, newRoot) == "" + Substitute(newRoot, root, "", tail) + tail;
    if '$' !in newRoot {
      SubstituteLiteral(newRoot, root, "", tail);
    }
  }

  /** With a new root and no explicit derived path, a default path under
      the default root moves under the new root with the same tail; the
      new root goes in verbatim unless it holds a `$` pattern. */
  lemma DerivedPathsFollowRoot(defaults: MoParams, data: MoParamsInput)
    requires Truthy(data.path) && |defaults.path| > 0
    ensures var r := NewModOrganizerParams(defaults, data);
      var root, newRoot := defaults.path, data.path.value;
      && (!Truthy(data.pathToINI) && StartsWith(defaults.pathToINI, root) ==>
            var tail := defaults.pathToINI[|root|..];
            && r.pathToINI == Substitute(newRoot, root, "", tail) + tail
            && ('$' !in newRoot ==> r.pathToINI == newRoot + tail))
      && (!Truthy(data.pathToProfiles) && StartsWith(defaults.pathToProfiles, root) ==>
            var tail := defaults.pathToProfiles[|root|..];
            && r.pathToProfiles == Substitute(newRoot, root, "", tail) + tail
            && ('$' !in newRoot ==> r.pathToProfiles == newRoot + tail))
      && (!Truthy(data.pathToMods) && StartsWith(defaults.pathToMods, root) ==>
            var tail := defaults.pathToMods[|root|..];
            && r.pathToMods == Substitute(newRoot, root, "", tail) + tail
            && ('$' !in newRoot ==> r.pathToMods == newRoot + tail))
  {
    if StartsWith(defaults.pathToINI, defaults.path) {
      ReplaceLeadingRoot(defaults.pathToINI, defaults.path, data.path.value);
    }
    if StartsWith(defaults.pathToProfiles, defaults.path) {
      ReplaceLeadingRoot(defaults.pathToProfiles, defaults.path, data.path.value);
    }
    if StartsWith(defaults.pathToMods, defaults.path) {
      ReplaceLeadingRoot(defaults.pathToMods, defaults.path, data.path.value);
    }
  }

  /** An empty configuration block yields the defaults, and a complete one
      with non-empty paths yields itself. */
  lemma ParamsOverrideIdentities(defaults: MoParams, c: MoParams)
    ensures NewModOrganizerParams(defaults, MoParamsInput(None, None, None, None, None, None, None, None, None)) == defaults
    ensures c.path != "" && c.pathToINI != "" && c.pathToProfiles != "" && c.pathToMods != "" ==>
      NewModOrganizerParams(defaults, MoParamsInput(Some(c.isUsed), Some(c.version), Some(c.path), Some(c.pathToINI),
        Some(c.pathToProfiles), Some(c.pathToMods), Some(c.profileSection), Some(c.profileParam),
        Some(c.profileParamValueRegExp))) == c
  {
  }

  /** The opening of a version-2 profile value. */
  const ByteArrayOpen: string := "@ByteArray("

  /** The end of the line that contains position `i`: the first line
      terminator at or after `i`, or the end of `s`. */
  function LineEnd(s: string, i: nat): (r: nat)
    requires i <= |s|
    ensures i <= r <= |s|
    ensures r < |s| ==> IsLineTerminator(s[r])
    ensures forall k :: i <= k < r ==> !IsLineTerminator(s[k])
    decreases |s| - i
  {
    if i == |s| || IsLineTerminator(s[i]) then i else LineEnd(s, i + 1)
  }

  /** The last `)` in `s[lo..hi]`. */
  function LastClose(s: string, lo: nat, hi: nat): (r: Option<nat>)
    requires lo <= hi <= |s|
    ensures r.Some? ==> lo <= r.value < hi && s[r.value] == ')'
    ensures r.Some? ==> forall k :: r.value < k < hi ==> s[k] != ')'
    ensures r.None? ==> forall k :: lo <= k < hi ==> s[k] != ')'
    decreases hi - lo
  {
    if hi == lo then None
    else if s[hi - 1] == ')' then Some(hi - 1)
    else LastClose(s, lo, hi - 1)
  }

  /** The capture of `/@ByteArray\((.+)\)/` when the match starts at `k`:
      `.+` is greedy and stops at a line terminator, so the group runs to
      the last `)` of the line, at least one character on. */
  function ByteArrayAt(s: string, k: nat): (r: Option<string>)
    requires k <= |s|
    ensures r.Some? ==> OccursAt(s, ByteArrayOpen, k)
    ensures r.Some? ==> |r.value| >= 1 && forall j :: 0 <= j < |r.value| ==> !IsLineTerminator(r.value[j])
  {
    if !OccursAt(s, ByteArrayOpen, k) then None
    else
      var e := LineEnd(s, k + 11);
      if e < k + 12 then None
      else
        match LastClose(s, k + 12, e)
        case None => None
        case Some(p) => Some(s[k + 11..p])
  }

  /** The leftmost match at or after `k`. */
  function ByteArrayFrom(s: string, k: nat): (r: Option<string>)
    requires k <= |s|
    ensures r.Some? ==> |r.value| >= 1 && forall j :: 0 <= j < |r.value| ==> !IsLineTerminator(r.value[j])
    ensures r.None? <==> forall j :: k <= j <= |s| ==> ByteArrayAt(s, j).None?
    decreases |s| - k
  {
    match ByteArrayAt(s, k)
    case Some(g) => Some(g)
    case None => if k == |s| then None else ByteArrayFrom(s, k + 1)
  }

  /** `value.match(/@ByteArray\((.+)\)/)`, group 1; `None` when there is no
      match. */
  function ByteArrayPayload(s: string): (r: Option<string>)
    ensures r.Some? ==> |r.value| >= 1 && forall j :: 0 <= j < |r.value| ==> !IsLineTerminator(r.value[j])
    ensures r.None? <==> forall j :: 0 <= j <= |s| ==> ByteArrayAt(s, j).None?
  {
    ByteArrayFrom(s, 0)
  }

  /** The profile value written on a switch: verbatim for version 1,
      wrapped in `@ByteArray(...)` for any other version. */
  function EncodeProfile(version: int, p: string): (r: string)
    ensures version == 1 ==> r == p
    ensures version != 1 ==> |r| == |p| + 12 && OccursAt(r, ByteArrayOpen, 0) && r[|r| - 1] == ')'
  {
    if version == 1 then p else ByteArrayOpen + p + ")"
  }

  /** A non-empty, single-line profile name survives the version-2
      encoding and the regular-expression decoding. */
  lemma ByteArrayRoundTrip(p: string)
    requires |p| >= 1 && forall j :: 0 <= j < |p| ==> !IsLineTerminator(p[j])
    ensures ByteArrayPayload(EncodeProfile(2, p)) == Some(p)
  {
    var s := EncodeProfile(2, p);
    assert s[..11] == ByteArrayOpen;
    assert OccursAt(s, ByteArrayOpen, 0);
    assert forall j :: 11 <= j < |s| ==> s[j] == if j < |s| - 1 then p[j - 11] else ')';
    assert LineEnd(s, 11) == |s|;
    assert LastClose(s, 12, |s|) == Some(|s| - 1);
    assert s[11..|s| - 1] == p;
  }

  /** What reading the current profile gives: a profile (`None` when a
      custom expression matches without a first group, as `undefined`), or
      a failure that does or does not reset the stored profile to `""`. */
  datatype ProfileRead = ProfileFound(profile: Option<string>) | ProfileFailed(reset: bool)

  /** The profile value `getDataFromMOIniSaga` reads: the value of
      `profileParam` in section `profileSection`. */
  function ProfileValue(mo: MoParams, ini: Ini): (r: Option<string>)
    ensures r.Some? <==>
      && GetSection(ini, mo.profileSection).Some?
      && GetLine(GetSection(ini, mo.profileSection).value, mo.profileParam).Some?
    ensures r.Some? ==> r.value == GetLine(GetSection(ini, mo.profileSection).value, mo.profileParam).value.value
  {
    match GetSection(ini, mo.profileSection)
    case None => None
    case Some(sec) =>
      match GetLine(sec, mo.profileParam)
      case None => None
      case Some(line) => Some(line.value)
  }

  /** `getDataFromMOIniSaga` on the parsed ModOrganizer.ini. `customGroup`
      stands for matching the configured expression: `None` for no match,
      otherwise its first group. A missing section or an empty or missing
      value resets the profile; a version-2 value without `@ByteArray(...)`
      fails without a reset, because the source then throws a TypeError
      rather than its own error. */
  function DecodeProfile(mo: MoParams, ini: Ini, customGroup: string -> Option<Option<string>>): (r: ProfileRead)
    ensures !Truthy(ProfileValue(mo, ini)) ==> r == ProfileFailed(true)
    ensures Truthy(ProfileValue(mo, ini)) ==>
      var v := ProfileValue(mo, ini).value;
      && (mo.profileParamValueRegExp != "" ==>
            r == if customGroup(v).None? then ProfileFailed(true) else ProfileFound(customGroup(v).value))
      && (mo.profileParamValueRegExp == "" && mo.version == 2 ==>
            r == if ByteArrayPayload(v).None? then ProfileFailed(false) else ProfileFound(ByteArrayPayload(v)))
      && (mo.profileParamValueRegExp == "" && mo.version != 2 ==> r == ProfileFound(Some(v)))
  {
    match ProfileValue(mo, ini)
    case None => ProfileFailed(true)
    case Some(v) =>
      if v == "" then ProfileFailed(true)
      else if mo.profileParamValueRegExp != "" then
        match customGroup(v)
        case None => ProfileFailed(true)
        case Some(g) => ProfileFound(g)
      else if mo.version == 1 then ProfileFound(Some(v))
      else if mo.version == 2 then
        match ByteArrayPayload(v)
        case None => ProfileFailed(false)
        case Some(p) => ProfileFound(Some(p))
      else ProfileFound(Some(v))
  }

  /** The files whose path is scoped to the profile. */
  function ProfileFiles(files: map<string, SettingsFile>, isProfilePath: string -> bool): (r: map<string, SettingsFile>)
    ensures forall f :: f in r <==> f in files && isProfilePath(files[f].path)
    ensures forall f :: f in r ==> r[f] == files[f]
  {
    map f | f in files && isProfilePath(files[f].path) :: files[f]
  }

  /** The state a profile switch leaves: the rewritten INI, the current
      profile, the option map and the loaded flag. */
  datatype SwitchResult = SwitchResult(ini: Ini, profile: string, options: OptionMap, loaded: bool)

  /** `changeMOProfileSaga`: writes the encoded profile into the INI, then
      re-extracts the profile-scoped files with the new profile (`read`
      stands for reading one file under one profile) and lays their
      options over the map. A missing profile key, a failed read of a
      scoped file or an unreadable one leaves profile and options as they
      were; the INI is rewritten before the files are read. The INI is
      given already read, and writing it back is taken to succeed. */
  function ChangeProfile(mo: MoParams, ini: Ini, profile: string, newProfile: string,
                         files: map<string, SettingsFile>, options: OptionMap,
                         isProfilePath: string -> bool, read: (string, string) -> Option<ParsedFile>,
                         syntax: LineSyntax): (r: SwitchResult)
    ensures r.loaded
    ensures !Locates(ini, mo.profileSection, mo.profileParam) ==> r == SwitchResult(ini, profile, options, true)
    ensures Locates(ini, mo.profileSection, mo.profileParam) ==>
      r.ini == ChangeSectionalParameter(ini, mo.profileSection, mo.profileParam, EncodeProfile(mo.version, newProfile)).value
    ensures r.profile == profile || r.profile == newProfile
    ensures r.profile != newProfile ==> r.options == options
    ensures Locates(ini, mo.profileSection, mo.profileParam)
      && (ReadFiles(ProfileFiles(files, isProfilePath), f => read(newProfile, f)).None?
          || !Readable(ProfileFiles(files, isProfilePath),
                       ReadFiles(ProfileFiles(files, isProfilePath), f => read(newProfile, f)).value))
      ==> r.profile == profile && r.options == options
    ensures r.options.Keys >= options.Keys
    ensures forall f :: f in options && !(f in files && isProfilePath(files[f].path)) ==> r.options[f] == options[f]
    ensures forall f :: f in r.options && f !in options ==> f in files && isProfilePath(files[f].path)
  {
    match ChangeSectionalParameter(ini, mo.profileSection, mo.profileParam, EncodeProfile(mo.version, newProfile))
    case None => SwitchResult(ini, profile, options, true)
    case Some(written) =>
      var scoped := ProfileFiles(files, isProfilePath);
      match ReadFiles(scoped, f => read(newProfile, f))
      case None => SwitchResult(written, profile, options, true)
      case Some(data) =>
        if Readable(scoped, data) then
          var generated := GenerateOptions(scoped, data, syntax).options;
          SwitchResult(written, newProfile, options + generated, true)
        else SwitchResult(written, profile, options, true)
  }

  /** After a switch reached the INI, reading the profile back gives the
      new one for versions 1 and 2, but the wrapped text for any other
      version: the encoder wraps every version but 1, the decoder unwraps
      only version 2. */
  lemma SwitchThenDecode(mo: MoParams, ini: Ini, profile: string, newProfile: string,
                         files: map<string, SettingsFile>, options: OptionMap,
                         isProfilePath: string -> bool, read: (string, string) -> Option<ParsedFile>,
                         syntax: LineSyntax, customGroup: string -> Option<Option<string>>)
    requires Locates(ini, mo.profileSection, mo.profileParam) && mo.profileParamValueRegExp == ""
    requires |newProfile| >= 1 && forall j :: 0 <= j < |newProfile| ==> !IsLineTerminator(newProfile[j])
    ensures var r := ChangeProfile(mo, ini, profile, newProfile, files, options, isProfilePath, read, syntax);
      && (mo.version == 1 || mo.version == 2 ==> DecodeProfile(mo, r.ini, customGroup) == ProfileFound(Some(newProfile)))
      && (mo.version != 1 && mo.version != 2 ==>
            DecodeProfile(mo, r.ini, customGroup) == ProfileFound(Some(ByteArrayOpen + newProfile + ")")))
  {
    var encoded := EncodeProfile(mo.version, newProfile);
    ChangeThenGet(ini, mo.profileSection, mo.profileParam, encoded, mo.profileSection, mo.profileParam);
    var r := ChangeProfile(mo, ini, profile, newProfile, files, options, isProfilePath, read, syntax);
    assert ProfileValue(mo, r.ini) == Some(encoded);
    if mo.version == 2 {
      ByteArrayRoundTrip(newProfile);
    }
  }

  /** On a successful switch every option of a re-extracted file is the
      freshly read one, and every other option is kept. */
  lemma SwitchReplacesScopedOptions(mo: MoParams, ini: Ini, profile: string, newProfile: string,
                                    files: map<string, SettingsFile>, options: OptionMap,
                                    isProfilePath: string -> bool, read: (string, string) -> Option<ParsedFile>,
                                    syntax: LineSyntax, data: map<string, ParsedFile>)
    requires Locates(ini, mo.profileSection, mo.profileParam)
    requires ReadFiles(ProfileFiles(files, isProfilePath), f => read(newProfile, f)) == Some(data)
    requires Readable(ProfileFiles(files, isProfilePath), data)
    ensures var r := ChangeProfile(mo, ini, profile, newProfile, files, options, isProfilePath, read, syntax);
      var generated := GenerateOptions(ProfileFiles(files, isProfilePath), data, syntax).options;
      && r.profile == newProfile
      && r.options.Keys == options.Keys + generated.Keys
      && (forall f :: f in generated ==> r.options[f] == generated[f])
      && (forall f :: f in options && f !in generated ==> r.options[f] == options[f])
      && Changed(generated) == map[]
  {
    var scoped := ProfileFiles(files, isProfilePath);
    var generated := GenerateOptions(scoped, data, syntax).options;
    var w := ChangeSectionalParameter(ini, mo.profileSection, mo.profileParam, EncodeProfile(mo.version, newProfile));
    assert w.Some?;
    assert ChangeProfile(mo, ini, profile, newProfile, files, options, isProfilePath, read, syntax)
      == SwitchResult(w.value, newProfile, options + generated, true);
    FreshExtractionUnchanged(scoped, data, syntax);
  }
}

=== FILE: options.dfy ===
/** The option map the settings screen edits: file name -> option name ->
    `{default, value, parent}` (src/utils/data.ts:355-435). `default` is
    the value last read from or written to disk, `value` the value being
    edited, `parent` the file the option belongs to. */
module Options {
  /** One option. */
  datatype OptionValue = OptionValue(default: string, value: string, parent: string)

  /** The options of one file, by option name. */
  type OptionsItem = map<string, OptionValue>

  /** The options of all files, by file name. */
  type OptionMap = map<string, OptionsItem>

  /** The option differs from its last saved value. */
  predicate IsChanged(v: OptionValue) {
    v.value != v.default
  }

  /** The JavaScript `String(n)` of the number a checkbox gives,
      `Number(checked)`. */
  function CheckboxValue(checked: bool): (r: string)
    ensures r == "1" || r == "0"
    ensures checked <==> r == "1"
  {
    if checked then "1" else "0"
  }

  /** `generateNewGameSettingsOption`: a one-entry map holding the option
      `name` of `file` with its value replaced by `newValue` (already
      converted with `String`). */
  function GenerateNew(m: OptionMap, file: string, name: string, newValue: string): (r: OptionsItem)
    requires file in m && name in m[file]
    ensures r.Keys == {name}
    ensures r[name].value == newValue
    ensures r[name].default == m[file][name].default && r[name].parent == m[file][name].parent
  {
    map[name := m[file][name].(value := newValue)]
  }

  /** The changed options of one file. */
  function ChangedItem(item: OptionsItem): (r: OptionsItem)
    ensures forall n :: n in r <==> n in item && IsChanged(item[n])
    ensures forall n :: n in r ==> r[n] == item[n]
  {
    map n | n in item && IsChanged(item[n]) :: item[n]
  }

  /** `getChangedGameSettingsOptions`: exactly the changed options, copied
      unchanged; a file with no changed option is left out. */
  function Changed(m: OptionMap): (r: OptionMap)
    ensures forall f :: f in r <==> f in m && ChangedItem(m[f]) != map[]
    ensures forall f, n :: f in r && n in r[f] <==> f in m && n in m[f] && IsChanged(m[f][n])
    ensures forall f, n :: f in r && n in r[f] ==> r[f][n] == m[f][n]
  {
    map f | f in m && ChangedItem(m[f]) != map[] :: ChangedItem(m[f])
  }

  /** `getGameSettingsOptionsWithDefaultValues`: with `reset` every value
      goes back to its default (cancel); without it every default takes
      the current value (commit after a save). */
  function WithDefaults(m: OptionMap, reset: bool): (r: OptionMap)
    ensures r.Keys == m.Keys
    ensures forall f :: f in m ==> r[f].Keys == m[f].Keys
    ensures forall f, n :: f in m && n in m[f] ==>
      r[f][n].parent == m[f][n].parent && r[f][n].value == r[f][n].default
    ensures reset ==> forall f, n :: f in m && n in m[f] ==> r[f][n].default == m[f][n].default
    ensures !reset ==> forall f, n :: f in m && n in m[f] ==> r[f][n].value == m[f][n].value
  {
    map f | f in m :: map n | n in m[f] ::
      if reset then m[f][n].(value := m[f][n].default) else m[f][n].(default := m[f][n].value)
  }

  /** The changed subset of a changed subset is itself. */
  lemma ChangedIdempotent(m: OptionMap)
    ensures Changed(Changed(m)) == Changed(m)
  {
    var c := Changed(m);
    forall f | f in c
      ensures ChangedItem(c[f]) == c[f]
    {
    }
    assert forall f :: f in c ==> ChangedItem(c[f]) != map[] by {
      forall f | f in c
        ensures ChangedItem(c[f]) != map[]
      {
        var n :| n in ChangedItem(m[f]);
        assert n in c[f];
      }
    }
  }

  /** The changed subset is empty exactly when every option equals its
      default. */
  lemma ChangedEmptyIff(m: OptionMap)
    ensures Changed(m) == map[] <==> forall f, n :: f in m && n in m[f] ==> !IsChanged(m[f][n])
  {
    if Changed(m) == map[] {
      forall f, n | f in m && n in m[f]
        ensures !IsChanged(m[f][n])
      {
        assert f !in Changed(m);
      }
    }
  }

  /** After a reset or a commit nothing is changed any more. */
  lemma WithDefaultsLeavesNothingChanged(m: OptionMap, reset: bool)
    ensures Changed(WithDefaults(m, reset)) == map[]
  {
    ChangedEmptyIff(WithDefaults(m, reset));
  }

  /** Cancelling after an edit of an unedited map gives back the map: the
      edit only ever touches `value`. */
  lemma ResetUndoesEdit(m: OptionMap, file: string, name: string, newValue: string)
    requires file in m && name in m[file]
    requires Changed(m) == map[]
    ensures WithDefaults(m[file := m[file] + GenerateNew(m, file, name, newValue)], true) == m
  {
    ChangedEmptyIff(m);
    var e := m[file := m[file] + GenerateNew(m, file, name, newValue)];
    var r := WithDefaults(e, true);
    assert e.Keys == m.Keys;
    forall f | f in m
      ensures r[f] == m[f]
    {
      assert e[f].Keys == m[f].Keys;
      if f == file {
        var g := GenerateNew(m, file, name, newValue);
        forall n | n in m[f]
          ensures e[f][n].default == m[f][n].default && e[f][n].parent == m[f][n].parent
        {
          if n == name {
            assert e[f][n] == g[name];
          } else {
            assert e[f][n] == m[f][n];
          }
        }
      } else {
        assert e[f] == m[f];
      }
      ResetItemIsItem(m[f], r[f]);
    }
  }

  /** An item whose every option agrees with an unchanged item on parent
      and default, and whose values are back at their defaults, is that
      item. */
  lemma ResetItemIsItem(item: OptionsItem, r: OptionsItem)
    requires r.Keys == item.Keys
    requires forall n :: n in item ==> !IsChanged(item[n])
    requires forall n :: n in item ==>
      r[n].parent == item[n].parent && r[n].default == item[n].default && r[n].value == r[n].default
    ensures r == item
  {
    forall n | n in item
      ensures r[n] == item[n]
    {
    }
  }
}

=== FILE: pruning.dfy ===
/** Dropping the parameters that failed extraction from the schema,
    `filterIncorrectGameSettingsFiles` (src/utils/data.ts:295-323), and the
    message the initialisation shows afterwards
    (src/redux/sagas/gameSettings.ts:547-560). */
module Pruning {
  import opened Wrappers
  import opened Schema
  import opened Options
  import opened IniFile
  import opened Extraction

  /** The positions below `n` that `listed` does not name, in increasing
      order. */
  function KeptIndexes(n: nat, listed: seq<nat>): (r: seq<nat>)
    ensures |r| <= n && forall k :: 0 <= k < |r| ==> r[k] < n
    decreases n
  {
    if n == 0 then [] else KeptIndexes(n - 1, listed) + (if n - 1 in listed then [] else [n - 1])
  }

  /** The kept positions are exactly the unlisted ones below `n`, each
      once, in increasing order. */
  lemma KeptIndexesExact(n: nat, listed: seq<nat>)
    ensures var r := KeptIndexes(n, listed);
      && (forall k :: 0 <= k < |r| ==> r[k] < n && r[k] !in listed)
      && (forall i: nat :: i < n && i !in listed ==> i in r)
      && (forall j, k :: 0 <= j < k < |r| ==> r[j] < r[k])
  {
    KeptIndexesUnlisted(n, listed);
    KeptIndexesComplete(n, listed);
    KeptIndexesIncreasing(n, listed);
  }

  /** No kept position is listed. */
  lemma {:induction false} KeptIndexesUnlisted(n: nat, listed: seq<nat>)
    ensures forall k :: 0 <= k < |KeptIndexes(n, listed)| ==> KeptIndexes(n, listed)[k] !in listed
    decreases n
  {
    if n > 0 {
      KeptIndexesUnlisted(n - 1, listed);
      var p := KeptIndexes(n - 1, listed);
      var r := KeptIndexes(n, listed);
      if n - 1 !in listed {
        assert r == p + [n - 1];
        forall k | 0 <= k < |p|
          ensures r[k] !in listed
        {
          assert r[k] == p[k];
        }
      }
    }
  }

  /** Every unlisted position below `n` is kept. */
  lemma {:induction false} KeptIndexesComplete(n: nat, listed: seq<nat>)
    ensures forall i: nat :: i < n && i !in listed ==> i in KeptIndexes(n, listed)
    decreases n
  {
    if n > 0 {
      KeptIndexesComplete(n - 1, listed);
      var p := KeptIndexes(n - 1, listed);
      var r := KeptIndexes(n, listed);
      if n - 1 !in listed {
        assert r == p + [n - 1];
        assert r[|p|] == n - 1;
      }
    }
  }

  /** The kept positions are strictly increasing. */
  lemma {:induction false} KeptIndexesIncreasing(n: nat, listed: seq<nat>)
    ensures forall j, k :: 0 <= j < k < |KeptIndexes(n, listed)| ==> KeptIndexes(n, listed)[j] < KeptIndexes(n, listed)[k]
    decreases n
  {
    if n > 0 {
      KeptIndexesIncreasing(n - 1, listed);
      var p := KeptIndexes(n - 1, listed);
      var r := KeptIndexes(n, listed);
      if n - 1 !in listed {
        assert r == p + [n - 1];
        forall j, k | 0 <= j < k < |r|
          ensures r[j] < r[k]
        {
          assert r[j] == p[j];
          if k < |p| {
            assert r[k] == p[k];
          }
        }
      }
    }
  }

  /** `optionsList.filter((parameter, index) => !listed.includes(index))`. */
  function KeepUnlisted(ps: seq<Parameter>, listed: seq<nat>): (r: seq<Parameter>)
    ensures |r| == |KeptIndexes(|ps|, listed)|
    ensures forall k :: 0 <= k < |r| ==> r[k] == ps[KeptIndexes(|ps|, listed)[k]]
    decreases |ps|
  {
    if |ps| == 0 then []
    else
      var n := |ps| - 1;
      var r := KeepUnlisted(ps[..n], listed) + (if n in listed then [] else [ps[n]]);
      assert KeptIndexes(|ps|, listed) == KeptIndexes(n, listed) + (if n in listed then [] else [n]);
      r
  }

  /** `filterIncorrectGameSettingsFiles` as written: a file listed with as
      many incorrect indexes as it has parameters is dropped; another listed
      file keeps its unlisted parameters; an unlisted file is kept as is. */
  function FilterIncorrectFiles(files: map<string, SettingsFile>, incorrect: map<string, seq<nat>>): (r: map<string, SettingsFile>)
    ensures forall f :: f in files && f !in incorrect ==> f in r && r[f] == files[f]
    ensures forall f :: f in files && f in incorrect && |files[f].optionsList| == |incorrect[f]| ==> f !in r
    ensures forall f :: f in files && f in incorrect && |files[f].optionsList| != |incorrect[f]| ==>
      f in r && r[f] == files[f].(optionsList := KeepUnlisted(files[f].optionsList, incorrect[f]))
    ensures r.Keys <= files.Keys
  {
    map f | f in files && !(f in incorrect && |files[f].optionsList| == |incorrect[f]|) ::
      if f in incorrect then files[f].(optionsList := KeepUnlisted(files[f].optionsList, incorrect[f]))
      else files[f]
  }

  /** Every position below `n` is listed. */
  predicate AllListed(n: nat, listed: seq<nat>) {
    forall i: nat :: i < n ==> i in listed
  }

  /** No position is kept exactly when every position is listed. */
  lemma {:induction false} KeptEmptyIff(n: nat, listed: seq<nat>)
    ensures KeptIndexes(n, listed) == [] <==> AllListed(n, listed)
  {
    var r := KeptIndexes(n, listed);
    KeptIndexesExact(n, listed);
    if r != [] {
      assert r[0] < n && r[0] !in listed;
    }
    if !AllListed(n, listed) {
      var i: nat :| i < n && i !in listed;
      assert i in r;
    }
  }

  /** The pruning as evidently intended: a file is dropped exactly when
      every one of its parameters is listed, so none is left. */
  function FilterIncorrectFilesFixed(files: map<string, SettingsFile>, incorrect: map<string, seq<nat>>): (r: map<string, SettingsFile>)
    ensures forall f :: f in r <==> f in files && (f !in incorrect || !AllListed(|files[f].optionsList|, incorrect[f]))
    ensures forall f :: f in r && f !in incorrect ==> r[f] == files[f]
    ensures forall f :: f in r && f in incorrect ==>
      r[f] == files[f].(optionsList := KeepUnlisted(files[f].optionsList, incorrect[f])) && r[f].optionsList != []
  {
    var r := map f | f in files && (f !in incorrect || KeptIndexes(|files[f].optionsList|, incorrect[f]) != []) ::
      if f in incorrect then files[f].(optionsList := KeepUnlisted(files[f].optionsList, incorrect[f]))
      else files[f];
    assert forall f :: f in files && f in incorrect ==>
      (KeptIndexes(|files[f].optionsList|, incorrect[f]) == [] <==> AllListed(|files[f].optionsList|, incorrect[f])) by {
      forall f | f in files && f in incorrect
        ensures KeptIndexes(|files[f].optionsList|, incorrect[f]) == [] <==> AllListed(|files[f].optionsList|, incorrect[f])
      {
        KeptEmptyIff(|files[f].optionsList|, incorrect[f]);
      }
    }
    r
  }

  /** Two lists that name the same positions below `n` keep the same ones. */
  lemma {:induction false} KeptSameMembership(n: nat, a: seq<nat>, b: seq<nat>)
    requires forall i: nat :: i < n ==> (i in a <==> i in b)
    ensures KeptIndexes(n, a) == KeptIndexes(n, b)
    decreases n
  {
    if n > 0 {
      KeptSameMembership(n - 1, a, b);
    }
  }

  /** A list without repetitions. */
  predicate Distinct(s: seq<nat>) {
    forall i, j :: 0 <= i < j < |s| ==> s[i] != s[j]
  }

  /** `listed` without its element at `j`: one shorter, still without
      repetitions and still below `n`. */
  lemma RemoveAt(listed: seq<nat>, j: nat, n: nat)
    requires Distinct(listed) && j < |listed|
    requires forall k :: 0 <= k < |listed| ==> listed[k] < n
    ensures var rest := listed[..j] + listed[j + 1..];
      && |rest| == |listed| - 1
      && Distinct(rest)
      && (forall k :: 0 <= k < |rest| ==> rest[k] < n && rest[k] != listed[j])
  {
    var rest := listed[..j] + listed[j + 1..];
    forall a, b | 0 <= a < b < |rest|
      ensures rest[a] != rest[b]
    {
      var a' := if a < j then a else a + 1;
      var b' := if b < j then b else b + 1;
      assert rest[a] == listed[a'] && rest[b] == listed[b'];
    }
    forall k | 0 <= k < |rest|
      ensures rest[k] < n && rest[k] != listed[j]
    {
      var k' := if k < j then k else k + 1;
      assert rest[k] == listed[k'];
    }
  }

  /** Removing the element at `j` keeps every other position listed. */
  lemma RemoveAtMembers(listed: seq<nat>, j: nat)
    requires j < |listed|
    ensures forall i: nat :: i != listed[j] ==> (i in listed <==> i in listed[..j] + listed[j + 1..])
  {
    var rest := listed[..j] + listed[j + 1..];
    forall i: nat | i != listed[j] && i in listed
      ensures i in rest
    {
      var k :| 0 <= k < |listed| && listed[k] == i;
      if k < j { assert rest[k] == i; } else { assert rest[k - 1] == i; }
    }
  }

  /** When the listed positions are distinct and in range, the kept ones
      are exactly the rest. */
  lemma {:induction false} KeptCount(n: nat, listed: seq<nat>)
    requires Distinct(listed)
    requires forall k :: 0 <= k < |listed| ==> listed[k] < n
    ensures |KeptIndexes(n, listed)| + |listed| == n
    decreases n, 1
  {
    if |listed| == 0 {
      KeptAll(n);
    } else {
      assert listed[0] < n;
      if n - 1 in listed {
        KeptCountListedLast(n, listed);
      } else {
        KeptCount(n - 1, listed);
        assert KeptIndexes(n, listed) == KeptIndexes(n - 1, listed) + [n - 1];
      }
    }
  }

  /** With nothing listed every position is kept. */
  lemma {:induction false} KeptAll(n: nat)
    ensures |KeptIndexes(n, [])| == n
  {
    if n > 0 {
      KeptAll(n - 1);
    }
  }

  /** The step of `KeptCount` where the last position is listed: it is
      removed from the list and not kept. */
  lemma {:induction false} KeptCountListedLast(n: nat, listed: seq<nat>)
    requires n > 0 && n - 1 in listed
    requires Distinct(listed)
    requires forall k :: 0 <= k < |listed| ==> listed[k] < n
    ensures |KeptIndexes(n, listed)| + |listed| == n
    decreases n, 0
  {
    var j :| 0 <= j < |listed| && listed[j] == n - 1;
    var rest := listed[..j] + listed[j + 1..];
    assert |rest| + 1 == |listed|;
    assert Distinct(rest) && forall k :: 0 <= k < |rest| ==> rest[k] < n - 1 by {
      RemoveAt(listed, j, n);
    }
    KeptCount(n - 1, rest);
    assert KeptIndexes(n - 1, listed) == KeptIndexes(n - 1, rest) by {
      RemoveAtMembers(listed, j);
      KeptSameMembership(n - 1, listed, rest);
    }
    assert KeptIndexes(n, listed) == KeptIndexes(n - 1, listed);
  }

  /** The length test of the source is right when no index is listed
      twice: then the two pruning functions agree. */
  lemma FiltersAgreeWithoutDuplicates(files: map<string, SettingsFile>, incorrect: map<string, seq<nat>>)
    requires forall f :: f in incorrect && f in files ==>
      Distinct(incorrect[f]) && forall k :: 0 <= k < |incorrect[f]| ==> incorrect[f][k] < |files[f].optionsList|
    ensures FilterIncorrectFiles(files, incorrect) == FilterIncorrectFilesFixed(files, incorrect)
  {
    forall f | f in files && f in incorrect
      ensures |files[f].optionsList| == |incorrect[f]| <==> KeptIndexes(|files[f].optionsList|, incorrect[f]) == []
    {
      KeptCount(|files[f].optionsList|, incorrect[f]);
      KeptEmptyIff(|files[f].optionsList|, incorrect[f]);
    }
  }

  /** A file whose parameters are all default ones records each failing
      index once, so the length test prunes it correctly. */
  lemma {:induction false} DefaultOnlyIndexesDistinct(ps: seq<Parameter>, data: ParsedFile, view: View, file: string, syntax: LineSyntax)
    requires Fits(view, data) && forall k :: 0 <= k < |ps| ==> ParamFits(view, ps[k])
    requires forall k :: 0 <= k < |ps| ==> ps[k].optionType == Default
    ensures Distinct(ParamsFold(ps, data, view, file, syntax).incorrect)
    decreases |ps|
  {
    if |ps| > 0 {
      var n := |ps| - 1;
      var acc := ParamsFold(ps[..n], data, view, file, syntax).incorrect;
      var fails := ParamFailures(ps[n], data, view, file, syntax);
      DefaultOnlyIndexesDistinct(ps[..n], data, view, file, syntax);
      assert ParamsFold(ps, data, view, file, syntax).incorrect == acc + Repeat(fails, n);
      assert fails <= 1;
      if fails == 1 {
        assert Repeat(fails, n) == [n];
        AppendAboveDistinct(acc, n);
      } else {
        assert acc + Repeat(fails, n) == acc;
      }
    }
  }

  /** Appending a value above every element keeps a list without
      repetitions. */
  lemma AppendAboveDistinct(s: seq<nat>, x: nat)
    requires Distinct(s) && forall k :: 0 <= k < |s| ==> s[k] < x
    ensures Distinct(s + [x])
  {
    var t := s + [x];
    forall i, j | 0 <= i < j < |t|
      ensures t[i] != t[j]
    {
      if j == |s| {
        assert t[i] == s[i];
      } else {
        assert t[i] == s[i] && t[j] == s[j];
      }
    }
  }

  /** The as-written pruning drops a file although one of its parameters
      was read: a composite at index 0 with two failing items records
      `[0, 0]`, as long as the file's two parameters. */
  lemma FilterDropsReadableFile()
    ensures var loc := Location("k", None, None, None);
      var composite := Parameter(loc, Group, [loc, loc], None, None);
      var plain := Parameter(loc, Default, [], None, None);
      var files := map["f" := SettingsFile("p", Sectional, [composite, plain])];
      var incorrect := map["f" := [0, 0]];
      && FilterIncorrectFiles(files, incorrect) == map[]
      && "f" in FilterIncorrectFilesFixed(files, incorrect)
      && FilterIncorrectFilesFixed(files, incorrect)["f"].optionsList == [plain]
  {
    var loc := Location("k", None, None, None);
    var plain := Parameter(loc, Default, [], None, None);
    assert KeptIndexes(2, [0, 0]) == [1] by {
      assert KeptIndexes(1, [0, 0]) == [];
    }
  }

  /** A group whose two items both fail records index 0 twice while the
      default parameter after it is read: the input of the counterexample
      above arises from extraction. */
  lemma DuplicateIndexArises()
    ensures var ini := Ini([], [Section("S", [Line("k", "1", "k=1")])]);
      var missing := Location("k", Some("X"), None, None);
      var present := Location("k", Some("S"), None, None);
      var ps := [Parameter(missing, Group, [missing, missing], None, None), Parameter(present, Default, [], None, None)];
      var syntax := LineSyntax((n, t) => "", (n, t) => false, (t, n) => "");
      var r := ParamsFold(ps, IniData(ini), Sectional, "f", syntax);
      r.incorrect == [0, 0] && r.options.Keys == {"S/k"}
  {
    var ini := Ini([], [Section("S", [Line("k", "1", "k=1")])]);
    var missing := Location("k", Some("X"), None, None);
    var present := Location("k", Some("S"), None, None);
    var ps := [Parameter(missing, Group, [missing, missing], None, None), Parameter(present, Default, [], None, None)];
    var syntax := LineSyntax((n, t) => "", (n, t) => false, (t, n) => "");
    var data := IniData(ini);
    assert GetSection(ini, "X").None?;
    assert GetOptionData(data, missing, Sectional, syntax).errors == [SectionMissing];
    assert FindSection(ini.sections, "S") == Some(0);
    assert FindLine(ini.sections[0].lines, "k") == Some(0);
    assert GetLine(ini.sections[0], "k") == Some(Line("k", "1", "k=1"));
    assert SectionalData(ini, present) == OptionData(Some("S" + "/" + "k"), "1", []);
    assert "S" + "/" + "k" == "S/k";
    assert GetOptionData(data, present, Sectional, syntax) == OptionData(Some("S/k"), "1", []);
    assert [missing, missing][..1] == [missing];
    assert ItemsFold([missing, missing], data, Sectional, "f", syntax).failures == 2;
    assert ps[..1] == [ps[0]];
    assert ParamsFold(ps[..1], data, Sectional, "f", syntax).incorrect == [0, 0];
  }

  /** What the initialisation shows once the options are generated. */
  datatype InitOutcome = NoOptions | PartialWarning | Loaded

  /** The outcome classification of `initGameSettingsSaga`: an error when
      nothing can be shown, a warning when files were dropped, parameters
      failed or the schema check reported errors, nothing otherwise. */
  function InitOutcomeOf(options: OptionMap, files: map<string, SettingsFile>, filtered: map<string, SettingsFile>,
                         incorrect: map<string, seq<nat>>, checkErrors: nat): (r: InitOutcome)
    ensures r == NoOptions <==> options == map[]
    ensures r == PartialWarning <==>
      options != map[] && (|filtered.Keys| != |files.Keys| || incorrect != map[] || checkErrors > 0)
  {
    if |options.Keys| == 0 then NoOptions
    else if |filtered.Keys| != |files.Keys| || |incorrect.Keys| > 0 || checkErrors > 0 then PartialWarning
    else Loaded
  }

  /** After pruning the files the schema check kept, the initialisation
      is quiet exactly when some option was read, no parameter failed, the
      schema check reported nothing and kept as many files as the schema
      lists. */
  lemma InitQuietIff(options: OptionMap, files: map<string, SettingsFile>, checked: map<string, SettingsFile>,
                     incorrect: map<string, seq<nat>>, checkErrors: nat)
    ensures InitOutcomeOf(options, files, FilterIncorrectFiles(checked, incorrect), incorrect, checkErrors) == Loaded
      <==> options != map[] && incorrect == map[] && checkErrors == 0 && |checked.Keys| == |files.Keys|
  {
    if incorrect == map[] {
      assert FilterIncorrectFiles(checked, incorrect) == checked;
    }
  }
}

=== FILE: save.dfy ===
/** Saving edited options back into their files and committing them in
    the option map: `saveGameSettingsFilesSaga`
    (src/redux/sagas/gameSettings.ts:705-824). */
module Save {
  import opened Wrappers
  import opened Strings
  import opened TagTree
  import opened IniFile
  import opened Schema
  import opened Options
  import opened Extraction

  /** The schema files named in the changed map, copied as they are. */
  function FilesToSave(files: map<string, SettingsFile>, changed: OptionMap): (r: map<string, SettingsFile>)
    ensures forall f :: f in r <==> f in files && f in changed
    ensures forall f :: f in r ==> r[f] == files[f]
  {
    map f | f in files && f in changed :: files[f]
  }

  /** The section and key a sectional option name stands for: the first
      two pieces of the name split on `/`. With fewer than two pieces the
      key is `undefined` and the rewrite throws, which is `None`. */
  function SectionalTarget(name: string): (r: Option<(string, string)>)
    ensures r.Some? <==> |Split(name, "/")| >= 2
    ensures r.Some? ==> r.value == (Split(name, "/")[0], Split(name, "/")[1])
  {
    var parts := Split(name, "/");
    if |parts| >= 2 then Some((parts[0], parts[1])) else None
  }

  /** The name extraction gives a sectional option decodes back to its
      section and key when neither contains `/`. */
  lemma SectionalTargetOfName(section: string, key: string)
    requires '/' !in section && '/' !in key
    ensures SectionalTarget(section + "/" + key) == Some((section, key))
  {
    var parts := [section, key];
    assert Join(parts, "/") == section + "/" + key by {
      assert parts[1..] == [key];
    }
    SplitJoin(parts, "/");
  }

  /** Sectional write of one option: `changeSectionalIniParameter` on the
      section and key the name stands for. It fails where the name has no
      key part or the rewrite throws; otherwise that section and key read
      the value and every other section and key reads as before. */
  function WriteSectional(ini: Ini, name: string, value: string): (r: Option<Ini>)
    ensures r.Some? <==> SectionalTarget(name).Some? && Locates(ini, SectionalTarget(name).value.0, SectionalTarget(name).value.1)
    ensures r.Some? ==> var (section, key) := SectionalTarget(name).value;
      && ValueAt(r.value, section, key) == Some(value)
      && (forall s, k {:trigger ValueAt(r.value, s, k)} :: s != section || k != key ==> ValueAt(r.value, s, k) == ValueAt(ini, s, k))
      && r.value.globals == ini.globals
  {
    match SectionalTarget(name)
    case None => None
    case Some((section, key)) =>
      var r := ChangeSectionalParameter(ini, section, key, value);
      if r.None? then None
      else
        assert forall s, k {:trigger ValueAt(r.value, s, k)} :: s != section || k != key ==> ValueAt(r.value, s, k) == ValueAt(ini, s, k) by {
          forall s, k | s != section || k != key
            ensures ValueAt(r.value, s, k) == ValueAt(ini, s, k)
          {
            ChangeThenGet(ini, section, key, value, s, k);
          }
        }
        ChangeThenGet(ini, section, key, value, section, key);
        r
  }

  /** A sectional option written under the name extraction gave it is read
      back with the written value and the same name. */
  lemma SectionalWriteThenRead(ini: Ini, loc: Location, value: string)
    requires loc.iniGroup.Some? && '/' !in loc.iniGroup.value && '/' !in loc.name
    requires Locates(ini, loc.iniGroup.value, loc.name)
    ensures var name := loc.iniGroup.value + "/" + loc.name;
      && WriteSectional(ini, name, value).Some?
      && SectionalData(WriteSectional(ini, name, value).value, loc) == OptionData(Some(name), value, [])
  {
    var g := loc.iniGroup.value;
    var name := g + "/" + loc.name;
    SectionalTargetOfName(g, loc.name);
    var r := WriteSectional(ini, name, value).value;
    var sec := GetSection(r, g).value;
    var line := GetLine(sec, loc.name).value;
    assert sec.name == g by {
      assert FindSection(r.sections, g).Some?;
    }
    assert line.key == loc.name by {
      assert FindLine(sec.lines, loc.name).Some?;
    }
  }

  /** The first line the option's matcher accepts. */
  function FirstMatch(lines: seq<string>, name: string, matches: (string, string) -> bool): (r: Option<nat>)
    ensures r.Some? ==> r.value < |lines| && matches(name, lines[r.value])
    ensures r.Some? ==> forall k :: 0 <= k < r.value ==> !matches(name, lines[k])
    ensures r.None? ==> forall k :: 0 <= k < |lines| ==> !matches(name, lines[k])
    decreases |lines|
  {
    if |lines| == 0 then None
    else if matches(name, lines[0]) then Some(0)
    else
      match FirstMatch(lines[1..], name, matches)
      case None => None
      case Some(k) => Some(k + 1)
  }

  /** Line write of one option: the first matching line has its matched
      part replaced by `set <name> to <value>`; without a matching line
      nothing changes. */
  function WriteLine(lines: seq<string>, name: string, value: string, syntax: LineSyntax): (r: seq<string>)
    ensures |r| == |lines|
    ensures FirstMatch(lines, name, syntax.matches).None? ==> r == lines
    ensures FirstMatch(lines, name, syntax.matches).Some? ==>
      var i := FirstMatch(lines, name, syntax.matches).value;
      && r[i] == ReplaceFirst(lines[i], syntax.partToReplace(lines[i], name), "set " + name + " to " + value)
      && forall k :: 0 <= k < |lines| && k != i ==> r[k] == lines[k]
  {
    match FirstMatch(lines, name, syntax.matches)
    case None => lines
    case Some(i) =>
      lines[i := ReplaceFirst(lines[i], syntax.partToReplace(lines[i], name), "set " + name + " to " + value)]
  }

  /** A name and value without `$` go into the line verbatim: the
      matched part's first occurrence becomes `set <name> to <value>`, and
      a line whose matched part does not occur in it stays as it is. */
  lemma WriteLineLiteral(lines: seq<string>, name: string, value: string, syntax: LineSyntax)
    requires '$' !in name && '$' !in value
    requires FirstMatch(lines, name, syntax.matches).Some?
    ensures var i := FirstMatch(lines, name, syntax.matches).value;
      var line := lines[i];
      var part := syntax.partToReplace(line, name);
      && (IndexOf(line, part).None? ==> WriteLine(lines, name, value, syntax)[i] == line)
      && (IndexOf(line, part).Some? ==> var j := IndexOf(line, part).value;
            WriteLine(lines, name, value, syntax)[i] == line[..j] + "set " + name + " to " + value + line[j + |part|..])
  {
    var i := FirstMatch(lines, name, syntax.matches).value;
    var line := lines[i];
    var part := syntax.partToReplace(line, name);
    var text := "set " + name + " to " + value;
    assert WriteLine(lines, name, value, syntax)[i] == ReplaceFirst(line, part, text);
    assert '$' !in text by {
      assert '$' !in "set " && '$' !in " to ";
    }
    ReplaceFirstLiteral(line, part, text);
  }

  /** The key path a tag option is written at: its name split on `/`, the
      last segment taking the attribute prefix unless it is `#text`. */
  function TagWritePath(name: string, attributePrefix: string): (r: seq<string>)
    ensures |r| == |Split(name, "/")|
  {
    var segs := Split(name, "/");
    var last := segs[|segs| - 1];
    if last == "#text" then segs else segs[..|segs| - 1] + [attributePrefix + last]
  }

  /** The write path keeps every segment of the name but the last, which
      takes the attribute prefix unless it is `#text`. */
  lemma TagWritePathShape(name: string, attributePrefix: string)
    ensures var segs := Split(name, "/");
      var r := TagWritePath(name, attributePrefix);
      && r[..|r| - 1] == segs[..|segs| - 1]
      && r[|r| - 1] == if segs[|segs| - 1] == "#text" then "#text" else attributePrefix + segs[|segs| - 1]
  {
  }

  /** The write path of an extracted tag option is the path extraction
      walked, with the attribute prefix on the value name. */
  lemma TagWritePathOfName(loc: Location, attributePrefix: string)
    requires IsItemParameter(loc) && '/' !in loc.name && '/' !in loc.valueName.value
    ensures var segs := Split(loc.valuePath.value, "/");
      TagWritePath(OptionName(loc), attributePrefix)
      == segs + [loc.name, if loc.valueName.value == "#text" then "#text" else attributePrefix + loc.valueName.value]
  {
    TagNameSplits(loc);
    TagWritePathShape(OptionName(loc), attributePrefix);
    var segs := Split(loc.valuePath.value, "/");
    var all := segs + [loc.name, loc.valueName.value];
    assert all[..|all| - 1] == segs + [loc.name];
  }

  /** Tag write of one option: `setValueForObjectDeepKey` on the write
      path; `None` where the source throws because the path does not lead
      through objects. */
  function WriteTag(root: Node, name: string, value: string, attributePrefix: string): (r: Option<Node>)
    ensures r.Some? <==> Reaches(root, TagWritePath(name, attributePrefix))
    ensures r.Some? ==> GetDeep(r.value, TagWritePath(name, attributePrefix)) == Some(Leaf(value))
    ensures r.Some? ==> forall p {:trigger GetDeep(r.value, p)} :: |p| > 0 && Diverge(p, TagWritePath(name, attributePrefix)) ==> GetDeep(r.value, p) == GetDeep(root, p)
  {
    var path := TagWritePath(name, attributePrefix);
    match SetDeep(root, path, value)
    case None => None
    case Some(n) =>
      SetThenGet(root, path, value);
      SetKeepsAllOtherPaths(root, path, value);
      Some(n)
  }

  /** One option written into its file's data, by view. A sectional
      write fails where the name has no key part or the rewrite throws, and
      otherwise reads back the value while every other section and key
      reads as before. A line write never fails and changes at most the
      first matching line. A tag write fails where the path does not lead
      through objects, and otherwise reads back the value while every
      diverging path reads as before. */
  function WriteOption(data: ParsedFile, view: View, name: string, value: string, syntax: LineSyntax, attributePrefix: string): (r: Option<ParsedFile>)
    requires Fits(view, data)
    ensures r.Some? ==> Fits(view, r.value)
    ensures view == Sectional ==>
      && (r.Some? <==> SectionalTarget(name).Some? && Locates(data.ini, SectionalTarget(name).value.0, SectionalTarget(name).value.1))
      && (r.Some? ==> var (section, key) := SectionalTarget(name).value;
          && ValueAt(r.value.ini, section, key) == Some(value)
          && (forall s, k {:trigger ValueAt(r.value.ini, s, k)} :: s != section || k != key ==> ValueAt(r.value.ini, s, k) == ValueAt(data.ini, s, k))
          && r.value.ini.globals == data.ini.globals)
    ensures view == LineView ==>
      && r.Some?
      && r.value.ini.sections == data.ini.sections
      && |r.value.ini.globals| == |data.ini.globals|
      && (FirstMatch(data.ini.globals, name, syntax.matches).None? ==> r.value.ini.globals == data.ini.globals)
      && (FirstMatch(data.ini.globals, name, syntax.matches).Some? ==>
          var i := FirstMatch(data.ini.globals, name, syntax.matches).value;
          var line := data.ini.globals[i];
          && r.value.ini.globals[i] == ReplaceFirst(line, syntax.partToReplace(line, name), "set " + name + " to " + value)
          && forall k :: 0 <= k < |data.ini.globals| && k != i ==> r.value.ini.globals[k] == data.ini.globals[k])
    ensures view == Tag ==>
      && (r.Some? <==> Reaches(data.root, TagWritePath(name, attributePrefix)))
      && (r.Some? ==>
          && GetDeep(r.value.root, TagWritePath(name, attributePrefix)) == Some(Leaf(value))
          && forall p {:trigger GetDeep(r.value.root, p)} :: |p| > 0 && Diverge(p, TagWritePath(name, attributePrefix)) ==> GetDeep(r.value.root, p) == GetDeep(data.root, p))
  {
    match view
    case Sectional =>
      (match WriteSectional(data.ini, name, value)
       case None => None
       case Some(ini) => Some(IniData(ini)))
    case LineView => Some(IniData(data.ini.(globals := WriteLine(data.ini.globals, name, value, syntax))))
    case Tag =>
      (match WriteTag(data.root, name, value, attributePrefix)
       case None => None
       case Some(n) => Some(TagData(n)))
  }

  /** The options of one file written in the order `names` lists them;
      the first write that throws fails the file. */
  function WriteOptions(data: ParsedFile, view: View, names: seq<string>, item: OptionsItem,
                        syntax: LineSyntax, attributePrefix: string): (r: Option<ParsedFile>)
    requires Fits(view, data)
    requires forall k :: 0 <= k < |names| ==> names[k] in item
    ensures r.Some? ==> Fits(view, r.value)
    ensures names == [] ==> r == Some(data)
    decreases |names|
  {
    if |names| == 0 then Some(data)
    else
      var n := |names| - 1;
      match WriteOptions(data, view, names[..n], item, syntax, attributePrefix)
      case None => None
      case Some(d) => WriteOption(d, view, names[n], item[names[n]].value, syntax, attributePrefix)
  }

  /** The last write of a run: the run succeeds exactly when the writes
      before it succeed and it does too, on their result; a failure
      before it fails the run. */
  lemma WriteOptionsLast(data: ParsedFile, view: View, names: seq<string>, item: OptionsItem,
                         syntax: LineSyntax, attributePrefix: string)
    requires Fits(view, data)
    requires forall j :: 0 <= j < |names| ==> names[j] in item
    requires |names| > 0
    ensures var n := |names| - 1;
      var d := WriteOptions(data, view, names[..n], item, syntax, attributePrefix);
      && (WriteOptions(data, view, names, item, syntax, attributePrefix).Some? <==>
            d.Some? && WriteOption(d.value, view, names[n], item[names[n]].value, syntax, attributePrefix).Some?)
      && (d.None? ==> WriteOptions(data, view, names, item, syntax, attributePrefix) == None)
      && (d.Some? ==> WriteOptions(data, view, names, item, syntax, attributePrefix)
                      == WriteOption(d.value, view, names[n], item[names[n]].value, syntax, attributePrefix))
  {
  }

  /** The writes before the last of a successful run succeed too. */
  lemma WriteOptionsPrefix(data: ParsedFile, view: View, names: seq<string>, item: OptionsItem,
                           syntax: LineSyntax, attributePrefix: string)
    requires Fits(view, data)
    requires forall j :: 0 <= j < |names| ==> names[j] in item
    requires |names| > 0 && WriteOptions(data, view, names, item, syntax, attributePrefix).Some?
    ensures WriteOptions(data, view, names[..|names| - 1], item, syntax, attributePrefix).Some?
  {
  }

  /** Tag view, last write of a run: its name reads back its value. */
  lemma TagStepReads(data: ParsedFile, names: seq<string>, item: OptionsItem, syntax: LineSyntax, attributePrefix: string)
    requires Fits(Tag, data)
    requires forall j :: 0 <= j < |names| ==> names[j] in item
    requires |names| > 0 && WriteOptions(data, Tag, names, item, syntax, attributePrefix).Some?
    ensures var last := names[|names| - 1];
      GetDeep(WriteOptions(data, Tag, names, item, syntax, attributePrefix).value.root, TagWritePath(last, attributePrefix))
      == Some(Leaf(item[last].value))
  {
    WriteOptionsLast(data, Tag, names, item, syntax, attributePrefix);
  }

  /** Tag view, last write of a run: a path diverging from its write path
      reads as it did before that write. */
  lemma TagStepKeeps(data: ParsedFile, names: seq<string>, item: OptionsItem, syntax: LineSyntax, attributePrefix: string, p: seq<string>)
    requires Fits(Tag, data)
    requires forall j :: 0 <= j < |names| ==> names[j] in item
    requires |names| > 0 && WriteOptions(data, Tag, names, item, syntax, attributePrefix).Some?
    requires |p| > 0 && Diverge(p, TagWritePath(names[|names| - 1], attributePrefix))
    ensures var init := names[..|names| - 1];
      && WriteOptions(data, Tag, init, item, syntax, attributePrefix).Some?
      && GetDeep(WriteOptions(data, Tag, names, item, syntax, attributePrefix).value.root, p)
         == GetDeep(WriteOptions(data, Tag, init, item, syntax, attributePrefix).value.root, p)
  {
    WriteOptionsLast(data, Tag, names, item, syntax, attributePrefix);
  }

  /** Tag view: after a successful run of writes, the k-th name reads
      back its value when its write path diverges from those of the names
      written after it. */
  lemma {:induction false} TagReadsBackAt(data: ParsedFile, names: seq<string>, item: OptionsItem,
                                          syntax: LineSyntax, attributePrefix: string, k: nat)
    requires Fits(Tag, data)
    requires forall j :: 0 <= j < |names| ==> names[j] in item
    requires WriteOptions(data, Tag, names, item, syntax, attributePrefix).Some?
    requires k < |names|
    requires forall j :: k < j < |names| ==> Diverge(TagWritePath(names[k], attributePrefix), TagWritePath(names[j], attributePrefix))
    ensures GetDeep(WriteOptions(data, Tag, names, item, syntax, attributePrefix).value.root, TagWritePath(names[k], attributePrefix))
      == Some(Leaf(item[names[k]].value))
    decreases |names|
  {
    var n := |names| - 1;
    if k < n {
      var init := names[..n];
      assert forall j :: 0 <= j < |init| ==> init[j] == names[j];
      TagStepKeeps(data, names, item, syntax, attributePrefix, TagWritePath(names[k], attributePrefix));
      TagReadsBackAt(data, init, item, syntax, attributePrefix, k);
    } else {
      TagStepReads(data, names, item, syntax, attributePrefix);
    }
  }

  /** Sectional view, last write of a run: its name's section and key
      read back its value. */
  lemma SectionalStepReads(data: ParsedFile, names: seq<string>, item: OptionsItem, syntax: LineSyntax, attributePrefix: string)
    requires Fits(Sectional, data)
    requires forall j :: 0 <= j < |names| ==> names[j] in item
    requires |names| > 0 && WriteOptions(data, Sectional, names, item, syntax, attributePrefix).Some?
    ensures var last := names[|names| - 1];
      && SectionalTarget(last).Some?
      && ValueAt(WriteOptions(data, Sectional, names, item, syntax, attributePrefix).value.ini,
                 SectionalTarget(last).value.0, SectionalTarget(last).value.1) == Some(item[last].value)
  {
    WriteOptionsLast(data, Sectional, names, item, syntax, attributePrefix);
  }

  /** Sectional view, last write of a run: another section or key reads
      as it did before that write. */
  lemma SectionalStepKeeps(data: ParsedFile, names: seq<string>, item: OptionsItem, syntax: LineSyntax, attributePrefix: string,
                           section: string, key: string)
    requires Fits(Sectional, data)
    requires forall j :: 0 <= j < |names| ==> names[j] in item
    requires |names| > 0 && WriteOptions(data, Sectional, names, item, syntax, attributePrefix).Some?
    requires SectionalTarget(names[|names| - 1]) != Some((section, key))
    ensures var init := names[..|names| - 1];
      && WriteOptions(data, Sectional, init, item, syntax, attributePrefix).Some?
      && ValueAt(WriteOptions(data, Sectional, names, item, syntax, attributePrefix).value.ini, section, key)
         == ValueAt(WriteOptions(data, Sectional, init, item, syntax, attributePrefix).value.ini, section, key)
  {
    WriteOptionsLast(data, Sectional, names, item, syntax, attributePrefix);
  }

  /** Sectional view: after a successful run of writes, the k-th name's
      section and key read back its value when the names written after it
      stand for other sections or keys. */
  lemma {:induction false} SectionReadsBackAt(data: ParsedFile, names: seq<string>, item: OptionsItem,
                                              syntax: LineSyntax, attributePrefix: string, k: nat)
    requires Fits(Sectional, data)
    requires forall j :: 0 <= j < |names| ==> names[j] in item
    requires WriteOptions(data, Sectional, names, item, syntax, attributePrefix).Some?
    requires k < |names|
    requires forall j :: k < j < |names| ==> SectionalTarget(names[k]) != SectionalTarget(names[j])
    ensures SectionalTarget(names[k]).Some?
    ensures ValueAt(WriteOptions(data, Sectional, names, item, syntax, attributePrefix).value.ini,
                    SectionalTarget(names[k]).value.0, SectionalTarget(names[k]).value.1)
      == Some(item[names[k]].value)
    decreases |names|
  {
    var n := |names| - 1;
    if k < n {
      var init := names[..n];
      assert forall j :: 0 <= j < |init| ==> init[j] == names[j];
      WriteOptionsPrefix(data, Sectional, names, item, syntax, attributePrefix);
      SectionReadsBackAt(data, init, item, syntax, attributePrefix, k);
      var t := SectionalTarget(names[k]).value;
      SectionalStepKeeps(data, names, item, syntax, attributePrefix, t.0, t.1);
    } else {
      SectionalStepReads(data, names, item, syntax, attributePrefix);
    }
  }

  /** The post-save commit: each saved file's options with the changed
      ones merged in, their default taking their value; every other file
      stays as it is. */
  function Commit(options: OptionMap, changed: OptionMap): (r: OptionMap)
    ensures r.Keys == options.Keys + changed.Keys
    ensures forall f :: f in options && f !in changed ==> r[f] == options[f]
    ensures forall f :: f in changed ==>
      && r[f].Keys == (if f in options then options[f].Keys else {}) + changed[f].Keys
      && (forall n :: n in changed[f] ==> r[f][n] == changed[f][n].(default := changed[f][n].value))
      && (forall n :: f in options && n in options[f] && n !in changed[f] ==> r[f][n] == options[f][n])
  {
    var committed := WithDefaults(changed, false);
    options + map f | f in changed :: (if f in options then options[f] else map[]) + committed[f]
  }

  /** Committing exactly the changed subset of a map leaves nothing
      changed and keeps every current value. */
  lemma CommitClearsChanges(options: OptionMap)
    ensures var r := Commit(options, Changed(options));
      && r.Keys == options.Keys
      && (forall f :: f in options ==> r[f].Keys == options[f].Keys)
      && (forall f, n :: f in options && n in options[f] ==> r[f][n].value == options[f][n].value)
      && Changed(r) == map[]
  {
    CommitChangedKeepsValues(options);
    var c := Changed(options);
    var r := Commit(options, c);
    forall f, n | f in r && n in r[f]
      ensures !IsChanged(r[f][n])
    {
      if f in c && n in c[f] {
        assert r[f][n] == c[f][n].(default := c[f][n].value);
      } else {
        assert !IsChanged(options[f][n]);
      }
    }
    ChangedEmptyIff(r);
  }

  /** Committing the changed subset keeps every file, every option and
      every current value. */
  lemma CommitChangedKeepsValues(options: OptionMap)
    ensures var r := Commit(options, Changed(options));
      && r.Keys == options.Keys
      && (forall f :: f in options ==> r[f].Keys == options[f].Keys)
      && (forall f, n :: f in options && n in options[f] ==> r[f][n].value == options[f][n].value)
  {
    var c := Changed(options);
    var r := Commit(options, c);
    forall f | f in options
      ensures r[f].Keys == options[f].Keys
    {
      if f in c {
        assert c[f].Keys <= options[f].Keys;
      }
    }
  }

  /** `names` lists each key of `item` exactly once, as `Object.keys`
      does. */
  ghost predicate ListsKeys(names: seq<string>, item: OptionsItem) {
    && (forall k :: 0 <= k < |names| ==> names[k] in item)
    && (forall n :: n in item ==> n in names)
    && forall i, j :: 0 <= i < j < |names| ==> names[i] != names[j]
  }

  /** What a save leaves: the written file data, by file, and the option
      map. */
  datatype SaveResult = SaveResult(written: map<string, ParsedFile>, options: OptionMap)

  /** `saveGameSettingsFilesSaga`: reads the files named in the changed map
      (`read` stands for the reader with attribute prefixes), writes each
      changed option in the order `order` gives (`Object.keys` of each
      file's changed options), and commits. The save goes through exactly
      when every changed file reads, has its view's shape, and takes every
      option write; otherwise the option map stays as it was, which is
      `None` here. Writing the files to disk is taken to succeed. */
  function SaveFiles(files: map<string, SettingsFile>, options: OptionMap, changed: OptionMap,
                     order: map<string, seq<string>>, read: string -> Option<ParsedFile>,
                     syntax: LineSyntax, attributePrefix: string): (r: Option<SaveResult>)
    requires forall f :: f in changed ==> f in order && ListsKeys(order[f], changed[f])
    ensures r.Some? <==> forall f :: f in FilesToSave(files, changed) ==>
      && f in changed && ListsKeys(order[f], changed[f])
      && read(f).Some? && Fits(files[f].view, read(f).value)
      && WriteOptions(read(f).value, files[f].view, order[f], changed[f], syntax, attributePrefix).Some?
    ensures r.Some? ==> r.value.written.Keys == FilesToSave(files, changed).Keys
    ensures r.Some? ==> r.value.options == Commit(options, changed)
    ensures r.Some? ==> forall f :: f in FilesToSave(files, changed) ==> read(f).Some?
    ensures r.Some? ==> forall f :: f in FilesToSave(files, changed) ==>
      && f in changed && ListsKeys(order[f], changed[f])
      && Fits(files[f].view, read(f).value)
      && WriteOptions(read(f).value, files[f].view, order[f], changed[f], syntax, attributePrefix) == Some(r.value.written[f])
  {
    var toSave := FilesToSave(files, changed);
    assert forall f :: f in toSave ==> forall k :: 0 <= k < |order[f]| ==> order[f][k] in changed[f] by {
      forall f | f in toSave
        ensures forall k :: 0 <= k < |order[f]| ==> order[f][k] in changed[f]
      {
        assert ListsKeys(order[f], changed[f]);
      }
    }
    match ReadFiles(toSave, read)
    case None => None
    case Some(data) =>
      if forall f :: f in toSave ==> Fits(toSave[f].view, data[f]) then
        var written := map f | f in toSave :: WriteOptions(data[f], toSave[f].view, order[f], changed[f], syntax, attributePrefix);
        if forall f :: f in written ==> written[f].Some? then
          Some(SaveResult(map f | f in written :: written[f].value, Commit(options, changed)))
        else None
      else None
  }

  /** Tag view, with the names listed as `Object.keys` lists them: when
      the options' write paths pairwise diverge, every option reads back
      its value. */
  lemma ListedTagsReadBack(data: ParsedFile, names: seq<string>, item: OptionsItem,
                           syntax: LineSyntax, attributePrefix: string)
    requires Fits(Tag, data) && ListsKeys(names, item)
    requires forall n, m :: n in item && m in item && n != m ==>
      Diverge(TagWritePath(n, attributePrefix), TagWritePath(m, attributePrefix))
    requires WriteOptions(data, Tag, names, item, syntax, attributePrefix).Some?
    ensures forall n :: n in item ==>
      GetDeep(WriteOptions(data, Tag, names, item, syntax, attributePrefix).value.root, TagWritePath(n, attributePrefix))
      == Some(Leaf(item[n].value))
  {
    forall n | n in item
      ensures GetDeep(WriteOptions(data, Tag, names, item, syntax, attributePrefix).value.root, TagWritePath(n, attributePrefix))
        == Some(Leaf(item[n].value))
    {
      var k :| 0 <= k < |names| && names[k] == n;
      TagReadsBackAt(data, names, item, syntax, attributePrefix, k);
    }
  }

  /** Sectional view, with the names listed as `Object.keys` lists them:
      when the options stand for pairwise different sections or keys,
      every option's section and key reads back its value. */
  lemma ListedSectionsReadBack(data: ParsedFile, names: seq<string>, item: OptionsItem,
                               syntax: LineSyntax, attributePrefix: string)
    requires Fits(Sectional, data) && ListsKeys(names, item)
    requires forall n, m :: n in item && m in item && n != m ==> SectionalTarget(n) != SectionalTarget(m)
    requires WriteOptions(data, Sectional, names, item, syntax, attributePrefix).Some?
    ensures forall n :: n in item ==>
      && SectionalTarget(n).Some?
      && ValueAt(WriteOptions(data, Sectional, names, item, syntax, attributePrefix).value.ini,
                 SectionalTarget(n).value.0, SectionalTarget(n).value.1)
         == Some(item[n].value)
  {
    forall n | n in item
      ensures && SectionalTarget(n).Some?
              && ValueAt(WriteOptions(data, Sectional, names, item, syntax, attributePrefix).value.ini,
                         SectionalTarget(n).value.0, SectionalTarget(n).value.1)
                 == Some(item[n].value)
    {
      var k :| 0 <= k < |names| && names[k] == n;
      SectionReadsBackAt(data, names, item, syntax, attributePrefix, k);
    }
  }

  /** A saved tag file reads back every changed value when the changed
      options' write paths pairwise diverge. */
  lemma SaveReadsBackTags(files: map<string, SettingsFile>, options: OptionMap, changed: OptionMap,
                          order: map<string, seq<string>>, read: string -> Option<ParsedFile>,
                          syntax: LineSyntax, attributePrefix: string, f: string)
    requires forall g :: g in changed ==> g in order && ListsKeys(order[g], changed[g])
    requires SaveFiles(files, options, changed, order, read, syntax, attributePrefix).Some?
    requires f in FilesToSave(files, changed) && files[f].view == Tag
    requires forall n, m :: n in changed[f] && m in changed[f] && n != m ==>
      Diverge(TagWritePath(n, attributePrefix), TagWritePath(m, attributePrefix))
    ensures forall n :: n in changed[f] ==>
      GetDeep(SaveFiles(files, options, changed, order, read, syntax, attributePrefix).value.written[f].root,
              TagWritePath(n, attributePrefix))
      == Some(Leaf(changed[f][n].value))
  {
    ListedTagsReadBack(read(f).value, order[f], changed[f], syntax, attributePrefix);
  }

  /** A saved sectional file reads back every changed value when the
      changed options stand for pairwise different sections or keys. */
  lemma SaveReadsBackSections(files: map<string, SettingsFile>, options: OptionMap, changed: OptionMap,
                              order: map<string, seq<string>>, read: string -> Option<ParsedFile>,
                              syntax: LineSyntax, attributePrefix: string, f: string)
    requires forall g :: g in changed ==> g in order && ListsKeys(order[g], changed[g])
    requires SaveFiles(files, options, changed, order, read, syntax, attributePrefix).Some?
    requires f in FilesToSave(files, changed) && files[f].view == Sectional
    requires forall n, m :: n in changed[f] && m in changed[f] && n != m ==> SectionalTarget(n) != SectionalTarget(m)
    ensures forall n :: n in changed[f] ==>
      && SectionalTarget(n).Some?
      && ValueAt(SaveFiles(files, options, changed, order, read, syntax, attributePrefix).value.written[f].ini,
                 SectionalTarget(n).value.0, SectionalTarget(n).value.1)
         == Some(changed[f][n].value)
  {
    ListedSectionsReadBack(read(f).value, order[f], changed[f], syntax, attributePrefix);
  }
}

=== FILE: schema.dfy ===
/** The settings schema the option engine is driven by: files keyed by
    name, each with a view (how its text is parsed) and a list of
    parameters that say where an option lives in the file
    (src/utils/data.ts, src/constants/misc.ts). */
module Schema {
  import opened Wrappers
  import opened Strings
  import opened Seqs

  /** How a settings file is parsed: INI sections, raw lines, or a tag tree. */
  datatype View = Sectional | LineView | Tag

  /** The parameter type. `Related`, `Group` and `Combined` parameters are
      composites whose options come from their items. */
  datatype OptionType = Default | Group | Related | Combined

  /** Where one option lives in a file: `name` plus the view-specific
      fields `iniGroup` (sectional) and `valuePath`/`valueName` (tag). An
      absent optional field is `None`, as `undefined` is in the source. */
  datatype Location = Location(
    name: string,
    iniGroup: Option<string>,
    valuePath: Option<string>,
    valueName: Option<string>)

  /** One schema parameter. `items` is empty for a default parameter;
      `separator` is the join string of a combined parameter. The engine
      reads the type as `optionType`, the settings screen as
      `parameterType`; this model has one field for both. */
  datatype Parameter = Parameter(
    loc: Location,
    optionType: OptionType,
    items: seq<Location>,
    separator: Option<string>,
    settingGroup: Option<string>)

  /** One settings file of the schema. */
  datatype SettingsFile = SettingsFile(path: string, view: View, optionsList: seq<Parameter>)

  /** A navigation group of the settings screen (`label` is a Dafny keyword,
      so labels are called captions throughout). */
  datatype SettingsGroup = SettingsGroup(name: string, caption: string)

  /** `isIGameSettingsItemParameter`: both tag fields are present. */
  predicate IsItemParameter(loc: Location) {
    loc.valuePath.Some? && loc.valueName.Some?
  }

  /** JavaScript truthiness of an optional string. */
  predicate Truthy(s: Option<string>) {
    s.Some? && s.value != ""
  }

  /** A composite parameter generates its options from its items. */
  predicate IsComposite(t: OptionType) {
    t == Related || t == Group || t == Combined
  }

  /** `isDataFromIniFile`: line and sectional files are parsed as INI. */
  predicate IsDataFromIniFile(view: View) {
    view == LineView || view == Sectional
  }

  /** `getOptionName`: the key an option is stored under. */
  function OptionName(loc: Location): (r: string)
    ensures IsItemParameter(loc) ==> r == loc.valuePath.value + "/" + loc.name + "/" + loc.valueName.value
    ensures !IsItemParameter(loc) && Truthy(loc.iniGroup) ==> r == loc.iniGroup.value + "/" + loc.name
    ensures !IsItemParameter(loc) && !Truthy(loc.iniGroup) ==> r == loc.name
  {
    if IsItemParameter(loc) then loc.valuePath.value + "/" + loc.name + "/" + loc.valueName.value
    else if Truthy(loc.iniGroup) then loc.iniGroup.value + "/" + loc.name
    else loc.name
  }

  /** A sectional name splits back on `/` into its group and its name
      when neither contains `/`. */
  lemma SectionalNameSplits(loc: Location)
    requires !IsItemParameter(loc) && Truthy(loc.iniGroup)
    requires '/' !in loc.iniGroup.value && '/' !in loc.name
    ensures Split(OptionName(loc), "/") == [loc.iniGroup.value, loc.name]
  {
    SplitJoin([loc.iniGroup.value, loc.name], "/");
    assert Join([loc.iniGroup.value, loc.name], "/") == OptionName(loc) by {
      assert [loc.iniGroup.value, loc.name][1..] == [loc.name];
    }
  }

  /** A tag name splits back on `/` into the value path's segments, the
      name and the value name. */
  lemma TagNameSplits(loc: Location)
    requires IsItemParameter(loc)
    requires '/' !in loc.name && '/' !in loc.valueName.value
    ensures Split(OptionName(loc), "/") == Split(loc.valuePath.value, "/") + [loc.name, loc.valueName.value]
  {
    var segs := Split(loc.valuePath.value, "/");
    var parts := segs + [loc.name, loc.valueName.value];
    SplitPiecesLackSeparator(loc.valuePath.value, "/");
    forall k | 0 <= k < |parts|
      ensures '/' !in parts[k]
    {
      if k < |segs| {
        assert parts[k] == segs[k];
        if '/' in segs[k] {
          var j :| 0 <= j < |segs[k]| && segs[k][j] == '/';
          assert OccursAt(segs[k], "/", j) by { assert segs[k][j..j + 1] == [segs[k][j]]; }
        }
      }
    }
    JoinSplit(loc.valuePath.value, "/");
    JoinAppend(segs, loc.name, "/");
    JoinAppend(segs + [loc.name], loc.valueName.value, "/");
    assert segs + [loc.name] + [loc.valueName.value] == parts;
    SplitJoin(parts, "/");
  }

  /** The test `getParametersForOptionsGenerate` filters with: the
      parameter belongs to group `g`. */
  function OfGroup(g: string): Parameter -> bool {
    (p: Parameter) => p.settingGroup == Some(g)
  }

  /** `getParametersForOptionsGenerate`: with navigation groups and a
      current group, the parameters of that group in their file order;
      otherwise all. */
  function ParametersForOptionsGenerate(file: SettingsFile, groups: seq<SettingsGroup>, current: Option<string>): (r: seq<Parameter>)
    ensures |groups| > 0 && Truthy(current) ==>
      (forall p :: p in r <==> p in file.optionsList && p.settingGroup == current)
      && InOrder(r, file.optionsList, OfGroup(current.value))
    ensures !(|groups| > 0 && Truthy(current)) ==> r == file.optionsList
  {
    if |groups| > 0 && Truthy(current) then
      FilterInOrder(file.optionsList, OfGroup(current.value));
      Filter(file.optionsList, OfGroup(current.value))
    else file.optionsList
  }

  /** One entry of a select control. */
  datatype SelectOption = SelectOption(caption: string, value: string)

  /** The source of a select list: an array of keys, or an object from
      keys to labels (its entries in `Object.keys` order). */
  datatype SelectSource = Keys(keys: seq<string>) | Labelled(entries: seq<(string, string)>)

  /** `generateSelectOptions`. */
  function SelectOptions(src: SelectSource): (r: seq<SelectOption>)
    ensures src.Keys? ==> |r| == |src.keys| && forall i :: 0 <= i < |r| ==> r[i] == SelectOption(src.keys[i], src.keys[i])
    ensures src.Labelled? ==> |r| == |src.entries| && forall i :: 0 <= i < |r| ==> r[i] == SelectOption(src.entries[i].1, src.entries[i].0)
  {
    match src
    case Keys(ks) => seq(|ks|, i requires 0 <= i < |ks| => SelectOption(ks[i], ks[i]))
    case Labelled(es) => seq(|es|, i requires 0 <= i < |es| => SelectOption(es[i].1, es[i].0))
  }

  /** The options give their source back: the values are the keys in
      order, and for an object each caption is the label of its key. An
      array of keys lists the same options as the object labelling every
      key with itself. */
  lemma SelectOptionsRecoverSource(src: SelectSource)
    ensures var r := SelectOptions(src);
      && (src.Keys? ==> seq(|r|, i requires 0 <= i < |r| => r[i].value) == src.keys)
      && (src.Labelled? ==> seq(|r|, i requires 0 <= i < |r| => (r[i].value, r[i].caption)) == src.entries)
    ensures src.Keys? ==>
      SelectOptions(src) == SelectOptions(Labelled(seq(|src.keys|, i requires 0 <= i < |src.keys| => (src.keys[i], src.keys[i]))))
  {
  }

  /** `getUserThemes`: the built-in theme under the empty key, then one
      entry per theme folder (a folder called "" overrides it). */
  function UserThemes(folders: seq<string>): (r: map<string, string>)
    ensures r.Keys == {""} + set f | f in folders
    ensures forall f :: f in folders ==> r[f] == f
    ensures "" !in folders ==> r[""] == "default"
    decreases |folders|
  {
    if |folders| == 0 then map["" := "default"]
    else UserThemes(folders[..|folders| - 1])[folders[|folders| - 1] := folders[|folders| - 1]]
  }
}

=== FILE: seqs.dfy ===
/** JavaScript's `Array.prototype.filter` on sequences, with the order it
    keeps stated by the positions of the kept elements. */
module Seqs {

  /** The indexes of `s` whose element `keep` accepts, increasing. */
  function Positions<T>(s: seq<T>, keep: T -> bool): (r: seq<nat>)
    ensures forall k :: 0 <= k < |r| ==> r[k] < |s| && keep(s[r[k]])
    ensures forall j, k :: 0 <= j < k < |r| ==> r[j] < r[k]
    ensures forall i :: 0 <= i < |s| && keep(s[i]) ==> i in r
    decreases |s|
  {
    if |s| == 0 then []
    else
      var init := s[..|s| - 1];
      assert forall i :: 0 <= i < |init| ==> init[i] == s[i];
      Positions(init, keep) + if keep(s[|s| - 1]) then [|s| - 1] else []
  }

  /** `r` lists the elements of `s` that `keep` accepts, in their order in
      `s`: its k-th element is the k-th accepted one. */
  ghost predicate InOrder<T>(r: seq<T>, s: seq<T>, keep: T -> bool) {
    var ps := Positions(s, keep);
    |r| == |ps| && forall k :: 0 <= k < |r| ==> r[k] == s[ps[k]]
  }

  /** `arr.filter(keep)`. */
  function Filter<T(!new)>(s: seq<T>, keep: T -> bool): (r: seq<T>)
    ensures |r| <= |s|
    ensures forall x :: x in r <==> x in s && keep(x)
    decreases |s|
  {
    if |s| == 0 then []
    else Filter(s[..|s| - 1], keep) + if keep(s[|s| - 1]) then [s[|s| - 1]] else []
  }

  /** `filter` is the subsequence of accepted elements: it keeps them in
      their order and drops nothing else. */
  lemma {:induction false} FilterInOrder<T(!new)>(s: seq<T>, keep: T -> bool)
    ensures InOrder(Filter(s, keep), s, keep)
    decreases |s|
  {
    if |s| > 0 {
      var init := s[..|s| - 1];
      FilterInOrder(init, keep);
      assert forall i :: 0 <= i < |init| ==> init[i] == s[i];
    }
  }

  /** A filter that accepts nothing keeps nothing. */
  lemma {:induction false} FilterNone<T(!new)>(s: seq<T>, keep: T -> bool)
    requires forall i :: 0 <= i < |s| ==> !keep(s[i])
    ensures Filter(s, keep) == []
    decreases |s|
  {
    if |s| > 0 {
      var init := s[..|s| - 1];
      assert forall i :: 0 <= i < |init| ==> init[i] == s[i];
      FilterNone(init, keep);
    }
  }

  /** The first element `filter` keeps is the first accepted element. */
  lemma {:induction false} FilterFirst<T(!new)>(s: seq<T>, keep: T -> bool, j: nat)
    requires j < |s| && keep(s[j]) && forall i :: 0 <= i < j ==> !keep(s[i])
    ensures |Filter(s, keep)| > 0 && Filter(s, keep)[0] == s[j]
    decreases |s|
  {
    var init := s[..|s| - 1];
    if j < |init| {
      assert init[j] == s[j];
      assert forall i :: 0 <= i < j ==> init[i] == s[i];
      FilterFirst(init, keep, j);
    } else {
      assert forall i :: 0 <= i < |init| ==> init[i] == s[i];
      FilterNone(init, keep);
    }
  }

  /** The last element `filter` keeps is the last accepted element. */
  lemma {:induction false} FilterLast<T(!new)>(s: seq<T>, keep: T -> bool, j: nat)
    requires j < |s| && keep(s[j]) && forall i :: j < i < |s| ==> !keep(s[i])
    ensures |Filter(s, keep)| > 0 && Filter(s, keep)[|Filter(s, keep)| - 1] == s[j]
    decreases |s|
  {
    var init := s[..|s| - 1];
    if j < |init| {
      assert init[j] == s[j];
      assert forall i :: j < i < |init| ==> init[i] == s[i];
      assert !keep(s[|s| - 1]);
      FilterLast(init, keep, j);
    }
  }

  /** Filtering keeps the order: it distributes over concatenation. */
  lemma {:induction false} FilterAppend<T(!new)>(s: seq<T>, t: seq<T>, keep: T -> bool)
    ensures Filter(s + t, keep) == Filter(s, keep) + Filter(t, keep)
    decreases |t|
  {
    if |t| > 0 {
      var n := |t| - 1;
      assert (s + t)[..|s + t| - 1] == s + t[..n];
      assert (s + t)[|s + t| - 1] == t[n];
      FilterAppend(s, t[..n], keep);
    } else {
      assert s + t == s;
    }
  }

  /** Filtering twice with the same test changes nothing the second time. */
  lemma {:induction false} FilterIdempotent<T(!new)>(s: seq<T>, keep: T -> bool)
    ensures Filter(Filter(s, keep), keep) == Filter(s, keep)
    decreases |s|
  {
    if |s| > 0 {
      var n := |s| - 1;
      FilterIdempotent(s[..n], keep);
      var last := if keep(s[n]) then [s[n]] else [];
      FilterAppend(Filter(s[..n], keep), last, keep);
      if keep(s[n]) {
        assert Filter(last, keep) == Filter([], keep) + [s[n]] by {
          assert last[..0] == [];
        }
      }
    }
  }

  /** A filter that keeps every element is the identity. */
  lemma {:induction false} FilterKeepsAll<T(!new)>(s: seq<T>, keep: T -> bool)
    requires forall k :: 0 <= k < |s| ==> keep(s[k])
    ensures Filter(s, keep) == s
    decreases |s|
  {
    if |s| > 0 {
      var n := |s| - 1;
      assert forall k :: 0 <= k < n ==> s[..n][k] == s[k];
      FilterKeepsAll(s[..n], keep);
      assert keep(s[n]);
      assert s[..n] + [s[n]] == s;
    }
  }
}

=== FILE: strings.dfy ===
/** The JavaScript string primitives the option engine relies on:
    `trim`, `indexOf`, `replace` with a string pattern, `split` and `join`.
    Strings are sequences of UTF-16 code units, as in JavaScript. */
module Strings {
  import opened Wrappers

  /** The characters matched by `\s` in a JavaScript regular expression
      (WhiteSpace and LineTerminator of ECMAScript). */
  predicate IsSpace(c: char) {
    || c == ' ' || c == '\t' || c == '\n' || c == '\r'
    || c == '\U{000B}' || c == '\U{000C}' || c == '\U{00A0}' || c == '\U{1680}'
    || ('\U{2000}' <= c <= '\U{200A}')
    || c == '\U{2028}' || c == '\U{2029}' || c == '\U{202F}' || c == '\U{205F}'
    || c == '\U{3000}' || c == '\U{FEFF}'
  }

  /** The characters a `.` in a JavaScript regular expression does not match. */
  predicate IsLineTerminator(c: char) {
    c == '\n' || c == '\r' || c == '\U{2028}' || c == '\U{2029}'
  }

  /** Number of leading `\s` characters of `s`. */
  function LeadingSpaces(s: string): (n: nat)
    ensures n <= |s|
    ensures forall k :: 0 <= k < n ==> IsSpace(s[k])
    ensures n < |s| ==> !IsSpace(s[n])
  {
    if |s| == 0 || !IsSpace(s[0]) then 0 else 1 + LeadingSpaces(s[1..])
  }

  /** Number of trailing `\s` characters of `s`. */
  function TrailingSpaces(s: string): (n: nat)
    ensures n <= |s|
    ensures forall k :: |s| - n <= k < |s| ==> IsSpace(s[k])
    ensures n < |s| ==> !IsSpace(s[|s| - n - 1])
  {
    if |s| == 0 || !IsSpace(s[|s| - 1]) then 0 else 1 + TrailingSpaces(s[..|s| - 1])
  }

  /** `String.prototype.trim`: `s` without its leading and trailing white space. */
  function Trim(s: string): (r: string)
    ensures |r| <= |s|
    ensures |r| > 0 ==> !IsSpace(r[0]) && !IsSpace(r[|r| - 1])
  {
    var a := LeadingSpaces(s);
    if a == |s| then ""
    else
      var b := TrailingSpaces(s);
      assert !IsSpace(s[a]);
      s[a..|s| - b]
  }

  /** `sub` occurs in `s` starting at position `k`. */
  predicate OccursAt(s: string, sub: string, k: nat) {
    k + |sub| <= |s| && s[k..k + |sub|] == sub
  }

  /** The first position at or after `from` where `sub` occurs in `s`. */
  function IndexOfFrom(s: string, sub: string, from: nat): (r: Option<nat>)
    requires from <= |s|
    ensures r.Some? ==> from <= r.value && OccursAt(s, sub, r.value)
    ensures r.Some? ==> forall k :: from <= k < r.value ==> !OccursAt(s, sub, k)
    ensures r.None? ==> forall k :: from <= k ==> !OccursAt(s, sub, k)
    decreases |s| - from
  {
    if from + |sub| > |s| then None
    else if s[from..from + |sub|] == sub then Some(from)
    else
      assert |sub| > 0;
      IndexOfFrom(s, sub, from + 1)
  }

  /** `String.prototype.indexOf`, with "not found" as `None`. */
  function IndexOf(s: string, sub: string): (r: Option<nat>)
    ensures r.Some? ==> OccursAt(s, sub, r.value)
    ensures r.Some? ==> forall k :: 0 <= k < r.value ==> !OccursAt(s, sub, k)
    ensures r.None? ==> forall k :: !OccursAt(s, sub, k)
  {
    IndexOfFrom(s, sub, 0)
  }

  /** An occurrence inside a prefix of `s` is an occurrence in `s`. */
  lemma PrefixOccurrence(s: string, sub: string, i: nat, k: nat)
    requires i <= |s| && OccursAt(s[..i], sub, k)
    ensures OccursAt(s, sub, k) && k + |sub| <= i
  {
    assert s[..i][k..k + |sub|] == s[k..k + |sub|];
  }

  /** The replacement text `String.prototype.replace` inserts for a
      string pattern (the GetSubstitution operation of ECMA-262):
      `$$` is one `$`, `$&` the matched text, `` $` `` the text before the
      match, `$'` the text after it; any other `$` stands for itself, as
      there are no capture groups. */
  function Substitute(rep: string, matched: string, before: string, after: string): (r: string)
    decreases |rep|
  {
    if |rep| == 0 then ""
    else if rep[0] == '$' && |rep| >= 2 && rep[1] == '$' then "$" + Substitute(rep[2..], matched, before, after)
    else if rep[0] == '$' && |rep| >= 2 && rep[1] == '&' then matched + Substitute(rep[2..], matched, before, after)
    else if rep[0] == '$' && |rep| >= 2 && rep[1] == '`' then before + Substitute(rep[2..], matched, before, after)
    else if rep[0] == '$' && |rep| >= 2 && rep[1] == '\'' then after + Substitute(rep[2..], matched, before, after)
    else [rep[0]] + Substitute(rep[1..], matched, before, after)
  }

  /** A replacement without `$` is inserted literally. */
  lemma {:induction false} SubstituteLiteral(rep: string, matched: string, before: string, after: string)
    requires '$' !in rep
    ensures Substitute(rep, matched, before, after) == rep
    decreases |rep|
  {
    if |rep| > 0 {
      assert '$' !in rep[1..] by {
        assert forall k :: 0 <= k < |rep[1..]| ==> rep[1..][k] == rep[k + 1];
      }
      SubstituteLiteral(rep[1..], matched, before, after);
    }
  }

  /** `s.replace(pattern, replacement)` with a string pattern: only the first
      occurrence is replaced, by the substituted replacement; without an
      occurrence `s` is returned as is. */
  function ReplaceFirst(s: string, pattern: string, replacement: string): (r: string)
  {
    match IndexOf(s, pattern)
    case None => s
    case Some(i) => s[..i] + Substitute(replacement, pattern, s[..i], s[i + |pattern|..]) + s[i + |pattern|..]
  }

  /** Without an occurrence nothing changes; with one, the text before the
      first occurrence and the text after it are kept and a replacement
      without `$` stands in its place verbatim. */
  lemma ReplaceFirstLiteral(s: string, pattern: string, replacement: string)
    requires '$' !in replacement
    ensures IndexOf(s, pattern).None? ==> ReplaceFirst(s, pattern, replacement) == s
    ensures IndexOf(s, pattern).Some? ==> var i := IndexOf(s, pattern).value;
      ReplaceFirst(s, pattern, replacement) == s[..i] + replacement + s[i + |pattern|..]
  {
    if IndexOf(s, pattern).Some? {
      var i := IndexOf(s, pattern).value;
      SubstituteLiteral(replacement, pattern, s[..i], s[i + |pattern|..]);
    }
  }

  /** Replacing an occurrence by `$&` puts the match back: the string is
      unchanged. */
  lemma ReplaceByMatchIsIdentity(s: string, pattern: string)
    ensures ReplaceFirst(s, pattern, "$&") == s
  {
    if IndexOf(s, pattern).Some? {
      var i := IndexOf(s, pattern).value;
      var rest := s[i + |pattern|..];
      assert Substitute("$&", pattern, s[..i], rest) == pattern + Substitute("", pattern, s[..i], rest);
      assert s[i..i + |pattern|] == pattern;
      assert s == s[..i] + s[i..i + |pattern|] + rest;
    }
  }

  /** `s.split(sep)` for a non-empty separator. */
  function Split(s: string, sep: string): (r: seq<string>)
    requires |sep| > 0
    ensures |r| >= 1
    decreases |s|
  {
    match IndexOf(s, sep)
    case None => [s]
    case Some(i) => [s[..i]] + Split(s[i + |sep|..], sep)
  }

  /** No piece of a split holds the separator. */
  lemma {:induction false} SplitPiecesLackSeparator(s: string, sep: string)
    requires |sep| > 0
    ensures forall k :: 0 <= k < |Split(s, sep)| ==> IndexOf(Split(s, sep)[k], sep).None?
    decreases |s|
  {
    match IndexOf(s, sep)
    case None =>
    case Some(i) =>
      assert IndexOf(s[..i], sep).None? by {
        if IndexOf(s[..i], sep).Some? {
          PrefixOccurrence(s, sep, i, IndexOf(s[..i], sep).value);
        }
      }
      SplitPiecesLackSeparator(s[i + |sep|..], sep);
      assert Split(s, sep) == [s[..i]] + Split(s[i + |sep|..], sep);
  }

  /** `parts.join(sep)`. */
  function Join(parts: seq<string>, sep: string): (r: string)
    ensures |parts| == 1 ==> r == parts[0]
  {
    if |parts| == 0 then ""
    else if |parts| == 1 then parts[0]
    else parts[0] + sep + Join(parts[1..], sep)
  }

  /** Joining the pieces of a split gives back the original string. */
  lemma {:induction false} JoinSplit(s: string, sep: string)
    requires |sep| > 0
    ensures Join(Split(s, sep), sep) == s
    decreases |s|
  {
    var found := IndexOf(s, sep);
    if found.Some? {
      var i := found.value;
      var rest := s[i + |sep|..];
      var tail := Split(rest, sep);
      JoinSplit(rest, sep);
      assert Split(s, sep) == [s[..i]] + tail;
      assert Join([s[..i]] + tail, sep) == s[..i] + sep + Join(tail, sep) by {
        assert ([s[..i]] + tail)[1..] == tail;
      }
      assert s[i..i + |sep|] == sep;
      assert s == s[..i] + s[i..i + |sep|] + rest;
    }
  }

  /** A string without the first character of a one-character separator
      holds no occurrence of it. */
  lemma NoCharNoOccurrence(s: string, sep: string)
    requires |sep| == 1 && sep[0] !in s
    ensures IndexOf(s, sep).None?
  {
  }

  /** Splitting a join on a one-character separator gives back the pieces
      when none of them contains the separator. */
  lemma {:induction false} SplitJoin(parts: seq<string>, sep: string)
    requires |sep| == 1 && |parts| >= 1
    requires forall k :: 0 <= k < |parts| ==> sep[0] !in parts[k]
    ensures Split(Join(parts, sep), sep) == parts
    decreases |parts|
  {
    if |parts| == 1 {
      NoCharNoOccurrence(parts[0], sep);
    } else {
      var p := parts[0];
      var tail := Join(parts[1..], sep);
      var s := p + sep + tail;
      assert Join(parts, sep) == s;
      assert OccursAt(s, sep, |p|) by {
        assert s[|p|..|p| + 1] == sep;
      }
      forall k | 0 <= k < |p|
        ensures !OccursAt(s, sep, k)
      {
        assert s[k] == p[k];
        assert s[k..k + 1] == [s[k]];
      }
      var i := IndexOf(s, sep);
      assert i == Some(|p|);
      assert s[..|p|] == p;
      assert s[|p| + 1..] == tail;
      SplitJoin(parts[1..], sep);
      assert parts == [p] + parts[1..];
    }
  }

  /** Joining with one more piece appends the separator and the piece. */
  lemma {:induction false} JoinAppend(parts: seq<string>, x: string, sep: string)
    requires |parts| >= 1
    ensures Join(parts + [x], sep) == Join(parts, sep) + sep + x
    decreases |parts|
  {
    if |parts| == 1 {
      assert parts + [x] == [parts[0], x];
      assert [parts[0], x][1..] == [x];
    } else {
      assert (parts + [x])[1..] == parts[1..] + [x];
      JoinAppend(parts[1..], x, sep);
    }
  }
}

=== FILE: tagtree.dfy ===
/** The parsed form of a tag (XML-like) settings file and the two deep-key
    helpers that walk it: `getValueFromObjectDeepKey` and
    `setValueForObjectDeepKey` (src/utils/data.ts). */
module TagTree {
  import opened Wrappers

  /** A node of the parsed tree. A tag (or the document root) is an object
      from keys to children; attribute values and inner text (`#text`) are
      leaves holding strings. */
  datatype Node = Leaf(text: string) | Obj(children: map<string, Node>)

  /** `obj[key]`: the child stored under `key`; a leaf has no children. */
  function Child(n: Node, key: string): (r: Option<Node>)
    ensures r.Some? <==> n.Obj? && key in n.children
  {
    if n.Obj? && key in n.children then Some(n.children[key]) else None
  }

  /** Deep-key read: follows `keys` from `n`. A step through an absent
      key yields nothing (JavaScript gives `undefined`, or throws when the
      walk continues below it). */
  function GetDeep(n: Node, keys: seq<string>): (r: Option<Node>)
    requires |keys| > 0
    decreases |keys|
  {
    if |keys| == 1 then Child(n, keys[0])
    else
      match Child(n, keys[0])
      case None => None
      case Some(c) => GetDeep(c, keys[1..])
  }

  /** Every proper prefix of `keys` addresses an object, starting with `n`
      itself: the condition under which the deep-key write can assign. */
  predicate Reaches(n: Node, keys: seq<string>)
    requires |keys| > 0
    decreases |keys|
  {
    && n.Obj?
    && (|keys| == 1 || (keys[0] in n.children && Reaches(n.children[keys[0]], keys[1..])))
  }

  /** Deep-key write: stores `Leaf(v)` at `keys`, rebuilding the objects on
      the way. Assigning on a string or on `undefined` throws a TypeError in
      the source; that outcome is `None`. */
  function SetDeep(n: Node, keys: seq<string>, v: string): (r: Option<Node>)
    requires |keys| > 0
    ensures r.Some? <==> Reaches(n, keys)
    ensures r.Some? ==> r.value.Obj? && r.value.children.Keys == n.children.Keys + {keys[0]}
    decreases |keys|
  {
    if !n.Obj? then None
    else if |keys| == 1 then Some(Obj(n.children[keys[0] := Leaf(v)]))
    else if keys[0] !in n.children then None
    else
      match SetDeep(n.children[keys[0]], keys[1..], v)
      case None => None
      case Some(c) => Some(Obj(n.children[keys[0] := c]))
  }

  /** Two key paths that differ at some position both paths have. */
  predicate Diverge(p: seq<string>, q: seq<string>)
    decreases |p|
  {
    |p| > 0 && |q| > 0 && (p[0] != q[0] || Diverge(p[1..], q[1..]))
  }

  /** After a successful deep-key write, reading the same path gives the
      written value. */
  lemma {:induction false} SetThenGet(n: Node, keys: seq<string>, v: string)
    requires |keys| > 0 && Reaches(n, keys)
    ensures GetDeep(SetDeep(n, keys, v).value, keys) == Some(Leaf(v))
    decreases |keys|
  {
    if |keys| > 1 {
      SetThenGet(n.children[keys[0]], keys[1..], v);
    }
  }

  /** A deep-key write leaves every path that diverges from the written one
      unchanged. */
  lemma {:induction false} SetKeepsOtherPaths(n: Node, keys: seq<string>, v: string, p: seq<string>)
    requires |keys| > 0 && Reaches(n, keys) && |p| > 0 && Diverge(p, keys)
    ensures GetDeep(SetDeep(n, keys, v).value, p) == GetDeep(n, p)
    decreases |keys|
  {
    var n' := SetDeep(n, keys, v).value;
    if p[0] != keys[0] {
      assert Child(n', p[0]) == Child(n, p[0]);
    } else {
      assert |keys| > 1 && |p| > 1;
      var c := n.children[keys[0]];
      SetKeepsOtherPaths(c, keys[1..], v, p[1..]);
      assert Child(n', p[0]) == Some(SetDeep(c, keys[1..], v).value);
    }
  }

  /** `SetKeepsOtherPaths` for every diverging path at once. */
  lemma SetKeepsAllOtherPaths(n: Node, keys: seq<string>, v: string)
    requires |keys| > 0 && Reaches(n, keys)
    ensures forall p {:trigger GetDeep(SetDeep(n, keys, v).value, p)} :: |p| > 0 && Diverge(p, keys) ==> GetDeep(SetDeep(n, keys, v).value, p) == GetDeep(n, p)
  {
    forall p | |p| > 0 && Diverge(p, keys)
      ensures GetDeep(SetDeep(n, keys, v).value, p) == GetDeep(n, p)
    {
      SetKeepsOtherPaths(n, keys, v, p);
    }
  }

  /** Below the written leaf nothing can be read any more. */
  lemma {:induction false} SetHidesExtensions(n: Node, keys: seq<string>, v: string, p: seq<string>)
    requires |keys| > 0 && Reaches(n, keys) && |p| > |keys| && p[..|keys|] == keys
    ensures GetDeep(SetDeep(n, keys, v).value, p) == None
    decreases |keys|
  {
    var n' := SetDeep(n, keys, v).value;
    if |keys| == 1 {
      assert Child(n', p[0]) == Some(Leaf(v));
      assert Child(Leaf(v), p[1]) == None;
      assert |p[1..]| > 0;
      if |p| > 2 {
        assert GetDeep(n', p) == GetDeep(Leaf(v), p[1..]);
      }
    } else {
      assert p[1..][..|keys[1..]|] == keys[1..];
      SetHidesExtensions(n.children[keys[0]], keys[1..], v, p[1..]);
    }
  }
}

=== FILE: wrappers.dfy ===
/** Failure-compatible wrapper shared by every module of the model. */
module Wrappers {

  /** A value that may be absent: stands for JavaScript's `undefined`
      (or `null`) in the places where the source distinguishes it. */
  datatype Option<+T> = None | Some(value: T) {

    predicate IsFailure() {
      None?
    }

    function PropagateFailure<U>(): Option<U>
      requires None?
    {
      None
    }

    function Extract(): T
      requires Some?
    {
      value
    }

    /** The wrapped value, or `default` when absent. */
    function GetOr(default: T): T {
      match this
      case Some(v) => v
      case None => default
    }
  }
}
